=== FILE: README.md ===
# PyWDE core in Dafny

This project models the selection core of PyWDE, a wavelet density
estimator that estimates the square root of a density from k-th
nearest-neighbour ball volumes. It covers:

- the coefficient store `WParams`: indexing, `calc_coeffs`,
  `calc_coeffs_loo`, `calc_terms`, `calc_pdf` and `gen_pdf`;
- the three coefficient selectors of `WaveletDensityEstimator`:
  - the greedy `calc_iter_pdf`;
  - the cross-validated `calc_pdf_cv`, with `calc_c_function`,
    `single_threshold` and `pos_k_min`;
  - the multi-level grid search `multi_threshold` over `StateJ` and `StateWDE`;
- the ordering keys (`ORDERINGS`) and the three losses (`LOSSES`);
- the sort keys `coeff_sort`, `coeff_sort_no_j` and `_cv2_key_sort`;
- the log-likelihood estimator's hard thresholding and MDL ranking
  (`log_estimator.py`);
- the shape-preserving estimator's leave-one-out level search (`spwde.py`).

Python exceptions are values of `Results.Error`. An operation that can raise
returns `Result<T>`, and `:-` propagates the first failure in the order the
source evaluates. Python's `/` on two floats raises ZeroDivisionError for a
zero divisor, and so does the model, including at every `x / math.sqrt(y)`.
Where the source's dividend is a numpy float, the source does not raise
there but goes on with inf or nan; the members concerned are listed under
"## Left out". The pdf's `(Σ coeff·base)² / norm_const` is a numpy division
and is an `Option` (`Density.Eval`).
Python dictionaries keep insertion order, so a dictionary is a sequence of
items with distinct keys. `d[k] = v` is `WParams.Put`: it overwrites in
place or appends.

Square roots, logarithms, the gamma ratio inside the bias factor ω(n), the
ball query, and the wavelet functions `fun_ix`/`supp_ix` are all parameters.
Where a property needs a genuine square root, it is assumed through
`Lists.IsSqrt`. Reals are exact.

Modules, one per file, following the program's structure:

| file | module | what |
|---|---|---|
| results.dfy | Results | `Result`, `Option`, Python exception kinds |
| lists.dfy | Lists | sums, argmin/argmax with numpy's tie rule, Python indexing and slicing, `/` and `math.sqrt` errors |
| sorting.dfy | Sorting | a stable sort (Python's `sorted`) with its sortedness and stability lemmas |
| balls.dfy | NearestBalls | `calc_sqrt_vs`, `balls_no_i` |
| wparams.dfy | WParams | store, indexing, `calc_coeffs`, `calc_coeffs_loo` |
| terms.dfy | Terms | `calc_terms` |
| density.dfy | Density | `calc_pdf`, `gen_pdf`, the normaliser |
| criteria.dfy | Criteria | `ORDERINGS`, `LOSSES`, `StateWDE.lossfn` |
| threshold.dfy | Thresholds | `calc_c_function`, `pos_k_min`, `single_threshold` |
| multi.dfy | MultiThreshold | `StateJ`, `StateWDE`, `multi_threshold` |
| cv.dfy | CrossValidation | `calc_pdf_cv` |
| iter.dfy | Iterative | `calc_iter_pdf` |
| sortkeys.dfy | SortKeys | `coeff_sort`, `coeff_sort_no_j`, `_cv2_key_sort` |
| logest.dfy | LogEstimator | `log_estimator.py` |
| spwde.dfy | Spwde | `spwde.py` |

## Model

| member | source | states |
|---|---|---|
| Lists.ArgMin | pywde/square_root_estimator.py:899 | the index returned is the first position of a minimal value (numpy's tie rule) |
| Lists.ArgMinBool | pywde/square_root_estimator.py:659 | numpy argmin on booleans: the first False, or 0 when every entry is True |
| Lists.PyIndex | pywde/square_root_estimator.py:676 | Python indexing succeeds exactly for -len ≤ i < len; a negative index counts from the end; anything else is IndexError |
| Lists.SqrtDiv | pywde/square_root_estimator.py:502 | `a / math.sqrt(x)`: a negative x is ValueError, a zero root is ZeroDivisionError, otherwise the quotient times the root gives back a |
| NearestBalls.SqrtVolumes | pywde/spwde.py:149-159 | succeeds exactly when k+2 ≤ n; each sample's two volumes are pow of its distance in columns k and k+1 times the unit constant; the neighbour table is kept as queried |
| NearestBalls.BallsNoI | pywde/spwde.py:119-128 | a sample that has i among its first k+1 neighbours takes its (k+1)-th-ball volume; every other sample keeps its k-th-ball volume |
| WParams.Put | pywde/square_root_estimator.py:637-639 | dictionary assignment: the keys gain the new key; an existing key keeps its position and length; a new key is appended; other items are unchanged; distinct keys stay distinct |
| WParams.PutAll | pywde/square_root_estimator.py:637-639 | after assigning a list of items, the keys are the union of both key sets and stay distinct |
| WParams.PutAllFrom | pywde/square_root_estimator.py:637-639 | every value left after the assignments was already there or was assigned |
| WParams.PutAllKeeps | pywde/square_root_estimator.py:637-639 | an item whose key is never assigned keeps its position and value |
| WParams.AddIndexes | pywde/square_root_estimator.py:265-279 | `_calc_indexes_j`: existing slots stay as a prefix; new keys are the candidates not yet present, each pending (`None`); the count returned is the number of new distinct keys |
| WParams.Prune | pywde/square_root_estimator.py:104-125 | the pass of `calc_coeffs` leaves a complete store no longer than the input |
| WParams.PruneMembers | pywde/square_root_estimator.py:108-125 | a slot survives exactly as `Filled` leaves it: computed slots unchanged; a pending slot filled unless both coefficients are below 1e-7, then deleted |
| WParams.PruneDistinct | pywde/square_root_estimator.py:108-125 | pruning keeps the keys distinct |
| WParams.CalcCoeffsSlots | pywde/square_root_estimator.py:104-125 | `calc_coeffs` keeps every computed slot; a pending slot survives, with its computed triple, exactly when it is not negligible; nothing else appears |
| WParams.CalcCoeffsKeys | pywde/square_root_estimator.py:119-125 | a key survives `calc_coeffs` exactly when it was computed or its new pair is above the floor; keys stay distinct |
| WParams.LooBalls | pywde/square_root_estimator.py:133-141 | one ball per sample except `ix`, in order; a sample whose k-th neighbour (column -2) is `ix` takes its (k+1)-th-ball volume |
| WParams.CalcCoeffsLoo | pywde/square_root_estimator.py:128-159 | the result is complete with distinct keys; computed slots are kept; every new slot fills a pending key with the leave-one-out pair; a pending key survives exactly when its leave-one-out pair is not below 1e-7 in both parts, and is deleted otherwise |
| WParams.LooSurvival | pywde/square_root_estimator.py:153-159 | over the n-1 remaining samples, a pending key is kept exactly when the leave-one-out pair (the full adjusted sums minus the left-out sample's term) is not negligible |
| WParams.LooReindex | pywde/square_root_estimator.py:132-151 | the sum over the n-1 remaining samples equals the adjusted sum over all n samples minus the left-out sample's own term |
| WParams.LooEntry | pywde/square_root_estimator.py:147-151 | both coefficients `calc_coeffs_loo` computes for a key are ω(n-1) times that full-sum-minus-own-term |
| Terms.OuterZeroWhen | pywde/square_root_estimator.py:220-233 | when no sample's (k+1)-th ball differs from its k-th ball, the neighbour sum behind term3 is zero |
| Terms.ScatterVals | pywde/square_root_estimator.py:220-233 | the scatter loop into `vals_i` has one slot per sample; its total is the sum of every sample's k neighbour terms |
| Terms.Omega | pywde/square_root_estimator.py:285-288 | `omega(n)`: `math.sqrt(n - 1)` raises ValueError exactly when n < 1; otherwise ω(n)·n is √(n-1) times the gamma ratio |
| Terms.OmegaPositive | pywde/square_root_estimator.py:285-288 | with a true square root and a positive gamma ratio, ω(n) is defined and positive for every n ≥ 2 |
| Terms.TermsAt | pywde/square_root_estimator.py:213-234 | given ω(n) and ω(n-1): `omega_n1 / omega_n` raises ZeroDivisionError exactly when ω(n) is 0; otherwise term1·ω(n) is ω(n-1)·coeff·coeff_b, term2 is ω(n)ω(n-1) times Σ dual·base·vk², term3 is ω(n)ω(n-1) times the neighbour sum, `coeff2` is coeff·coeff_b, and term3 vanishes when every (k+1)-th ball equals the k-th |
| Terms.CalcTerms | pywde/square_root_estimator.py:199-234 | ValueError('Use calc_coeffs first') without ball data; with it, n ≤ 1 raises ValueError from `omega(n - 1)`; for n ≥ 2 it succeeds exactly when ω(n) ≠ 0, with the terms of `TermsAt` at ω(n) and ω(n-1) |
| Density.NormConstPermutation | pywde/square_root_estimator.py:177 | the normaliser Σ coeff·coeff_b does not depend on the dictionary order |
| Density.NormConstAppend | pywde/square_root_estimator.py:195 | adding one item adds its coeff·coeff_b to the normaliser |
| Density.NormConstOrthogonal | pywde/square_root_estimator.py:177 | with coeff_b equal to coeff the normaliser is a sum of squares, so never negative |
| Density.CalcPdf | pywde/square_root_estimator.py:163-186 | succeeds exactly when some value has a positive support count (`min` of an empty list is ValueError); records the dictionary, its length and its normaliser |
| Density.Eval | pywde/square_root_estimator.py:164-172 | the estimate exists exactly when the normaliser is non-zero; it times the normaliser is the squared root sum; it is non-negative for a positive normaliser |
| Density.EvalPermutation | pywde/square_root_estimator.py:164-177 | two orderings of the same coefficients give the same estimate |
| Density.GenPdf | pywde/square_root_estimator.py:188-197 | one pair per item, in order, keyed by the item; from a zero start each value is the estimate of the prefix dictionary up to that item |
| Density.PrefixValueIsEval | pywde/square_root_estimator.py:188-197 | the running value after item i equals `calc_pdf` of the first i+1 items evaluated at the point |
| Criteria.OrderKey | pywde/square_root_estimator.py:420-430 | every key except `Trad` is defined; `Trad` times √(j+1) is \|coeff\|; `TrBio` times (j+1) is coeff2; the `A` variants are never negative |
| Criteria.Q2IsQ | pywde/square_root_estimator.py:424-425 | `Q2Term` and `AQ2Term` rank exactly as `QTerm` and `AQTerm` |
| Criteria.AbsoluteVariants | pywde/square_root_estimator.py:421-427 | `AQTerm` and `AQImpr` are the magnitudes of `QTerm` and `QImpr`; `QImpr` is `QTerm` minus half of coeff2 |
| Criteria.TradDamped | pywde/square_root_estimator.py:428 | with a true square root the `Trad` key lies between 0 and \|coeff\| |
| Criteria.LossValue | pywde/square_root_estimator.py:816-823 | an unknown loss raises ValueError; `Normed` needs a defined non-zero root, and (1 - loss)·√norm is the affinity; `Original` is 1 - affinity; `Improved` is ½ + ½·norm - affinity |
| Criteria.LossDecreasing | pywde/square_root_estimator.py:816-821 | at the same norm, a larger affinity gives a strictly smaller loss under every known loss |
| Criteria.StateLoss | pywde/square_root_estimator.py:701-706 | `StateWDE.lossfn` agrees with the loss curve's formula for the three known losses; an unknown loss leaves `lossfn` unset, so its use raises AttributeError |
| Sorting.StableSortSorted | pywde/square_root_estimator.py:803 | for a total preorder, the sort's result is sorted |
| Sorting.StableSortStable | pywde/square_root_estimator.py:803 | for every key, the elements carrying it keep their input order (Python's sort is stable) |
| Thresholds.SortCandidatesSorted | pywde/square_root_estimator.py:803 | after the sort by `(j, -threshold)`, levels ascend and within a level the ordering key descends |
| Thresholds.SortCandidatesMembers | pywde/square_root_estimator.py:803 | the sort neither adds nor drops a candidate |
| Thresholds.SortCandidatesStable | pywde/square_root_estimator.py:803 | candidates with equal level and key keep their input order |
| Thresholds.CalcCFunction | pywde/square_root_estimator.py:801-838 | one row per candidate in sorted order: its key, its level, and the loss after taking it and all before it on top of the alphas; an error is the loss error of some prefix |
| Thresholds.PosKMin | pywde/square_root_estimator.py:898-899 | the position is at most `max_params` and the last index, never after the first minimum, and equals one of the three; it is non-negative when `max_params` is |
| Thresholds.SingleThreshold | pywde/square_root_estimator.py:790-799 | no candidates gives the `No betas` result; otherwise the cut is `pos_k_min` over the curve, read with Python indexing, within budget and bounds; when the budget allows, the reported target is the curve's minimum |
| MultiThreshold.BoundAt | pywde/square_root_estimator.py:731-739 | `threshold_c` per level: -inf below the single threshold's level; +inf above it; at that level the finite threshold only if it is level 0, since an earlier level already overwrote the variable with -inf |
| MultiThreshold.OfLevelMembers | pywde/square_root_estimator.py:732 | the filter keeps exactly the candidates of the level |
| MultiThreshold.LevelContribsMembers | pywde/square_root_estimator.py:732-733 | a level's list holds exactly that level's candidates |
| MultiThreshold.StartK | pywde/square_root_estimator.py:659 | the start position is one before the first key below the bound, and -1 when all or none pass |
| MultiThreshold.StartKIsLastPassing | pywde/square_root_estimator.py:659 | with keys sorted descending and a finite bound, the start is the last position that passes |
| MultiThreshold.StateJ | pywde/square_root_estimator.py:654-664 | a level without candidates raises ValueError (argmin of an empty array); otherwise the level keeps its number, its candidates and the start cut of its bound |
| MultiThreshold.StateJSums | pywde/square_root_estimator.py:659-663 | entry k of a level's running sums is the sum of its first k+1 affinities and norms |
| MultiThreshold.Build | pywde/square_root_estimator.py:730-741 | the level loop: a result has one well-formed level per list |
| MultiThreshold.BuildOk | pywde/square_root_estimator.py:730-741 | the level loop fails exactly when one of its lists is empty |
| MultiThreshold.BuildSpec | pywde/square_root_estimator.py:730-741 | level j of a successful loop is numbered j, holds list j and starts at the cut of bound j |
| MultiThreshold.BuildLevelsOk | pywde/square_root_estimator.py:730-741 | building the levels fails exactly when some level 0..d-1 has no candidates |
| MultiThreshold.BuildLevelsSpec | pywde/square_root_estimator.py:730-741 | each built level holds exactly its level's candidates, sorted, and starts at the cut of its `threshold_c` |
| MultiThreshold.EvalTarget | pywde/square_root_estimator.py:711-717 | under `Original` and `Improved`, the target at any positions is defined |
| MultiThreshold.MovesComplete | pywde/square_root_estimator.py:759 | every combination of steps from {-2, 0, 2}, one per level, is among the moves |
| MultiThreshold.StuckFromMoves | pywde/square_root_estimator.py:759-775 | a pass over the enumerated moves that finds nothing better rules out every combination of steps, not just the listed ones |
| MultiThreshold.Round | pywde/square_root_estimator.py:759-778 | one grid pass: the value never rises; a strict improvement names a valid non-zero move reaching that value; no valid non-zero move beats the result |
| MultiThreshold.BetterShrinks | pywde/square_root_estimator.py:754-786 | a strictly better position strictly shrinks the finite set of positions that beat the current value, so the `while ok` loop ends |
| MultiThreshold.LevelResult | pywde/square_root_estimator.py:673-683 | `as_result`: position, target, sorted list and level as given; the threshold is read with Python indexing, so -1 reads the last candidate |
| MultiThreshold.Descend | pywde/square_root_estimator.py:754-786 | the loop keeps every cut in [-1, len) and never raises the value; the value returned is the target at the cuts returned; when it stops, no combination of steps from {-2, 0, 2} that is not all zero and keeps every level in range beats it; under `Original` and `Improved` it cannot fail |
| MultiThreshold.Search | pywde/square_root_estimator.py:726-788 | fails when a level is empty and, under `Original` and `Improved`, only then; returns one result per level with its candidates and a cut in range; the common target never exceeds the start value and is the target at the reported cuts; the final cuts admit no improving move |
| MultiThreshold.SearchAsWritten | pywde/square_root_estimator.py:726-788 | the search with `dk = best_dk_js[j] / ddx`: it returns only when the first round finds no improvement, and then every level reports the start target |
| MultiThreshold.AsWrittenFailsAfterImprovement | pywde/square_root_estimator.py:781-786 | whenever the first round improves on the start, the search as written raises TypeError in that round |
| MultiThreshold.AsWrittenCounterexample | pywde/square_root_estimator.py:781-786 | a concrete one-level input on which the search as written raises TypeError |
| CrossValidation.ClassifySlot | pywde/square_root_estimator.py:611-631 | a pending slot raises TypeError on unpacking; a zero coefficient changes nothing; a live alpha is assigned, with its product added to the alpha norm and its term1 - term2 + term3 added to the alpha affinity; a live beta appends one ranked candidate and leaves the alpha sums alone |
| CrossValidation.Classify | pywde/square_root_estimator.py:611-631 | the alphas are exactly the live alphas of the store, with distinct keys; the candidates cover exactly its live betas, each ranked by the ordering (their store order and the summed affinity are stated by `CrossValidation.ClassifyOrder` and `CrossValidation.ClassifyContrib`) |
| CrossValidation.TermsOk | pywde/square_root_estimator.py:199-234 | with ball data, at least two samples, a positive gamma ratio and a true square root, `calc_terms` does not raise |
| CrossValidation.ClassifyOk | pywde/square_root_estimator.py:611-631 | a complete store classifies without error when `calc_terms` has ball data, at least two samples, a positive gamma ratio and a true square root |
| CrossValidation.ClassifyNoBalls | pywde/square_root_estimator.py:617 | without ball data, any live slot makes the classification raise |
| CrossValidation.ClassifyNorm | pywde/square_root_estimator.py:619-623 | with distinct store keys, the summed alpha norm is the normaliser of the alpha dictionary |
| CrossValidation.ClassifyContrib | pywde/square_root_estimator.py:618-623 | with distinct store keys, the summed alpha affinity is the sum of term1 - term2 + term3 over the alpha dictionary, each alpha once |
| CrossValidation.ClassifyOrder | pywde/square_root_estimator.py:611-631 | the candidates are the store's live betas in store order, each once: the order the stable sort at line 803 keeps among equal keys |
| CrossValidation.ChosenFrom | pywde/square_root_estimator.py:647-650 | every chosen coefficient belongs to a candidate of some threshold's list |
| CrossValidation.FirstCut | pywde/square_root_estimator.py:635-642 | `single_threshold` on the split: `No betas` without candidates, else the candidates sorted by level and key, their loss curve row by row, the cut at `pos_k_min` with budget n - #alphas, and that row's key, target and level |
| CrossValidation.MultiCut | pywde/square_root_estimator.py:642-646 | `multi_threshold` from the single threshold's sorted list, level and key: one `Multi` result per level holding that level's candidates, a common target no worse than the start that is the loss at the reported cuts and that no grid move beats; it fails without candidates |
| CrossValidation.NoLevelsWithoutBetas | pywde/square_root_estimator.py:659 | with no candidates the first level is empty, and building its state raises |
| CrossValidation.Cut | pywde/square_root_estimator.py:635-650 | single: exactly the `single_threshold` result; multi: exactly what `multi_threshold` finds from it, and only with at least one beta; every ranked candidate is a beta |
| CrossValidation.SelectionFacts | pywde/square_root_estimator.py:637-650 | adding the chosen betas keeps every alpha, adds only store coefficients, and keeps keys distinct |
| CrossValidation.CvFitOptions | pywde/square_root_estimator.py:393-397 | `cvfit` raises ValueError('Wrong loss') for a loss outside `LOSSES`, then ValueError('Wrong ordering') for an ordering outside `ORDERINGS`, and passes otherwise |
| CrossValidation.CvFitOptionsGuard | pywde/square_root_estimator.py:393-401 | past those checks `calc_pdf_cv` cannot reach its `RefTao` TypeError or its KeyError, and a loss can fail only through the `Normed` root |
| CrossValidation.CalcPdfCv | pywde/square_root_estimator.py:600-652 | ValueError without beta levels; `RefTao` raises TypeError; an unknown ordering raises KeyError; classification errors propagate; a result keeps the alphas and adds the first `pos_k + 1` sorted betas of each threshold; the thresholds are the `single_threshold` result on the classified split (single), or the levels `multi_threshold` finds from it with a target no grid move beats (multi) |
| Iterative.StartSums | pywde/square_root_estimator.py:493-501 | the first loop keeps exactly the store's live coefficients, with distinct keys |
| Iterative.StartNorm | pywde/square_root_estimator.py:500 | with distinct store keys, the summed norm is the normaliser of the starting dictionary |
| Iterative.StartLoss | pywde/square_root_estimator.py:502 | defined exactly when the norm's root is defined and non-zero; (1 - loss)·√norm is the affinity |
| Iterative.Betas | pywde/square_root_estimator.py:532-544 | the candidates are live non-alpha coefficients of the store, each with its contribution term1 - term2 + term3 and its coeff2, and every live beta of the store is among them |
| Iterative.NewLoss | pywde/square_root_estimator.py:565 | the loss after adding a candidate satisfies (1 - loss)·√(norm + n2) = affinity + c |
| Iterative.Gains | pywde/square_root_estimator.py:560-563 | the gain vector is defined exactly when every candidate's gain is; it is the gains in order; an error is some candidate's error |
| Iterative.BestLowersMost | pywde/square_root_estimator.py:560-565 | the candidate with the largest gain gives the smallest new loss |
| Iterative.GainsDefined | pywde/square_root_estimator.py:560-563 | with a true square root and a positive norm, every gain is defined |
| Iterative.Accept | pywde/square_root_estimator.py:549-586 | accepted plus remaining is a permutation of the candidates; sums and dictionary grow by exactly the accepted ones; the losses stay positive and strictly decrease; every acceptance is the first candidate of largest gain among those left, at the sums of the betas accepted before it, and its traced loss is the loss it gives; the loop ends only when a stop rule holds |
| Iterative.GreedyRunStep | pywde/square_root_estimator.py:560-583 | a greedy step from the candidates left extends a greedy run by that beta, its loss and the candidates after it |
| Iterative.StepRuns | pywde/square_root_estimator.py:560-583 | the acceptance `Accept` makes, at the argmax of the gains, is such a greedy step |
| Iterative.MaxLevel | pywde/square_root_estimator.py:575 | `max_lvl` bounds every accepted level and is attained, or is 0 |
| Iterative.Explore | pywde/square_root_estimator.py:549-596 | the accept loop from the start sums: the dictionary is the start plus the accepted betas, `delta_j` is one past the deepest accepted level, the accepted betas are the greedy run over the candidates, and the loop stops for one of its reasons |
| Iterative.CalcIterPdf | pywde/square_root_estimator.py:486-598 | errors come in source order; the final loss never exceeds the start loss, and the trace strictly descends; every alpha is kept; coefficients come from the stores with distinct keys; the dictionary is the start plus the accepted betas; `delta_j` is `max_lvl + 1` over the accepted betas; the accepted betas are the greedy run over the candidates of the refined store, and the run ends with no candidate left, a full dictionary, or no improving best candidate |
| Iterative.AcceptedFacts | pywde/square_root_estimator.py:579 | adding the accepted betas keeps every starting alpha, adds only store coefficients and keeps keys distinct |
| SortKeys.KeyLtStrictTotal | pywde/square_root_estimator.py:943 | Python's comparison of two resolution indices is irreflexive, transitive and total on distinct indices |
| SortKeys.Unpack2 | pywde/square_root_estimator.py:940 | `coeff, num = tup` succeeds exactly on two values; fewer or more raise the two ValueError messages |
| SortKeys.CoeffSort | pywde/square_root_estimator.py:937-943 | defined exactly on a pair with a non-zero root; the kind flag is "not alpha"; -key·√(j+1) is \|coeff\| |
| SortKeys.CoeffSortNoJ | pywde/square_root_estimator.py:945-951 | defined exactly on a pair; the kind flag is "not alpha"; the magnitude key is -\|coeff\| |
| SortKeys.CoeffSortRejectsEntries | pywde/square_root_estimator.py:940 | applied to the store's triples, both keys raise "too many values to unpack" |
| SortKeys.CoeffSortAlphasFirst | pywde/square_root_estimator.py:941-943 | every alpha sorts strictly before every beta |
| SortKeys.CoeffSortByMagnitude | pywde/square_root_estimator.py:942-943 | same level and kind: a larger magnitude sorts first; equal magnitudes fall back to the index order |
| SortKeys.CoeffSortLevelZero | pywde/square_root_estimator.py:942 | at level 0 the two sort keys coincide |
| SortKeys.CoeffSortNoJOrder | pywde/square_root_estimator.py:945-951 | `coeff_sort_no_j` orders by kind, then by decreasing magnitude, then by index, and by nothing else |
| SortKeys.Cv2KeySort | pywde/square_root_estimator.py:953-956 | the key holds "not alpha", -j, qx and zs |
| SortKeys.Cv2Order | pywde/square_root_estimator.py:953-956 | alphas first, then finer levels first, then by qx and zs |
| SortKeys.Cv2Ties | pywde/square_root_estimator.py:956 | two indices tie exactly when they agree on kind, level, qx and zs |
| LogEstimator.IfPos | pywde/log_estimator.py:269-270 | the non-zero values, and only those |
| LogEstimator.LogFactorial | pywde/log_estimator.py:17-20 | 0 for n ≤ 1 |
| LogEstimator.LogFactorialStep | pywde/log_estimator.py:17-20 | log (n+1)! = log n! + log(n+1) for n ≥ 1 |
| LogEstimator.HardTh | pywde/log_estimator.py:249-263 | zero below the level cut-off th·√(j+1), the coefficient at or above it; a coefficient with at most 35 samples is never thresholded |
| LogEstimator.HardThShrinks | pywde/log_estimator.py:249-263 | thresholding never grows a magnitude and never flips a sign |
| LogEstimator.HardThOdd | pywde/log_estimator.py:254-263 | c and -c are treated alike |
| LogEstimator.HardThIdempotent | pywde/log_estimator.py:249-263 | thresholding twice is thresholding once |
| LogEstimator.ThFun | pywde/log_estimator.py:99-106 | the identity when thresholding is off or unset, otherwise `hard_th` (at an infinite key, every coefficient with more than 35 samples is cut) |
| LogEstimator.AlphasNeverThresholded | pywde/log_estimator.py:117 | the alpha level's norm is the same whatever thresholding is set |
| LogEstimator.LevelNormBounds | pywde/log_estimator.py:103-107 | a level's norm is non-negative and thresholding can only lower it |
| LogEstimator.LogNormConstBounds | pywde/log_estimator.py:116-120 | the normaliser is non-negative and at most the unthresholded one |
| LogEstimator.MdlBetas | pywde/log_estimator.py:149-158 | one entry per non-zero detail coefficient, in order, with its level-scaled magnitude and `num > GN_NUM` flag; defined with a true square root |
| LogEstimator.SortMdlOrder | pywde/log_estimator.py:159 | eligible entries (`num > GN_NUM`) come first; within each group, scaled magnitudes descend |
| LogEstimator.EligiblePrefix | pywde/log_estimator.py:184-187 | the entries the ranking loop accepts form a prefix of the sorted list |
| LogEstimator.MdlRank | pywde/log_estimator.py:170-203 | one row for the alphas, then one per eligible beta in order; the best row is the first minimum of the scores (strict `<`) |
| LogEstimator.RankingKeysDescending | pywde/log_estimator.py:184-203 | the recorded thresholds never increase after the first beta |
| LogEstimator.CalcPdfMdl | pywde/log_estimator.py:146-205 | the ranking is `MdlRank` over the eligible entries of the sorted MDL list, and the best row is the first row of minimal score; row i has the alpha count plus i parameters; at most one row per non-zero detail coefficient plus one; thresholds descend |
| LogEstimator.CalcHardThresholdFun | pywde/log_estimator.py:246-248 | the closure thresholds at the best row's key and records its parameter count |
| LogEstimator.HardThKeepsRanked | pywde/log_estimator.py:246-263 | with a true square root, an eligible coefficient survives thresholding exactly when its ranking key reaches the chosen row's key; an ineligible one always survives |
| LogEstimator.AsWrittenAlphaRowKeepsBetas | pywde/log_estimator.py:180-182 | as written, when the alphas-only row (key 0) is chosen, the closure keeps every beta |
| LogEstimator.CalcHardThresholdFunCorrected | pywde/log_estimator.py:246-248 | the closure of the best row, except that the alphas-only row cuts every beta with more than 35 samples |
| LogEstimator.CorrectedKeepsRanked | pywde/log_estimator.py:246-263 | with the corrected closure, ranking row a keeps an eligible beta exactly when a > 0 and the beta's key reaches the row's key; an ineligible beta always survives |
| LogEstimator.MdlFit | pywde/log_estimator.py:138-142 | installs the corrected hard threshold of the first best-scoring ranking row; the resulting normaliser is non-negative and at most the unthresholded one |
| Spwde.DotWithout | pywde/spwde.py:101 | the dot product minus sample i's term is the sum over every other sample |
| Spwde.AlphasNoIOthers | pywde/spwde.py:92-103 | each leave-one-out alpha is ω(n-1) times the weighted sum over every sample except i |
| Spwde.AlphasNoIFromAlphas | pywde/spwde.py:92-116 | on the same balls, the leave-one-out alpha is the full alpha without sample i's term, rescaled from ω(n) to ω(n-1) |
| Spwde.SampleTot | pywde/spwde.py:44-63 | RuntimeError exactly when the norm is zero and the root value is not; 0 when both vanish; g²/N in the normed and MDL modes, g² otherwise |
| Spwde.SampleTotTotal | pywde/spwde.py:52-56 | in exact arithmetic the RuntimeError cannot occur, and every value is non-negative |
| Spwde.BaseAt | pywde/spwde.py:46-48 | `base_fun[zs]` for every dual translation, in order: KeyError exactly when some translation has no base function |
| Spwde.LevelTots | pywde/spwde.py:42-64 | KeyError exactly when there are samples and a dual translation has no base function; otherwise one value per sample, from that sample's left-out balls, its leave-one-out alphas and its base values; every value is non-negative |
| Spwde.SurfaceOverflowsAt | pywde/spwde.py:136-138 | `math.pi ** ((num_params + 1) / 2)` overflows a double, and raises, exactly when there are 1240 or more parameters |
| Spwde.BestJ | pywde/spwde.py:25-75 | an unknown mode raises ValueError first; then the ball query fails exactly when k+2 > n; then the nine levels of `range(9)` succeed exactly when every level's dual translations have base functions and, in MDL mode, `calc_surface` of the level's alpha count is finite (fewer than 1240 alphas); a failure is the exception of the first failing level, KeyError from the sample loop or OverflowError from `math.pi ** ((num_params + 1) / 2)`, and only KeyError outside MDL mode; one non-negative value per sample and level |

## Left out

- The ball query (sklearn's `BallTree`), the wavelet evaluations (`fun_ix`, `supp_ix`, `z_range`) and `all_zs_tensor`: external libraries, modelled as parameters. The candidate keys of `_calc_indexes_j` are an input sequence.
- `math.sqrt`, `np.log`, `gamma`, `loggamma` and `pow`: parameters. ω(n) (`omega`, `calc_omega`) and the unit-ball constant `sqrt_vunit` are given as values or as a function of n.
- Floating point: reals are exact. Underflow and rounding are not modelled, so the `RuntimeError` of `best_j`, which only rounding can reach, is shown unreachable (`Spwde.SampleTotTotal`).
- `smooth`, `to_dict`/`from_dict`, `name`, printing, timing and `trace` bookkeeping: no effect on the selected coefficients.
- `fit`, `iterfit`, `cvfit`, `_fitinit` and `_iterinit`: drivers that wire the modelled operations to I/O and the ball query. Only the option checks of `cvfit` are modelled (`CrossValidation.CvFitOptions`).
- `WaveletDensityEstimator.mdlfit` and `calc_pdf_mdl` in `square_root_estimator.py`: they call `_fitinit` with an argument it does not take and a `calc_contribution` that does not exist, so they cannot run.
- `calc_pdf_ref_tao`: its call passes one argument too few, so `RefTao` raises TypeError (`CrossValidation.CalcPdfCv`). `RefAllTao` is not a key of `ORDERINGS` and raises KeyError.
- `log_estimator.py`'s `mdl` and `k_range`: not reachable from `mdlfit`. `calc_coefficients` and `do_calculate_j` are modelled only through their outputs (the stored coefficients and support counts).
- `WaveletDensityEstimator.best_j` (lines 443-484): a diagnostic loop that only prints.
- `SPWDE.best_j`'s score `b_hat_j`: only printed. The model returns the per-sample values it is built from. Of the MDL term only the OverflowError of `calc_surface` is modelled (`Spwde.SurfaceOverflows`); `calc_vol_theta` underflows to 0.0 silently, and `calc_surface`'s numpy value makes the division by it give inf or nan rather than raise.
- The pdf closure as a function of coordinates: a single point's root-sum is a parameter (`base`), and the estimate is modelled pointwise (`Density.Eval`).
- Iterative.CalcIterPdf: the refined store after `calc_indexes_j` and `calc_coeffs` is an input (`s2`). The level loop runs once, because both outer loops end in an unconditional `break`, and the unused `all_possible`/`all_rejected` ratios are left out. Each `trace_v` tuple is kept as the loss after the step and the beta accepted there; its index, previous loss, norm and level follow from those. The candidates left at the end are a ghost output, because the source drops them.
- CrossValidation.CalcPdfCv: the single threshold that starts the multi search is a ghost output (`first`), because the source keeps it only in a local.
- Terms.CalcTerms: the gamma ratio gamma(k)/gamma(k+1/2) is a parameter. If it were a numpy zero, `omega_n1 / omega_n` would give inf or nan rather than the modelled ZeroDivisionError; a true gamma ratio is positive, so for n ≥ 2 this cannot happen (`Terms.OmegaPositive`).
- Iterative.StartSums and CrossValidation.Classify: `calc_terms` takes n, the gamma ratio and `math.sqrt` from the environment, as the estimator fixes them once per fit.
- Lists.SqrtDiv: models Python float division. Callers whose dividend is a numpy float get inf or nan from the source where the model raises ZeroDivisionError; those callers are listed below.
- Criteria.LossValue: for `Normed` with √norm = 0 the model raises ZeroDivisionError; the source's `batta_sum` is a numpy float there, so it goes on with inf or nan.
- Criteria.StateLoss: the same for the `Normed` `lossfn`.
- MultiThreshold.EvalTarget: a `Normed` target at a zero norm is an error in the model, inf or nan in the source.
- MultiThreshold.Round: stops at the first move whose `Normed` target is an error; the source compares inf or nan and goes on.
- MultiThreshold.Descend: the same, over all rounds.
- MultiThreshold.Search: the same, from the start target on.
- Thresholds.CalcCFunction: a prefix with a zero `Normed` norm stops the curve with ZeroDivisionError; the source records inf or nan and goes on.
- Thresholds.SingleThreshold: fails with the curve's error in that case.
- CrossValidation.CalcPdfCv: fails with that error in both the single and the multi search.
- Iterative.StartLoss: with alphas present and a zero alpha norm the source gives inf or nan; the model raises ZeroDivisionError, which the source does only when there are no alphas at all.
- Iterative.NewLoss: a zero √(norm + n2) raises in the model; the source's numpy sum gives inf or nan.
- Iterative.Gain: a zero √norm or √(norm + n2) raises in the model; the source gives inf or nan.
- Iterative.Gains: the same for each gain; the source's `np.argmax` then picks among inf and nan.
- Iterative.Accept: stops with that error instead of continuing on inf or nan.
- Iterative.CalcIterPdf: propagates the errors of `Iterative.StartLoss` and `Iterative.Accept`.
- Iterative.Explore: propagates the errors of `Iterative.Accept`.
- LogEstimator.MdlFit: installs the corrected closure (see Findings). With the source's closure, an alphas-only best row keeps every beta instead of none.
- Density.GenPdf: the generator's mutation of the caller's `xs_sum` array is not modelled; the yielded values are.
- SortKeys.CoeffSort and SortKeys.CoeffSortNoJ have no callers in the modelled code. On the store's triples they raise ValueError (`SortKeys.CoeffSortRejectsEntries`), so their orderings are stated for pairs.
- `calc1` and `xs_sum_zeros`: unused helpers.

## Findings

| source | as written | input that shows it | evidently intended | confidence | as-written member | corrected member |
|---|---|---|---|---|---|---|
| pywde/square_root_estimator.py:781-786 | moves are evaluated at ±2 (`ddx = 2`), then applied as `dk = best_dk_js[j] / ddx`, which is true division in Python 3: after an improving round `curr_k` becomes a numpy float, and the `trace.append` of that same round calls `curr_cs()`, which indexes the `contribs` list with it and raises TypeError | one level with keys 3, 2, 1, each adding 0.1 to the affinity and 0.01 to the norm, single threshold 2.5 on level 0, `Original` loss: the start cut is 0, the first round finds the better cut 2, `curr_k` becomes 1.0, and `curr_cs()` raises | two readings fit: (a) the ±1 move the halving writes, which is what `/` gave under Python 2 (`2/2 == 1`), although the target kept is then the one evaluated at ±2; (b) a move to the ±2 cuts the accepted move was evaluated at, so that `target_val` is the loss at the reported cuts. Either keeps the positions integral and the loop running. The corrected member follows (b) | not executed | MultiThreshold.SearchAsWritten | MultiThreshold.Search |
| pywde/log_estimator.py:180 | the alphas-only rank row records the key `0`, and `calc_hard_threshold_fun` builds `hard_th` with `th_value = 0`, so `lvl_t` is 0 and nothing is cut | any fit whose alphas alone score lowest: the installed density keeps every beta, i.e. the largest model rather than the smallest | the alphas-only row stands for the density without betas, so its closure should cut every ranked beta (an infinite key, e.g. `float('inf')`) | not executed | LogEstimator.AsWrittenAlphaRowKeepsBetas | LogEstimator.CalcHardThresholdFunCorrected |

=== FILE: balls.dfy ===
/** Square-root volumes of the k-th and (k+1)-th nearest-neighbour balls of
    every sample, and the neighbour index table they come from. The
    nearest-neighbour query itself (a BallTree) and the power/volume
    constants are inputs. */
module NearestBalls {
  import opened Results
  import opened Lists

  /** `BallsInfo(sqrt_vol_k, sqrt_vol_k_plus_1, nn_indexes)`; the same three
      arrays are `xs_balls`, `xs_balls2` and `xs_balls_inx` of the
      coefficient store. */
  datatype Balls = Balls(vk: seq<real>, vk1: seq<real>, inx: seq<seq<int>>)

  /** The result of querying every sample for its `cols` nearest samples
      (the sample itself first): distances and indices, row by row. */
  datatype Query = Query(dist: seq<seq<real>>, inx: seq<seq<int>>)

  predicate QueryShape(q: Query, n: nat, cols: nat) {
    && |q.dist| == n
    && |q.inx| == n
    && forall i :: 0 <= i < n ==>
         && |q.dist[i]| == cols
         && |q.inx[i]| == cols
         && forall c :: 0 <= c < cols ==> 0 <= q.inx[i][c] < n
  }

  /** Ball data for n samples queried with k+2 neighbours. */
  predicate WellFormed(b: Balls, n: nat, k: nat) {
    && |b.vk| == n
    && |b.vk1| == n
    && |b.inx| == n
    && forall i :: 0 <= i < n ==>
         && |b.inx[i]| == k + 2
         && forall c :: 0 <= c < k + 2 ==> 0 <= b.inx[i][c] < n
  }

  /** `calc_sqrt_vs(xs, k)` and `WParams.calculate_nearest_balls`: query k+2
      neighbours (the sample itself is column 0), keep the last two distance
      columns, raise them to the power d/2 (`pow`) and scale by the square
      root of the unit-ball volume (`unit`). Asking for more neighbours than
      there are samples raises ValueError. */
  function SqrtVolumes(n: nat, k: nat, q: Query, pow: real -> real, unit: real): (r: Result<Balls>)
    requires k + 2 <= n ==> QueryShape(q, n, k + 2)
    ensures r.Ok? <==> k + 2 <= n
    ensures r.Ok? ==> WellFormed(r.value, n, k)
    ensures r.Ok? ==> forall i :: 0 <= i < n ==>
              && r.value.vk[i] == pow(q.dist[i][k]) * unit
              && r.value.vk1[i] == pow(q.dist[i][k + 1]) * unit
              && r.value.inx[i] == q.inx[i]
  {
    if n < k + 2 then
      Err(ValueError("k must be less than or equal to the number of training points"))
    else
      var last2 := seq(n, i requires 0 <= i < n => q.dist[i][|q.dist[i]| - 2..]);
      Ok(Balls(
        seq(n, i requires 0 <= i < n => pow(last2[i][0]) * unit),
        seq(n, i requires 0 <= i < n => pow(last2[i][1]) * unit),
        q.inx))
  }

  /** Row `i` of the neighbour table contains `x` among its first k+1
      columns (`x in nn_indexes[i, :-1]`). */
  predicate AmongNearest(b: Balls, i: nat, x: int)
    requires i < |b.inx| && |b.inx[i]| >= 1
  {
    x in b.inx[i][..|b.inx[i]| - 1]
  }

  /** `balls_no_i(balls_info, i)`: the k-th-ball volumes once sample `i`
      is left out. A sample that had `i` among its k+1 nearest (itself
      included) takes its (k+1)-th-ball volume; every other sample keeps its
      k-th-ball volume. */
  method BallsNoI(b: Balls, i: int) returns (r: seq<real>)
    requires |b.vk| == |b.inx| && |b.vk1| == |b.inx|
    requires forall t :: 0 <= t < |b.inx| ==> |b.inx[t]| >= 1
    ensures |r| == |b.inx|
    ensures forall t :: 0 <= t < |r| && AmongNearest(b, t, i) ==> r[t] == b.vk1[t]
    ensures forall t :: 0 <= t < |r| && !AmongNearest(b, t, i) ==> r[t] == b.vk[t]
  {
    var n := |b.inx|;
    r := [];
    var t := 0;
    while t < n
      invariant 0 <= t <= n
      invariant |r| == t
      invariant forall u :: 0 <= u < t && AmongNearest(b, u, i) ==> r[u] == b.vk1[u]
      invariant forall u :: 0 <= u < t && !AmongNearest(b, u, i) ==> r[u] == b.vk[u]
    {
      if i in b.inx[t][..|b.inx[t]| - 1] {
        r := r + [b.vk1[t]];
      } else {
        r := r + [b.vk[t]];
      }
      t := t + 1;
    }
  }
}

=== FILE: criteria.dfy ===
/** The pluggable ordering keys (`ORDERINGS`) and the three loss functions
    shared by `calc_c_function` and the multi-level search. */
module Criteria {
  import opened Results
  import opened Lists

  /** The ordering names `calc_pdf_cv` accepts. `RefTao` and `RefAllTao`
      are named constants of the estimator that are not in `ORDERINGS`;
      `Unnamed` is any other string. */
  datatype Ordering =
    | QTerm | AQTerm | Q2Term | AQ2Term | QImpr | AQImpr | Trad | TrBio
    | RefTao | RefAllTao
    | Unnamed(name: string)

  /** The ordering is a key of `ORDERINGS`. */
  predicate InOrderings(o: Ordering) {
    !o.RefTao? && !o.RefAllTao? && !o.Unnamed?
  }

  /** `ORDERINGS[o](coeff, coeff2, contrib, j)`: the value candidates are
      ranked by (descending). Only `Trad` divides by a square root, and only
      a degenerate square root can make it fail. */
  function OrderKey(o: Ordering, coeff: real, coeff2: real, contrib: real, j: nat, sqrt: real -> real): (r: Result<real>)
    requires InOrderings(o)
    ensures !o.Trad? ==> r.Ok?
    ensures IsSqrt(sqrt) ==> r.Ok?
    ensures o.Trad? && r.Ok? ==> r.value * sqrt((j + 1) as real) == Abs(coeff)
    ensures o.TrBio? ==> r.value * (j + 1) as real == coeff2
    ensures o.AQTerm? || o.AQ2Term? || o.AQImpr? ==> r.value >= 0.0
  {
    match o
    case QTerm => Ok(contrib)
    case AQTerm => Ok(Abs(contrib))
    case Q2Term => Ok(coeff2 + (contrib - coeff2))
    case AQ2Term => Ok(Abs(coeff2 + (contrib - coeff2)))
    case QImpr => Ok(contrib - 0.5 * coeff2)
    case AQImpr => Ok(Abs(contrib - 0.5 * coeff2))
    case Trad =>
      SqrtLemma(sqrt, (j + 1) as real);
      SqrtDiv(Abs(coeff), (j + 1) as real, sqrt)
    case TrBio => Ok(coeff2 / (j + 1) as real)
  }

  lemma SqrtLemma(sqrt: real -> real, x: real)
    requires x > 0.0
    ensures IsSqrt(sqrt) ==> sqrt(x) != 0.0
  {
  }

  /** `Q2Term` adds and subtracts `coeff2`: it ranks exactly like `QTerm`,
      and `AQ2Term` exactly like `AQTerm`. */
  lemma Q2IsQ(coeff: real, coeff2: real, contrib: real, j: nat, sqrt: real -> real)
    ensures OrderKey(Q2Term, coeff, coeff2, contrib, j, sqrt) == OrderKey(QTerm, coeff, coeff2, contrib, j, sqrt)
    ensures OrderKey(AQ2Term, coeff, coeff2, contrib, j, sqrt) == OrderKey(AQTerm, coeff, coeff2, contrib, j, sqrt)
  {
  }

  /** The `A` variants rank by the magnitude of their plain counterparts. */
  lemma AbsoluteVariants(coeff: real, coeff2: real, contrib: real, j: nat, sqrt: real -> real)
    ensures OrderKey(AQTerm, coeff, coeff2, contrib, j, sqrt).value == Abs(OrderKey(QTerm, coeff, coeff2, contrib, j, sqrt).value)
    ensures OrderKey(AQImpr, coeff, coeff2, contrib, j, sqrt).value == Abs(OrderKey(QImpr, coeff, coeff2, contrib, j, sqrt).value)
    ensures OrderKey(QImpr, coeff, coeff2, contrib, j, sqrt).value == OrderKey(QTerm, coeff, coeff2, contrib, j, sqrt).value - 0.5 * coeff2
  {
  }

  /** With a true square root the `Trad` key is the coefficient's
      magnitude damped by √(j+1): never negative, and never above |coeff|. */
  lemma TradDamped(coeff: real, coeff2: real, contrib: real, j: nat, sqrt: real -> real)
    requires IsSqrt(sqrt)
    ensures 0.0 <= OrderKey(Trad, coeff, coeff2, contrib, j, sqrt).value <= Abs(coeff)
  {
    var x := (j + 1) as real;
    var s := sqrt(x);
    assert s * s == x && s >= 0.0;
    AtLeastOne(s, x);
    var v := OrderKey(Trad, coeff, coeff2, contrib, j, sqrt).value;
    assert v * s == Abs(coeff);
    PositiveFactor(v, s);
    assert v * s - v == v * (s - 1.0);
    NonNegativeProduct(v, s - 1.0);
  }

  lemma AtLeastOne(s: real, x: real)
    requires s >= 0.0 && s * s == x && x >= 1.0
    ensures s >= 1.0
  {
    var d := s - 1.0;
    assert (d + 1.0) * (d + 1.0) == d * d + 2.0 * d + 1.0;
    assert d * d + 2.0 * d >= 0.0;
    assert d * (d + 2.0) >= 0.0;
    PositiveFactor(d, d + 2.0);
  }

  lemma NonNegativeProduct(a: real, b: real)
    requires a >= 0.0 && b >= 0.0
    ensures a * b >= 0.0
  {
  }

  lemma PositiveFactor(a: real, b: real)
    ensures a * b >= 0.0 && b > 0.0 ==> a >= 0.0
  {
    if a < 0.0 && b > 0.0 {
      assert a * b < 0.0;
    }
  }

  /** `LOSSES`, and any other string. */
  datatype Loss = Improved | Original | Normed | UnknownLoss(name: string)

  /** The loss of a selection whose estimated affinity is `batta` and whose
      squared norm is `norm`, as `calc_c_function` computes it: `Original`
      is 1 - B, `Normed` is 1 - B/√N, `Improved` is 0.5 + 0.5·N - B; any
      other name raises ValueError. */
  function LossValue(loss: Loss, batta: real, norm: real, sqrt: real -> real): (r: Result<real>)
    ensures r.Ok? <==> !loss.UnknownLoss? && (loss.Normed? ==> 0.0 <= norm && sqrt(norm) != 0.0)
    ensures loss.UnknownLoss? ==> r == Err(ValueError("Unknown loss=" + loss.name))
    ensures loss.Normed? && r.Ok? ==> (1.0 - r.value) * sqrt(norm) == batta
    ensures loss.Original? ==> r == Ok(1.0 - batta)
    ensures loss.Improved? ==> r.Ok? && 2.0 * r.value == 1.0 + norm - 2.0 * batta
  {
    match loss
    case Original => Ok(1.0 - batta)
    case Normed =>
      var q :- SqrtDiv(batta, norm, sqrt);
      Ok(1.0 - q)
    case Improved => Ok(0.5 + 0.5 * norm - batta)
    case UnknownLoss(name) => Err(ValueError("Unknown loss=" + name))
  }

  /** A larger affinity at the same norm always gives a strictly smaller
      loss, whichever loss is in use. */
  lemma LossDecreasing(loss: Loss, b1: real, b2: real, norm: real, sqrt: real -> real)
    requires IsSqrt(sqrt)
    requires b1 < b2
    requires LossValue(loss, b1, norm, sqrt).Ok?
    ensures LossValue(loss, b2, norm, sqrt).Ok?
    ensures LossValue(loss, b2, norm, sqrt).value < LossValue(loss, b1, norm, sqrt).value
  {
    if loss.Normed? {
      var s := sqrt(norm);
      assert s > 0.0;
      var v1 := LossValue(loss, b1, norm, sqrt).value;
      var v2 := LossValue(loss, b2, norm, sqrt).value;
      assert (1.0 - v1) * s < (1.0 - v2) * s;
      assert ((1.0 - v2) - (1.0 - v1)) * s > 0.0;
      assert v2 < v1;
    }
  }

  /** `StateWDE.lossfn`: the same three losses, but an unknown name leaves
      the attribute unset, so the first evaluation raises AttributeError. */
  function StateLoss(loss: Loss, batta: real, norm: real, sqrt: real -> real): (r: Result<real>)
    ensures loss.UnknownLoss? ==> r == Err(AttributeError)
    ensures !loss.UnknownLoss? ==> r == LossValue(loss, batta, norm, sqrt)
  {
    if loss.UnknownLoss? then Err(AttributeError) else LossValue(loss, batta, norm, sqrt)
  }
}

=== FILE: cv.dfy ===
/** `calc_pdf_cv`: split the computed store into alphas and ranked beta
    candidates, cut the candidates with the single threshold or the
    multi-level search, and keep the alphas plus the betas before each cut. */
module CrossValidation {
  import opened Results
  import opened Lists
  import opened NearestBalls
  import opened WParams
  import opened Terms
  import opened Criteria
  import opened Thresholds
  import opened MultiThreshold
  import opened Density

  /** What `calc_terms` and the selectors read from the estimator: the
      samples, the ball data (absent until `calc_coeffs` has run), the
      neighbour count, the gamma ratio Γ(k)/Γ(k+½) of ω, the wavelet, the
      square root and the sample count n. */
  datatype Env = Env(xs: seq<Point>, balls: Option<Balls>, k: nat, g: real,
                     wave: Wave, sqrt: real -> real, n: nat)

  predicate EnvOk(env: Env) {
    env.balls.Some? ==> WellFormed(env.balls.value, |env.xs|, env.k)
  }

  function TermsOf(c: Coef, env: Env): Result<Terms>
    requires EnvOk(env)
  {
    CalcTerms(c.key, c.entry, env.xs, env.balls, env.k, env.n, env.g, env.sqrt, env.wave)
  }

  /** With ball data, at least two samples, a positive gamma ratio and a
      true square root, `calc_terms` succeeds. */
  lemma TermsOk(c: Coef, env: Env)
    requires EnvOk(env) && env.balls.Some? && env.n >= 2 && env.g > 0.0 && IsSqrt(env.sqrt)
    ensures TermsOf(c, env).Ok?
  {
    OmegaPositive(env.n, env.g, env.sqrt);
  }

  /** A computed slot with a non-zero coefficient: the slots the loop uses. */
  predicate Live(sl: Slot) {
    sl.entry.Some? && sl.entry.value.coeff != 0.0
  }

  function CoefOf(sl: Slot): Coef
    requires sl.entry.Some?
  {
    Coef(sl.key, sl.entry.value)
  }

  /** The coefficient is one of the store's computed entries. */
  predicate FromStore(c: Coef, s: Store) {
    Slot(c.key, Some(c.entry)) in s
  }

  /** The candidate is a beta of the store, ranked by ordering `o`. */
  predicate RankedBeta(b: Candidate, s: Store, o: Ordering, env: Env)
    requires InOrderings(o) && EnvOk(env)
  {
    && !IsAlpha(b.coef.key)
    && b.coef.entry.coeff != 0.0
    && FromStore(b.coef, s)
    && TermsOf(b.coef, env) == Ok(b.terms)
    && OrderKey(o, b.coef.entry.coeff, b.terms.coeff2, Contribution(b.terms), b.coef.key.j, env.sqrt) == Ok(b.th)
  }

  /** The alphas with their summed norm and affinity, and the beta
      candidates in store order. */
  datatype Split = Split(alphas: Dict, alphaNorm: real, alphaContrib: real, betas: seq<Candidate>)

  /** The alphas are live alpha coefficients of the store. */
  predicate AlphasFrom(sp: Split, s: Store) {
    forall c :: c in sp.alphas ==> IsAlpha(c.key) && c.entry.coeff != 0.0 && FromStore(c, s)
  }

  /** The betas are live betas of the store, ranked by `o`. */
  predicate BetasFrom(sp: Split, s: Store, o: Ordering, env: Env)
    requires InOrderings(o) && EnvOk(env)
  {
    forall b :: b in sp.betas ==> RankedBeta(b, s, o, env)
  }

  /** Every live alpha of the store is among the split's alphas. */
  predicate AllAlphas(sp: Split, s: Store) {
    forall i :: 0 <= i < |s| && Live(s[i]) && IsAlpha(s[i].key) ==> s[i].key in DictKeys(sp.alphas)
  }

  /** Every live beta of the store is among the split's candidates. */
  predicate AllBetas(betas: seq<Candidate>, s: Store) {
    forall i :: 0 <= i < |s| && Live(s[i]) && !IsAlpha(s[i].key) ==>
      exists b :: b in betas && b.coef == CoefOf(s[i])
  }

  /** Covering the earlier slots and the last one covers the store. */
  lemma AllBetasStep(s: Store, betas: seq<Candidate>, extra: seq<Candidate>)
    requires |s| > 0 && AllBetas(betas, s[..|s| - 1])
    requires Live(s[|s| - 1]) && !IsAlpha(s[|s| - 1].key) ==> exists b :: b in extra && b.coef == CoefOf(s[|s| - 1])
    ensures AllBetas(betas + extra, s)
  {
    forall i | 0 <= i < |s| && Live(s[i]) && !IsAlpha(s[i].key)
      ensures exists b :: b in betas + extra && b.coef == CoefOf(s[i])
    {
      if i < |s| - 1 {
        assert s[..|s| - 1][i] == s[i];
        var b :| b in betas && b.coef == CoefOf(s[i]);
        assert b in betas + extra;
      } else {
        var b :| b in extra && b.coef == CoefOf(s[i]);
        assert b in betas + extra;
      }
    }
  }

  /** One slot of the classification loop: a pending slot raises
      TypeError, a zero coefficient is skipped, a live alpha is put into
      the alphas and a live beta becomes a ranked candidate. */
  function ClassifySlot(acc: Split, sl: Slot, o: Ordering, env: Env): (r: Result<Split>)
    requires InOrderings(o) && EnvOk(env)
    ensures sl.entry.None? ==> r == Err(TypeError)
    ensures r.Ok? && !Live(sl) ==> r.value == acc
    ensures r.Ok? && Live(sl) && IsAlpha(sl.key) ==>
      r.value.alphas == Put(acc.alphas, CoefOf(sl)) && r.value.betas == acc.betas &&
      r.value.alphaNorm == acc.alphaNorm + Product(CoefOf(sl))
    ensures r.Ok? && Live(sl) && IsAlpha(sl.key) ==>
      TermsOf(CoefOf(sl), env).Ok? &&
      r.value.alphaContrib == acc.alphaContrib + Contribution(TermsOf(CoefOf(sl), env).value)
    ensures r.Ok? && Live(sl) && !IsAlpha(sl.key) ==>
      r.value.alphas == acc.alphas && r.value.alphaNorm == acc.alphaNorm && r.value.alphaContrib == acc.alphaContrib &&
      |r.value.betas| == |acc.betas| + 1 && r.value.betas[..|acc.betas|] == acc.betas &&
      RankedBeta(r.value.betas[|acc.betas|], [sl], o, env) && r.value.betas[|acc.betas|].coef == CoefOf(sl)
  {
    if sl.entry.None? then Err(TypeError)
    else if sl.entry.value.coeff == 0.0 then Ok(acc)
    else
      var c := CoefOf(sl);
      var t :- TermsOf(c, env);
      if IsAlpha(sl.key) then
        Ok(Split(Put(acc.alphas, c), acc.alphaNorm + t.coeff2, acc.alphaContrib + Contribution(t), acc.betas))
      else
        var th :- OrderKey(o, c.entry.coeff, t.coeff2, Contribution(t), sl.key.j, env.sqrt);
        var b := Candidate(c, th, t);
        assert FromStore(c, [sl]);
        assert (acc.betas + [b])[..|acc.betas|] == acc.betas;
        Ok(Split(acc.alphas, acc.alphaNorm, acc.alphaContrib, acc.betas + [b]))
  }

  /** The classification loop of `calc_pdf_cv`. Unpacking a pending slot
      raises TypeError, `calc_terms` raises ValueError before the ball data
      exists, and the `Trad` key can fail on its square root; the first
      failing slot in store order decides the error. */
  function Classify(s: Store, o: Ordering, env: Env): (r: Result<Split>)
    requires InOrderings(o) && EnvOk(env)
    ensures r.Ok? ==> AlphasFrom(r.value, s) && BetasFrom(r.value, s, o, env)
    ensures r.Ok? ==> AllAlphas(r.value, s) && AllBetas(r.value.betas, s)
    ensures r.Ok? ==> DistinctDict(r.value.alphas)
    decreases |s|
  {
    if |s| == 0 then Ok(Split([], 0.0, 0.0, []))
    else
      var acc :- Classify(s[..|s| - 1], o, env);
      var r := ClassifySlot(acc, s[|s| - 1], o, env);
      ClassifyStep(s, o, env, acc, r);
      r
  }

  /** The slot step keeps the loop's guarantees. */
  lemma ClassifyStep(s: Store, o: Ordering, env: Env, acc: Split, r: Result<Split>)
    requires InOrderings(o) && EnvOk(env) && |s| > 0
    requires AlphasFrom(acc, s[..|s| - 1]) && BetasFrom(acc, s[..|s| - 1], o, env)
    requires AllAlphas(acc, s[..|s| - 1]) && AllBetas(acc.betas, s[..|s| - 1])
    requires DistinctDict(acc.alphas)
    requires r == ClassifySlot(acc, s[|s| - 1], o, env)
    ensures r.Ok? ==> AlphasFrom(r.value, s) && BetasFrom(r.value, s, o, env)
    ensures r.Ok? ==> AllAlphas(r.value, s) && AllBetas(r.value.betas, s)
    ensures r.Ok? ==> DistinctDict(r.value.alphas)
  {
    ClassifyStepAlphas(s, o, env, acc, r);
    ClassifyStepBetas(s, o, env, acc, r);
  }

  lemma ClassifyStepAlphas(s: Store, o: Ordering, env: Env, acc: Split, r: Result<Split>)
    requires InOrderings(o) && EnvOk(env) && |s| > 0
    requires AlphasFrom(acc, s[..|s| - 1]) && AllAlphas(acc, s[..|s| - 1])
    requires DistinctDict(acc.alphas)
    requires r == ClassifySlot(acc, s[|s| - 1], o, env)
    ensures r.Ok? ==> AlphasFrom(r.value, s) && AllAlphas(r.value, s) && DistinctDict(r.value.alphas)
  {
    var s' := s[..|s| - 1];
    assert forall i :: 0 <= i < |s'| ==> s'[i] == s[i];
    assert forall x :: x in s' ==> x in s;
  }

  lemma ClassifyStepBetas(s: Store, o: Ordering, env: Env, acc: Split, r: Result<Split>)
    requires InOrderings(o) && EnvOk(env) && |s| > 0
    requires BetasFrom(acc, s[..|s| - 1], o, env) && AllBetas(acc.betas, s[..|s| - 1])
    requires r == ClassifySlot(acc, s[|s| - 1], o, env)
    ensures r.Ok? ==> BetasFrom(r.value, s, o, env) && AllBetas(r.value.betas, s)
  {
    ClassifyStepRanked(s, o, env, acc, r);
    ClassifyStepCover(s, o, env, acc, r);
  }

  lemma ClassifyStepRanked(s: Store, o: Ordering, env: Env, acc: Split, r: Result<Split>)
    requires InOrderings(o) && EnvOk(env) && |s| > 0
    requires BetasFrom(acc, s[..|s| - 1], o, env)
    requires r == ClassifySlot(acc, s[|s| - 1], o, env)
    ensures r.Ok? ==> BetasFrom(r.value, s, o, env)
  {
    var s' := s[..|s| - 1];
    assert forall i :: 0 <= i < |s'| ==> s'[i] == s[i];
    assert forall x :: x in s' ==> x in s;
    if r.Ok? && Live(s[|s| - 1]) && !IsAlpha(s[|s| - 1].key) {
      var b := r.value.betas[|acc.betas|];
      assert r.value.betas == acc.betas + [b];
    }
  }

  lemma ClassifyStepCover(s: Store, o: Ordering, env: Env, acc: Split, r: Result<Split>)
    requires InOrderings(o) && EnvOk(env) && |s| > 0
    requires AllBetas(acc.betas, s[..|s| - 1])
    requires r == ClassifySlot(acc, s[|s| - 1], o, env)
    ensures r.Ok? ==> AllBetas(r.value.betas, s)
  {
    var sl := s[|s| - 1];
    if r.Ok? {
      if !Live(sl) || IsAlpha(sl.key) {
        AllBetasStep(s, acc.betas, []);
        assert acc.betas + [] == acc.betas;
      } else {
        var b := r.value.betas[|acc.betas|];
        assert r.value.betas == acc.betas + [b];
        assert b in [b];
        AllBetasStep(s, acc.betas, [b]);
      }
    }
  }

  /** The alphas and betas are coefficients of the store. */
  lemma SplitFromClassify(s: Store, o: Ordering, env: Env)
    requires InOrderings(o) && EnvOk(env)
    requires Classify(s, o, env).Ok?
    ensures SplitFrom(Classify(s, o, env).value, s)
  {
    var sp := Classify(s, o, env).value;
    forall b | b in sp.betas
      ensures !IsAlpha(b.coef.key) && FromStore(b.coef, s)
    {
      assert RankedBeta(b, s, o, env);
    }
  }

  /** A complete store classifies without error once `calc_terms` can
      compute: ball data, at least two samples, a positive gamma ratio and
      a true square root (which the `Trad` key also needs). */
  lemma {:induction false} ClassifyOk(s: Store, o: Ordering, env: Env)
    requires InOrderings(o) && EnvOk(env)
    requires Complete(s) && env.balls.Some? && env.n >= 2 && env.g > 0.0 && IsSqrt(env.sqrt)
    ensures Classify(s, o, env).Ok?
    decreases |s|
  {
    if |s| > 0 {
      ClassifyOk(s[..|s| - 1], o, env);
      if Live(s[|s| - 1]) {
        TermsOk(CoefOf(s[|s| - 1]), env);
      }
    }
  }

  /** Without ball data, any live slot makes `calc_terms` raise. */
  lemma {:induction false} ClassifyNoBalls(s: Store, o: Ordering, env: Env, i: nat)
    requires InOrderings(o) && EnvOk(env)
    requires env.balls.None? && i < |s| && Live(s[i])
    ensures Classify(s, o, env).Err?
    decreases |s|
  {
    if i < |s| - 1 {
      assert s[..|s| - 1][i] == s[i];
      ClassifyNoBalls(s[..|s| - 1], o, env, i);
    }
  }

  /** With distinct store keys the summed alpha norm is the normaliser of
      the alphas. */
  lemma {:induction false} ClassifyNorm(s: Store, o: Ordering, env: Env)
    requires InOrderings(o) && EnvOk(env)
    requires DistinctKeys(s) && Classify(s, o, env).Ok?
    ensures Classify(s, o, env).value.alphaNorm == NormConst(Classify(s, o, env).value.alphas)
    decreases |s|
  {
    if |s| > 0 {
      var s' := s[..|s| - 1];
      var sl := s[|s| - 1];
      assert DistinctKeys(s');
      var acc := Classify(s', o, env).value;
      assert Classify(s, o, env) == ClassifySlot(acc, sl, o, env);
      ClassifyNorm(s', o, env);
      if Live(sl) && IsAlpha(sl.key) {
        AlphaStep(s, acc.alphas, CoefOf(sl));
      }
    }
  }

  /** With distinct store keys the last slot's key is not among the
      alphas drawn from the earlier slots, so `Put` appends it. */
  lemma AlphaFresh(s: Store, alphas: Dict, c: Coef)
    requires |s| > 0 && c.key == s[|s| - 1].key
    requires forall a :: a in alphas ==> FromStore(a, s[..|s| - 1])
    ensures DistinctKeys(s) ==> c.key !in DictKeys(alphas) && Put(alphas, c) == alphas + [c]
  {
    if DistinctKeys(s) {
      forall a | a in alphas
        ensures a.key != c.key
      {
        var i :| 0 <= i < |s| - 1 && s[..|s| - 1][i] == Slot(a.key, Some(a.entry));
        assert s[i].key == a.key;
      }
    }
  }

  /** Appending a fresh alpha grows the normaliser by its product. */
  lemma AlphaStep(s: Store, alphas: Dict, c: Coef)
    requires |s| > 0 && c.key == s[|s| - 1].key
    requires forall a :: a in alphas ==> FromStore(a, s[..|s| - 1])
    ensures DistinctKeys(s) ==> NormConst(Put(alphas, c)) == NormConst(alphas) + Product(c)
  {
    AlphaFresh(s, alphas, c);
    if DistinctKeys(s) {
      NormConstAppend(alphas, c);
    }
  }

  /** The summed affinity term1 - term2 + term3 of the coefficients, each
      computed by `calc_terms`; the first failing coefficient decides the
      error. */
  function ContribSum(d: Dict, env: Env): Result<real>
    requires EnvOk(env)
    decreases |d|
  {
    if |d| == 0 then Ok(0.0)
    else
      var sum :- ContribSum(d[..|d| - 1], env);
      var t :- TermsOf(d[|d| - 1], env);
      Ok(sum + Contribution(t))
  }

  /** With distinct store keys the summed alpha affinity is the affinity
      of the alphas, each alpha counted once. */
  lemma {:induction false} ClassifyContrib(s: Store, o: Ordering, env: Env)
    requires InOrderings(o) && EnvOk(env)
    requires DistinctKeys(s) && Classify(s, o, env).Ok?
    ensures ContribSum(Classify(s, o, env).value.alphas, env) == Ok(Classify(s, o, env).value.alphaContrib)
    decreases |s|
  {
    if |s| > 0 {
      var s' := s[..|s| - 1];
      var sl := s[|s| - 1];
      assert DistinctKeys(s');
      var acc := Classify(s', o, env).value;
      assert Classify(s, o, env) == ClassifySlot(acc, sl, o, env);
      ClassifyContrib(s', o, env);
      ContribStep(s, acc, Classify(s, o, env).value, env);
    }
  }

  /** One slot keeps the summed affinity equal to that of the alphas:
      a live alpha is appended with its affinity, any other slot leaves
      both alone. */
  lemma ContribStep(s: Store, acc: Split, r: Split, env: Env)
    requires EnvOk(env) && |s| > 0 && DistinctKeys(s)
    requires forall a :: a in acc.alphas ==> FromStore(a, s[..|s| - 1])
    requires ContribSum(acc.alphas, env) == Ok(acc.alphaContrib)
    requires Live(s[|s| - 1]) && IsAlpha(s[|s| - 1].key) ==>
      && r.alphas == Put(acc.alphas, CoefOf(s[|s| - 1]))
      && TermsOf(CoefOf(s[|s| - 1]), env).Ok?
      && r.alphaContrib == acc.alphaContrib + Contribution(TermsOf(CoefOf(s[|s| - 1]), env).value)
    requires !(Live(s[|s| - 1]) && IsAlpha(s[|s| - 1].key)) ==>
      r.alphas == acc.alphas && r.alphaContrib == acc.alphaContrib
    ensures ContribSum(r.alphas, env) == Ok(r.alphaContrib)
  {
    var sl := s[|s| - 1];
    if Live(sl) && IsAlpha(sl.key) {
      var c := CoefOf(sl);
      AlphaFresh(s, acc.alphas, c);
      assert r.alphas == acc.alphas + [c];
      ContribAppend(acc.alphas, c, acc.alphaContrib, env);
    } else {
      assert r.alphas == acc.alphas;
    }
  }

  /** Appending a coefficient adds its affinity to the sum. */
  lemma ContribAppend(d: Dict, c: Coef, sum: real, env: Env)
    requires EnvOk(env) && ContribSum(d, env) == Ok(sum) && TermsOf(c, env).Ok?
    ensures ContribSum(d + [c], env) == Ok(sum + Contribution(TermsOf(c, env).value))
  {
    assert (d + [c])[..|d|] == d;
  }

  /** The live beta coefficients of the store, in store order. */
  function LiveBetas(s: Store): Dict
    decreases |s|
  {
    if |s| == 0 then []
    else
      var sl := s[|s| - 1];
      LiveBetas(s[..|s| - 1]) + (if Live(sl) && !IsAlpha(sl.key) then [CoefOf(sl)] else [])
  }

  /** The candidates are the store's live betas in store order, each
      once: the order the stable sort keeps among equal keys. */
  lemma {:induction false} ClassifyOrder(s: Store, o: Ordering, env: Env)
    requires InOrderings(o) && EnvOk(env)
    requires Classify(s, o, env).Ok?
    ensures CoefsOf(Classify(s, o, env).value.betas) == LiveBetas(s)
    decreases |s|
  {
    if |s| > 0 {
      var s' := s[..|s| - 1];
      var sl := s[|s| - 1];
      var acc := Classify(s', o, env).value;
      assert Classify(s, o, env) == ClassifySlot(acc, sl, o, env);
      ClassifyOrder(s', o, env);
      OrderStep(acc, sl, o, env);
    }
  }

  /** One slot appends its coefficient exactly when it is a live beta. */
  lemma OrderStep(acc: Split, sl: Slot, o: Ordering, env: Env)
    requires InOrderings(o) && EnvOk(env)
    requires ClassifySlot(acc, sl, o, env).Ok?
    ensures CoefsOf(ClassifySlot(acc, sl, o, env).value.betas) ==
            CoefsOf(acc.betas) + (if Live(sl) && !IsAlpha(sl.key) then [CoefOf(sl)] else [])
  {
    var bs := ClassifySlot(acc, sl, o, env).value.betas;
    if Live(sl) && !IsAlpha(sl.key) {
      assert bs == acc.betas + [bs[|acc.betas|]];
    } else {
      assert CoefsOf(acc.betas) + [] == CoefsOf(acc.betas);
    }
  }

  /** The coefficients of the candidates, in order. */
  function CoefsOf(cs: seq<Candidate>): (r: Dict)
    ensures |r| == |cs|
    ensures forall i :: 0 <= i < |cs| ==> r[i] == cs[i].coef
  {
    seq(|cs|, i requires 0 <= i < |cs| => cs[i].coef)
  }

  /** `values[0]` of every candidate in `sorted_contrib[:pos_k + 1]`, for
      each threshold in turn. */
  function Chosen(ths: seq<Threshold>): Dict
    decreases |ths|
  {
    if |ths| == 0 then []
    else
      var th := ths[|ths| - 1];
      Chosen(ths[..|ths| - 1]) + CoefsOf(PyPrefix(th.sorted, th.posK + 1))
  }

  /** Every chosen coefficient belongs to a candidate some threshold
      ranked; when all of them rank candidates of `pool`, it is a
      coefficient of `pool`. */
  lemma {:induction false} ChosenFrom(ths: seq<Threshold>, pool: seq<Candidate>)
    requires forall t, x :: 0 <= t < |ths| && x in ths[t].sorted ==> x in pool
    ensures forall c :: c in Chosen(ths) ==> exists x :: x in pool && x.coef == c
    decreases |ths|
  {
    if |ths| > 0 {
      var th := ths[|ths| - 1];
      ChosenFrom(ths[..|ths| - 1], pool);
      var p := PyPrefix(th.sorted, th.posK + 1);
      forall c | c in CoefsOf(p)
        ensures exists x :: x in pool && x.coef == c
      {
        var i :| 0 <= i < |p| && CoefsOf(p)[i] == c;
        assert p[i] == th.sorted[i];
        assert p[i] in pool;
      }
    }
  }

  /** The alphas kept, the betas chosen and the threshold results
      (`self.threshold` alone, or `self.thresholds`). */
  datatype Selection = Selection(coeffs: Dict, thresholds: seq<Threshold>)

  /** Alphas are alpha coefficients of the store, betas beta ones. */
  predicate SplitFrom(sp: Split, s: Store) {
    && (forall c :: c in sp.alphas ==> IsAlpha(c.key) && FromStore(c, s))
    && (forall b :: b in sp.betas ==> !IsAlpha(b.coef.key) && FromStore(b.coef, s))
  }

  /** The selection keeps every alpha, adds exactly the chosen betas'
      keys and holds only store values, once per key. */
  predicate Selected(sel: Selection, sp: Split, s: Store) {
    && (forall c :: c in sp.alphas ==> c in sel.coeffs)
    && (forall i :: 0 <= i < |s| && Live(s[i]) && IsAlpha(s[i].key) ==> s[i].key in DictKeys(sel.coeffs))
    && DictKeys(sel.coeffs) == DictKeys(sp.alphas) + DictKeys(Chosen(sel.thresholds))
    && (forall c :: c in Chosen(sel.thresholds) ==> exists b :: b in sp.betas && b.coef == c)
    && (forall c :: c in sel.coeffs ==> FromStore(c, s))
    && DistinctDict(sel.coeffs)
  }

  /** The message `calc_pdf_cv` raises without beta levels. */
  const AlphaOnly := "Cannot do CV over alpha only ... yet"

  /** `th` is what `single_threshold` returns for the split: the no-betas
      tuple, or the betas sorted by level and key with their loss curve,
      cut at the first minimum within the budget n - #alphas, together
      with that row's key, target and level. */
  predicate SingleCut(th: Threshold, sp: Split, loss: Loss, env: Env) {
    && (|sp.betas| == 0 ==> th == NoBetasResult)
    && (|sp.betas| > 0 ==>
          && th.msg == All
          && th.sorted == SortCandidates(sp.betas)
          && |th.values| == |sp.betas|
          && (forall i :: 0 <= i < |th.sorted| ==>
                CurveRow(th.sorted, i, th.values[i], sp.alphaNorm, sp.alphaContrib, loss, env.sqrt))
          && th.posK == PosKMin(Targets(th.values), env.n - |sp.alphas|)
          && PyIndex(th.values, th.posK).Ok?
          && PyIndex(th.values, th.posK).value.th == th.threshold
          && PyIndex(th.values, th.posK).value.target == th.targetVal
          && PyIndex(th.values, th.posK).value.j == th.thJ)
  }

  /** The alphas' norm and affinity with the loss, as `multi_threshold`
      receives them. */
  function CtxOf(sp: Split, loss: Loss, env: Env): Ctx {
    Ctx(sp.alphaNorm, sp.alphaContrib, loss, env.sqrt)
  }

  /** `single_threshold` on the split: its result ranks candidates drawn
      from the betas. */
  method FirstCut(sp: Split, loss: Loss, env: Env) returns (r: Result<Threshold>)
    ensures r.Ok? ==> SingleCut(r.value, sp, loss, env)
    ensures r.Ok? ==> forall x :: x in r.value.sorted ==> x in sp.betas
  {
    var th :- SingleThreshold(|sp.alphas|, loss, sp.betas, sp.alphaNorm, sp.alphaContrib, env.n, env.sqrt);
    SortCandidatesMembers(sp.betas);
    return Ok(th);
  }

  /** `multi_threshold` started from the single threshold `first`: every
      level ranks candidates drawn from the betas, and the search fails
      unless `first` sorted at least one candidate. */
  method MultiCut(sp: Split, first: Threshold, deltaJ: nat, loss: Loss, env: Env) returns (r: Result<seq<Threshold>>)
    requires forall x :: x in first.sorted ==> x in sp.betas
    ensures r.Ok? ==> forall t, x :: 0 <= t < |r.value| && x in r.value[t].sorted ==> x in sp.betas
    ensures r.Ok? ==> Searched(r.value, first.sorted, deltaJ, first.thJ, first.threshold, CtxOf(sp, loss, env))
    ensures r.Ok? && deltaJ > 0 ==> |first.sorted| > 0
  {
    var ths :- Search(first.sorted, deltaJ, first.thJ, first.threshold, CtxOf(sp, loss, env));
    LevelsMembers(first.sorted, ths, sp.betas);
    if deltaJ > 0 && |first.sorted| == 0 {
      NoLevelsWithoutBetas(deltaJ, first.thJ, first.threshold);
    }
    return Ok(ths);
  }

  /** The cut of `calc_pdf_cv` on the classified store: the single
      threshold `first` alone, or the multi-level search started from its
      sorted list, level and key. Every threshold ranks candidates drawn
      from the betas, and the search needs at least one beta. */
  method Cut(sp: Split, deltaJ: nat, loss: Loss, single: bool, env: Env)
    returns (r: Result<seq<Threshold>>, ghost first: Threshold)
    ensures r.Ok? ==> forall t, x :: 0 <= t < |r.value| && x in r.value[t].sorted ==> x in sp.betas
    ensures r.Ok? ==> SingleCut(first, sp, loss, env)
    ensures r.Ok? && single ==> r.value == [first]
    ensures r.Ok? && !single ==>
      Searched(r.value, first.sorted, deltaJ, first.thJ, first.threshold, CtxOf(sp, loss, env))
    ensures r.Ok? && !single && deltaJ > 0 ==> |sp.betas| > 0
  {
    first := NoBetasResult;
    var th :- FirstCut(sp, loss, env);
    first := th;
    if single {
      r := Ok([th]);
      return;
    }
    var ths :- MultiCut(sp, th, deltaJ, loss, env);
    if deltaJ > 0 {
      assert th.sorted[0] in sp.betas;
    }
    r := Ok(ths);
  }

  /** With no candidates the first level is empty and the levels cannot
      be built. */
  lemma NoLevelsWithoutBetas(d: nat, thJ: int, c: real)
    requires d > 0
    ensures BuildLevels([], d, thJ, c).Err?
  {
    BuildLevelsOk([], d, thJ, c);
    LevelContribsMembers([], 0);
  }

  /** Every level holds candidates of the sorted list. */
  lemma LevelsMembers(sorted: seq<Candidate>, ths: seq<Threshold>, betas: seq<Candidate>)
    requires forall x :: x in sorted ==> x in betas
    requires forall j :: 0 <= j < |ths| ==> ths[j].sorted == LevelContribs(sorted, j)
    ensures forall t, x :: 0 <= t < |ths| && x in ths[t].sorted ==> x in betas
  {
    forall t | 0 <= t < |ths|
      ensures forall x :: x in ths[t].sorted ==> x in betas
    {
      LevelContribsMembers(sorted, t);
    }
  }

  /** `calc_pdf_cv(xs, loss, ordering, single_threshold)` on the computed
      store `s` with `deltaJ` beta levels. Without beta levels it raises
      ValueError. `RefTao` is handed to `calc_pdf_ref_tao` with a missing
      argument (TypeError), and any other ordering outside `ORDERINGS`
      raises KeyError. The result keeps every live alpha and adds the
      betas before each cut: the cut of `single_threshold` (`first`), or
      the level cuts `multi_threshold` finds starting from it. Every value
      comes from the store. */
  method CalcPdfCv(s: Store, deltaJ: nat, loss: Loss, o: Ordering, single: bool, env: Env)
    returns (r: Result<Selection>, ghost first: Threshold)
    requires EnvOk(env)
    ensures deltaJ == 0 ==> r == Err(ValueError(AlphaOnly))
    ensures deltaJ > 0 && o.RefTao? ==> r == Err(TypeError)
    ensures deltaJ > 0 && !o.RefTao? && !InOrderings(o) ==> r == Err(KeyError)
    ensures r.Ok? ==> InOrderings(o) && Classify(s, o, env).Ok?
    ensures deltaJ > 0 && InOrderings(o) && Classify(s, o, env).Err? ==> r == Err(Classify(s, o, env).error)
    ensures r.Ok? ==> Selected(r.value, Classify(s, o, env).value, s)
    ensures r.Ok? ==> SingleCut(first, Classify(s, o, env).value, loss, env)
    ensures r.Ok? && single ==> r.value.thresholds == [first]
    ensures r.Ok? && single && |Classify(s, o, env).value.betas| == 0 ==>
      r.value.thresholds[0] == NoBetasResult && r.value.coeffs == Classify(s, o, env).value.alphas
    ensures r.Ok? && !single ==>
      Searched(r.value.thresholds, first.sorted, deltaJ, first.thJ, first.threshold,
               CtxOf(Classify(s, o, env).value, loss, env))
    ensures r.Ok? && !single ==> |Classify(s, o, env).value.betas| > 0
  {
    first := NoBetasResult;
    if deltaJ == 0 {
      r := Err(ValueError(AlphaOnly));
      return;
    }
    if o.RefTao? {
      r := Err(TypeError);
      return;
    }
    if !InOrderings(o) {
      r := Err(KeyError);
      return;
    }
    var sp :- Classify(s, o, env);
    SplitFromClassify(s, o, env);
    var ths;
    ths, first :- Cut(sp, deltaJ, loss, single, env);
    ChosenFrom(ths, sp.betas);
    SelectionFacts(s, sp, ths);
    if single && |sp.betas| == 0 {
      assert Chosen(ths) == [] by {
        assert ths[..0] == [];
      }
    }
    r := Ok(Selection(PutAll(sp.alphas, Chosen(ths)), ths));
  }

  /** The option checks `cvfit` makes before fitting: a loss outside
      `LOSSES` raises ValueError('Wrong loss'), then an ordering outside
      `ORDERINGS` raises ValueError('Wrong ordering'). */
  function CvFitOptions(loss: Loss, o: Ordering): (r: Result<()>)
    ensures r.Ok? <==> !loss.UnknownLoss? && InOrderings(o)
    ensures loss.UnknownLoss? ==> r == Err(ValueError(WrongLoss))
    ensures !loss.UnknownLoss? && !InOrderings(o) ==> r == Err(ValueError(WrongOrdering))
  {
    if loss.UnknownLoss? then Err(ValueError(WrongLoss))
    else if !InOrderings(o) then Err(ValueError(WrongOrdering))
    else Ok(())
  }

  const WrongLoss := "Wrong loss"
  const WrongOrdering := "Wrong ordering"

  /** Past the checks of `cvfit`, `calc_pdf_cv` can no longer reach its
      `RefTao` TypeError or its KeyError for an unknown ordering, and a loss
      can only fail through the root of `Normed`. */
  lemma CvFitOptionsGuard(loss: Loss, o: Ordering, batta: real, norm: real, sqrt: real -> real)
    requires CvFitOptions(loss, o).Ok?
    ensures !o.RefTao? && InOrderings(o)
    ensures LossValue(loss, batta, norm, sqrt).Err? ==> loss.Normed?
  {
  }

  /** Chosen betas never share a key with an alpha. */
  lemma ChosenNotAlpha(sp: Split, s: Store, chosen: Dict)
    requires SplitFrom(sp, s)
    requires forall c :: c in chosen ==> exists b :: b in sp.betas && b.coef == c
    ensures forall t :: 0 <= t < |sp.alphas| ==> sp.alphas[t].key !in DictKeys(chosen)
  {
    forall u | 0 <= u < |chosen|
      ensures !IsAlpha(chosen[u].key)
    {
      assert chosen[u] in chosen;
      var b :| b in sp.betas && b.coef == chosen[u];
    }
    assert forall t :: 0 <= t < |sp.alphas| ==> IsAlpha(sp.alphas[t].key);
  }

  /** Putting keys the alphas do not have leaves every alpha in place. */
  lemma AlphasKept(alphas: Dict, chosen: Dict)
    requires forall t :: 0 <= t < |alphas| ==> alphas[t].key !in DictKeys(chosen)
    ensures forall c :: c in alphas ==> c in PutAll(alphas, chosen)
  {
    var d := PutAll(alphas, chosen);
    PutAllKeeps(alphas, chosen);
    forall c | c in alphas
      ensures c in d
    {
      var t :| 0 <= t < |alphas| && alphas[t] == c;
      assert d[t] == c;
    }
  }

  /** Putting store values into store values gives store values. */
  lemma StoreValues(sp: Split, s: Store, chosen: Dict)
    requires SplitFrom(sp, s)
    requires forall c :: c in chosen ==> exists b :: b in sp.betas && b.coef == c
    ensures forall c :: c in PutAll(sp.alphas, chosen) ==> FromStore(c, s)
  {
    PutAllFrom(sp.alphas, chosen);
    forall c | c in PutAll(sp.alphas, chosen)
      ensures FromStore(c, s)
    {
      if c !in sp.alphas {
        var b :| b in sp.betas && b.coef == c;
      }
    }
  }

  /** Adding beta coefficients of the store to the alphas keeps every
      alpha and takes every value from the store. */
  lemma SelectionFacts(s: Store, sp: Split, ths: seq<Threshold>)
    requires SplitFrom(sp, s) && AllAlphas(sp, s) && DistinctDict(sp.alphas)
    requires forall c :: c in Chosen(ths) ==> exists b :: b in sp.betas && b.coef == c
    ensures Selected(Selection(PutAll(sp.alphas, Chosen(ths)), ths), sp, s)
  {
    var chosen := Chosen(ths);
    ChosenNotAlpha(sp, s, chosen);
    AlphasKept(sp.alphas, chosen);
    StoreValues(sp, s, chosen);
  }
}

=== FILE: density.dfy ===
/** The density built from a coefficient dictionary: `calc_pdf` and the
    incremental `gen_pdf`. The estimate at a point is the square of the
    reconstructed root density divided by the normaliser Σ coeff·coeff_b.
    The base functions are evaluated by the caller: `base(key)` is the
    value of the key's base function at the point of interest. */
module Density {
  import opened Results
  import opened Lists
  import opened WParams

  /** One term of the normaliser. */
  function Product(c: Coef): real {
    c.entry.coeff * c.entry.coeffB
  }

  /** `norm_const`: Σ coeff·coeff_b over the dictionary values. */
  function NormConst(d: Dict): real {
    SumOf(d, Product)
  }

  /** The normaliser does not depend on the dictionary order. */
  lemma NormConstPermutation(a: Dict, b: Dict)
    requires multiset(a) == multiset(b)
    ensures NormConst(a) == NormConst(b)
  {
    SumOfPermutation(a, b, Product);
  }

  /** Adding one coefficient adds its product to the normaliser. */
  lemma NormConstAppend(d: Dict, c: Coef)
    ensures NormConst(d + [c]) == NormConst(d) + Product(c)
  {
    assert (d + [c])[..|d|] == d;
  }

  /** With orthonormal duals (coeff_b equal to coeff) the normaliser is a
      sum of squares and so never negative. */
  lemma {:induction false} NormConstOrthogonal(d: Dict)
    requires forall i :: 0 <= i < |d| ==> d[i].entry.coeffB == d[i].entry.coeff
    ensures NormConst(d) >= 0.0
    decreases |d|
  {
    if |d| > 0 {
      var d' := d[..|d| - 1];
      assert forall i :: 0 <= i < |d'| ==> d'[i] == d[i];
      NormConstOrthogonal(d');
      var e := d[|d| - 1].entry;
      assert e.coeff * e.coeffB == e.coeff * e.coeff;
    }
  }

  /** The function object `calc_pdf` returns, without its closure. */
  datatype Pdf = Pdf(coeffs: Dict, normConst: real, nparams: nat)

  /** Some value has a positive support count. */
  predicate HasSupport(d: Dict) {
    exists i :: 0 <= i < |d| && d[i].entry.num > 0
  }

  function HasSupportCheck(d: Dict): (r: bool)
    ensures r <==> HasSupport(d)
    decreases |d|
  {
    if |d| == 0 then false
    else if d[|d| - 1].entry.num > 0 then true
    else
      var r := HasSupportCheck(d[..|d| - 1]);
      assert forall i :: 0 <= i < |d| - 1 ==> d[..|d| - 1][i] == d[i];
      r
  }

  /** `calc_pdf(coeffs)`: records the coefficients, the normaliser and the
      parameter count. The minimum positive support count it computes on
      the way raises ValueError when no value has positive support, the
      empty dictionary included. */
  function CalcPdf(d: Dict): (r: Result<Pdf>)
    ensures r.Ok? <==> HasSupport(d)
    ensures r.Err? ==> r.error.ValueError?
    ensures r.Ok? ==> r.value.coeffs == d && r.value.nparams == |d| && r.value.normConst == NormConst(d)
  {
    if !HasSupportCheck(d) then Err(ValueError("min() arg is an empty sequence"))
    else Ok(Pdf(d, NormConst(d), |d|))
  }

  /** The root-density term of one coefficient at the point. */
  function Weigh(base: Key -> real): Coef -> real {
    (c: Coef) => c.entry.coeff * base(c.key)
  }

  /** Σ coeff·base over the dictionary: the root density before squaring. */
  function RootSum(d: Dict, base: Key -> real): real {
    SumOf(d, Weigh(base))
  }

  lemma RootSumAppend(d: Dict, c: Coef, base: Key -> real)
    ensures RootSum(d + [c], base) == RootSum(d, base) + c.entry.coeff * base(c.key)
  {
    assert (d + [c])[..|d|] == d;
  }

  /** numpy `a / b` on floats: no exception, but a zero divisor gives an
      infinite or undefined value, shown here as `None`. */
  function Ratio(a: real, b: real): (r: Option<real>)
    ensures r.Some? <==> b != 0.0
    ensures r.Some? ==> r.value * b == a
  {
    if b == 0.0 then None else Some(a / b)
  }

  function Square(x: real): real {
    x * x
  }

  /** The estimate at one point: (Σ coeff·base)² / norm_const. */
  function Eval(p: Pdf, base: Key -> real): (r: Option<real>)
    ensures r.Some? <==> p.normConst != 0.0
    ensures r.Some? ==> r.value * p.normConst == Square(RootSum(p.coeffs, base))
    ensures p.normConst > 0.0 ==> r.Some? && r.value >= 0.0
  {
    var s := RootSum(p.coeffs, base);
    RatioOfSquare(s, p.normConst);
    Ratio(Square(s), p.normConst)
  }

  lemma RatioOfSquare(s: real, b: real)
    ensures b > 0.0 ==> Ratio(Square(s), b).value >= 0.0
  {
  }

  /** The estimate does not depend on the dictionary order. */
  lemma EvalPermutation(a: Dict, b: Dict, base: Key -> real)
    requires multiset(a) == multiset(b)
    ensures Eval(Pdf(a, NormConst(a), |a|), base) == Eval(Pdf(b, NormConst(b), |b|), base)
  {
    NormConstPermutation(a, b);
    SumOfPermutation(a, b, Weigh(base));
    assert RootSum(a, base) == RootSum(b, base);
  }

  /** The value `gen_pdf` yields after item `i`: the squared running root
      sum, started at `xsSum`, over the running normaliser. */
  function PrefixValue(xsSum: real, items: Dict, base: Key -> real, i: nat): Option<real>
    requires i < |items|
  {
    Ratio(Square(xsSum + RootSum(items[..i + 1], base)), NormConst(items[..i + 1]))
  }

  /** Started at zero, the value after item `i` is what the density of the
      first i+1 items evaluates to. */
  lemma PrefixValueIsEval(items: Dict, base: Key -> real, i: nat)
    requires i < |items|
    ensures PrefixValue(0.0, items, base, i) == Eval(Pdf(items[..i + 1], NormConst(items[..i + 1]), i + 1), base)
  {
    assert 0.0 + RootSum(items[..i + 1], base) == RootSum(items[..i + 1], base);
  }

  /** `gen_pdf(xs_sum, items, coords)` at one point: after each item it
      yields the key and the estimate of the coefficients seen so far,
      where the running root sum starts at `xsSum`. Started at zero, each
      yielded value is what `calc_pdf` of that prefix evaluates to. */
  method GenPdf(xsSum: real, items: Dict, base: Key -> real) returns (r: seq<(Key, Option<real>)>)
    ensures |r| == |items|
    ensures forall i :: 0 <= i < |items| ==> r[i].0 == items[i].key
    ensures forall i :: 0 <= i < |items| ==> r[i].1 == PrefixValue(xsSum, items, base, i)
    ensures xsSum == 0.0 ==> forall i :: 0 <= i < |items| ==>
              r[i].1 == Eval(Pdf(items[..i + 1], NormConst(items[..i + 1]), i + 1), base)
  {
    var norm := 0.0;
    var acc := xsSum;
    r := [];
    var i := 0;
    while i < |items|
      invariant 0 <= i <= |items|
      invariant |r| == i
      invariant norm == NormConst(items[..i])
      invariant acc == xsSum + RootSum(items[..i], base)
      invariant forall t :: 0 <= t < i ==> r[t].0 == items[t].key
      invariant forall t :: 0 <= t < i ==> r[t].1 == PrefixValue(xsSum, items, base, t)
    {
      var c := items[i];
      assert items[..i + 1] == items[..i] + [c];
      NormConstAppend(items[..i], c);
      RootSumAppend(items[..i], c, base);
      norm := norm + c.entry.coeff * c.entry.coeffB;
      acc := acc + c.entry.coeff * base(c.key);
      assert Ratio(Square(acc), norm) == PrefixValue(xsSum, items, base, i);
      r := r + [(c.key, Ratio(Square(acc), norm))];
      i := i + 1;
    }
    if xsSum == 0.0 {
      forall t | 0 <= t < |items|
        ensures r[t].1 == Eval(Pdf(items[..t + 1], NormConst(items[..t + 1]), t + 1), base)
      {
        PrefixValueIsEval(items, base, t);
      }
    }
  }
}

=== FILE: iter.dfy ===
/** `calc_iter_pdf`: start from every computed coefficient of the initial
    store, then greedily add the beta coefficient of the refined store that
    lowers the normed loss 1 - B/√N the most, while the loss stays positive
    and strictly decreases. The outer loops of the source run exactly once:
    both end in an unconditional `break`. */
module Iterative {
  import opened Results
  import opened Lists
  import opened WParams
  import opened Terms
  import opened Density
  import opened CrossValidation

  /** `(key, coeff_contribution, coeff_norm2, tup)`: a beta with its
      estimated affinity contribution and squared weight. */
  datatype Beta = Beta(coef: Coef, contrib: real, norm2: real)

  function BetaContrib(b: Beta): real {
    b.contrib
  }

  function BetaNorm(b: Beta): real {
    b.norm2
  }

  /** The starting dictionary with its summed norm and affinity. */
  datatype Start = Start(coeffs: Dict, norm: real, contrib: real)

  /** The first loop: every live slot of the initial store joins the
      dictionary, alpha or not. The first pending slot raises TypeError and
      `calc_terms` raises before the ball data exists. */
  function StartSums(s: Store, env: Env): (r: Result<Start>)
    requires EnvOk(env)
    ensures r.Ok? ==> forall c :: c in r.value.coeffs ==> c.entry.coeff != 0.0 && FromStore(c, s)
    ensures r.Ok? ==> CoversLive(s, DictKeys(r.value.coeffs))
    ensures r.Ok? ==> DistinctDict(r.value.coeffs)
    decreases |s|
  {
    if |s| == 0 then Ok(Start([], 0.0, 0.0))
    else
      var s' := s[..|s| - 1];
      var sl := s[|s| - 1];
      assert forall i :: 0 <= i < |s'| ==> s'[i] == s[i];
      assert forall x :: x in s' ==> x in s;
      var acc :- StartSums(s', env);
      if sl.entry.None? then Err(TypeError)
      else if sl.entry.value.coeff == 0.0 then
        CoversLiveStep(s, DictKeys(acc.coeffs), DictKeys(acc.coeffs));
        Ok(acc)
      else
        var c := CoefOf(sl);
        var t :- TermsOf(c, env);
        var d := Put(acc.coeffs, c);
        CoversLiveStep(s, DictKeys(acc.coeffs), DictKeys(d));
        Ok(Start(d, acc.norm + t.coeff2, acc.contrib + Contribution(t)))
  }

  /** Every live slot of the store has its key in `keys`. */
  predicate CoversLive(s: Store, keys: set<Key>) {
    forall i :: 0 <= i < |s| && Live(s[i]) ==> s[i].key in keys
  }

  lemma CoversLiveStep(s: Store, keys: set<Key>, keys': set<Key>)
    requires |s| > 0 && CoversLive(s[..|s| - 1], keys) && keys <= keys'
    requires Live(s[|s| - 1]) ==> s[|s| - 1].key in keys'
    ensures CoversLive(s, keys')
  {
    forall i | 0 <= i < |s| - 1 && Live(s[i])
      ensures s[i].key in keys'
    {
      assert s[..|s| - 1][i] == s[i];
    }
  }

  /** With distinct store keys the summed norm is the normaliser of the
      starting dictionary. */
  lemma {:induction false} StartNorm(s: Store, env: Env)
    requires EnvOk(env)
    requires DistinctKeys(s) && StartSums(s, env).Ok?
    ensures StartSums(s, env).value.norm == NormConst(StartSums(s, env).value.coeffs)
    decreases |s|
  {
    if |s| > 0 {
      var s' := s[..|s| - 1];
      assert DistinctKeys(s');
      StartNorm(s', env);
      if Live(s[|s| - 1]) {
        StartNormStep(s, env);
      }
    }
  }

  lemma {:induction false} StartNormStep(s: Store, env: Env)
    requires EnvOk(env) && |s| > 0 && Live(s[|s| - 1])
    requires DistinctKeys(s) && StartSums(s, env).Ok?
    requires StartSums(s[..|s| - 1], env).value.norm == NormConst(StartSums(s[..|s| - 1], env).value.coeffs)
    ensures StartSums(s, env).value.norm == NormConst(StartSums(s, env).value.coeffs)
  {
    var s' := s[..|s| - 1];
    var acc := StartSums(s', env).value;
    var c := CoefOf(s[|s| - 1]);
    var t := TermsOf(c, env).value;
    assert StartSums(s, env).value == Start(Put(acc.coeffs, c), acc.norm + t.coeff2, acc.contrib + Contribution(t));
    assert t.coeff2 == Product(c);
    AlphaStep(s, acc.coeffs, c);
  }

  /** `1 - alpha_contribution / math.sqrt(alpha_norm)`. */
  function StartLoss(st: Start, sqrt: real -> real): (r: Result<real>)
    ensures r.Ok? <==> 0.0 <= st.norm && sqrt(st.norm) != 0.0
    ensures r.Ok? ==> (1.0 - r.value) * sqrt(st.norm) == st.contrib
  {
    var q :- SqrtDiv(st.contrib, st.norm, sqrt);
    Ok(1.0 - q)
  }

  /** The candidate loop at level 0: live non-alpha slots of the refined
      store, with their terms. */
  function Betas(s: Store, env: Env): (r: Result<seq<Beta>>)
    requires EnvOk(env)
    ensures r.Ok? ==> forall b :: b in r.value ==>
      && !IsAlpha(b.coef.key) && b.coef.entry.coeff != 0.0 && FromStore(b.coef, s)
      && TermsOf(b.coef, env).Ok?
      && b.contrib == Contribution(TermsOf(b.coef, env).value)
      && b.norm2 == TermsOf(b.coef, env).value.coeff2
    ensures r.Ok? ==> AllBetasOf(r.value, s)
    decreases |s|
  {
    if |s| == 0 then Ok([])
    else
      var s' := s[..|s| - 1];
      var sl := s[|s| - 1];
      assert forall i :: 0 <= i < |s'| ==> s'[i] == s[i];
      assert forall x :: x in s' ==> x in s;
      var acc :- Betas(s', env);
      if sl.entry.None? then Err(TypeError)
      else if sl.entry.value.coeff == 0.0 || IsAlpha(sl.key) then
        BetasStep(s, acc, []);
        assert acc + [] == acc;
        Ok(acc)
      else
        var c := CoefOf(sl);
        var t :- TermsOf(c, env);
        var b := Beta(c, Contribution(t), t.coeff2);
        assert b in [b];
        BetasStep(s, acc, [b]);
        assert forall x :: x in acc ==> x in acc + [b];
        Ok(acc + [b])
  }

  /** Every live beta of the store is among the candidates. */
  predicate AllBetasOf(bs: seq<Beta>, s: Store) {
    forall i :: 0 <= i < |s| && Live(s[i]) && !IsAlpha(s[i].key) ==>
      exists b :: b in bs && b.coef == CoefOf(s[i])
  }

  lemma BetasStep(s: Store, bs: seq<Beta>, extra: seq<Beta>)
    requires |s| > 0 && AllBetasOf(bs, s[..|s| - 1])
    requires Live(s[|s| - 1]) && !IsAlpha(s[|s| - 1].key) ==> exists b :: b in extra && b.coef == CoefOf(s[|s| - 1])
    ensures AllBetasOf(bs + extra, s)
  {
    forall i | 0 <= i < |s| && Live(s[i]) && !IsAlpha(s[i].key)
      ensures exists b :: b in bs + extra && b.coef == CoefOf(s[i])
    {
      if i < |s| - 1 {
        assert s[..|s| - 1][i] == s[i];
        var b :| b in bs && b.coef == CoefOf(s[i]);
        assert b in bs + extra;
      } else {
        var b :| b in extra && b.coef == CoefOf(s[i]);
        assert b in bs + extra;
      }
    }
  }

  /** The loss after adding `b` to the running sums. */
  function NewLoss(b: Beta, contribution: real, norm2: real, sqrt: real -> real): (r: Result<real>)
    ensures r.Ok? <==> 0.0 <= norm2 + b.norm2 && sqrt(norm2 + b.norm2) != 0.0
    ensures r.Ok? ==> (1.0 - r.value) * sqrt(norm2 + b.norm2) == contribution + b.contrib
  {
    var q :- SqrtDiv(contribution + b.contrib, norm2 + b.norm2, sqrt);
    Ok(1.0 - q)
  }

  /** `(contribution + c)/sqrt(norm2 + n2) - contribution/sqrt(norm2)`:
      how much adding `b` raises the normed affinity. */
  function Gain(b: Beta, contribution: real, norm2: real, sqrt: real -> real): (r: Result<real>)
    ensures r.Ok? ==> NewLoss(b, contribution, norm2, sqrt).Ok?
    ensures r.Ok? ==> exists q :: SqrtDiv(contribution, norm2, sqrt) == Ok(q) &&
                        r.value == 1.0 - NewLoss(b, contribution, norm2, sqrt).value - q
  {
    var a :- SqrtDiv(contribution + b.contrib, norm2 + b.norm2, sqrt);
    var c :- SqrtDiv(contribution, norm2, sqrt);
    Ok(a - c)
  }

  /** The vector of gains, evaluated in candidate order: the first
      failing candidate decides the error. */
  function Gains(bs: seq<Beta>, contribution: real, norm2: real, sqrt: real -> real): (r: Result<seq<real>>)
    ensures r.Ok? <==> forall i :: 0 <= i < |bs| ==> Gain(bs[i], contribution, norm2, sqrt).Ok?
    ensures r.Ok? ==> |r.value| == |bs|
    ensures r.Ok? ==> forall i :: 0 <= i < |bs| ==> Gain(bs[i], contribution, norm2, sqrt) == Ok(r.value[i])
    ensures r.Err? ==> exists i :: 0 <= i < |bs| && Gain(bs[i], contribution, norm2, sqrt) == Err(r.error)
    decreases |bs|
  {
    if |bs| == 0 then Ok([])
    else
      var bs' := bs[..|bs| - 1];
      assert forall i :: 0 <= i < |bs'| ==> bs'[i] == bs[i];
      var g :- Gains(bs', contribution, norm2, sqrt);
      var x :- Gain(bs[|bs| - 1], contribution, norm2, sqrt);
      Ok(g + [x])
  }

  /** The candidate with the largest gain is the one whose addition gives
      the smallest loss. */
  lemma BestLowersMost(bs: seq<Beta>, contribution: real, norm2: real, sqrt: real -> real)
    requires Gains(bs, contribution, norm2, sqrt).Ok? && |bs| > 0
    ensures var ix := ArgMax(Gains(bs, contribution, norm2, sqrt).value);
      forall i :: 0 <= i < |bs| ==>
        NewLoss(bs[ix], contribution, norm2, sqrt).value <= NewLoss(bs[i], contribution, norm2, sqrt).value
  {
    var gs := Gains(bs, contribution, norm2, sqrt).value;
    var ix := ArgMax(gs);
    var q := SqrtDiv(contribution, norm2, sqrt).value;
    forall i | 0 <= i < |bs|
      ensures NewLoss(bs[ix], contribution, norm2, sqrt).value <= NewLoss(bs[i], contribution, norm2, sqrt).value
    {
      assert Gain(bs[i], contribution, norm2, sqrt) == Ok(gs[i]);
      assert Gain(bs[ix], contribution, norm2, sqrt) == Ok(gs[ix]);
      assert gs[i] <= gs[ix];
    }
  }

  /** `samples_perc`: the share of the sample count the dictionary may reach. */
  const SamplesPerc: real := 0.99

  /** Stopping rule A: too many coefficients per sample. */
  predicate Full(coeffs: Dict, n: nat) {
    |coeffs| as real >= n as real * SamplesPerc
  }

  /** The state of the accept loop: the dictionary, the current loss, the
      running sums, the accepted betas with the loss after each (`trace_v`)
      and the candidates left. */
  datatype Greedy = Greedy(coeffs: Dict, loss: real, contribution: real, norm2: real,
                           accepted: seq<Beta>, trace: seq<real>, rest: seq<Beta>)

  /** Why the loop ended: no candidates left, the dictionary is full, or
      the best candidate would not give a positive, strictly smaller loss. */
  predicate Stopped(g: Greedy, n: nat, sqrt: real -> real) {
    || |g.rest| == 0
    || Full(g.coeffs, n)
    || (var gains := Gains(g.rest, g.contribution, g.norm2, sqrt);
        && gains.Ok?
        && var l := NewLoss(g.rest[ArgMax(gains.value)], g.contribution, g.norm2, sqrt).value;
        !(0.0 < l < g.loss))
  }

  /** The losses after each acceptance are positive, strictly decrease,
      start below `loss0` and end at `loss`. */
  predicate Descending(trace: seq<real>, loss0: real, loss: real) {
    && (forall i :: 0 <= i < |trace| ==> 0.0 < trace[i] < loss0)
    && (forall i, t :: 0 <= i < t < |trace| ==> trace[t] < trace[i])
    && loss == (if |trace| == 0 then loss0 else trace[|trace| - 1])
  }

  /** The coefficients of the accepted betas, in order. The greedy loop
      keeps its own `Beta` record (coefficient, contribution, coeff2), so this
      is a projection of its own rather than `CrossValidation.CoefsOf`,
      which projects the threshold search's `Candidate`. */
  function BetaCoefs(bs: seq<Beta>): (r: Dict)
    ensures |r| == |bs|
    ensures forall i :: 0 <= i < |bs| ==> r[i] == bs[i].coef
  {
    seq(|bs|, i requires 0 <= i < |bs| => bs[i].coef)
  }

  /** The sums stay non-negative with positive norm, so every square root
      is defined and non-zero. */
  predicate Healthy(norm2: real, rest: seq<Beta>) {
    norm2 > 0.0 && forall b :: b in rest ==> b.norm2 >= 0.0
  }

  lemma GainsDefined(bs: seq<Beta>, contribution: real, norm2: real, sqrt: real -> real)
    ensures IsSqrt(sqrt) && Healthy(norm2, bs) ==> Gains(bs, contribution, norm2, sqrt).Ok?
  {
    forall i | 0 <= i < |bs| && IsSqrt(sqrt) && Healthy(norm2, bs)
      ensures Gain(bs[i], contribution, norm2, sqrt).Ok?
    {
      assert bs[i] in bs;
      RootNonZero(sqrt, norm2);
      RootNonZero(sqrt, norm2 + bs[i].norm2);
    }
  }

  /** A failing gain is the gain of a beta among the candidates. */
  lemma GainsErrFrom(rest: seq<Beta>, accepted: seq<Beta>, cands: seq<Beta>, contribution: real,
                     norm2: real, sqrt: real -> real)
    requires multiset(accepted) + multiset(rest) == multiset(cands)
    requires Gains(rest, contribution, norm2, sqrt).Err?
    ensures exists b :: b in cands && exists c, m ::
      Gain(b, c, m, sqrt) == Err(Gains(rest, contribution, norm2, sqrt).error)
  {
    var i :| 0 <= i < |rest| && Gain(rest[i], contribution, norm2, sqrt) == Err(Gains(rest, contribution, norm2, sqrt).error);
    assert rest[i] in multiset(cands) by {
      assert rest[i] in multiset(rest);
    }
    assert rest[i] in cands;
  }

  lemma RootNonZero(sqrt: real -> real, x: real)
    requires IsSqrt(sqrt) && x > 0.0
    ensures sqrt(x) != 0.0
  {
    assert sqrt(x) * sqrt(x) == x;
  }

  /** The accept loop of `calc_iter_pdf`: while candidates are left and
      the dictionary is not full, evaluate every gain, take the first best
      and keep it iff its loss is positive and strictly below the current
      one. Accepted betas go into the dictionary and leave the candidates. */
  method Accept(coeffs0: Dict, loss0: real, contribution0: real, norm0: real, cands: seq<Beta>,
                n: nat, sqrt: real -> real) returns (r: Result<Greedy>)
    ensures r.Ok? ==> multiset(r.value.accepted) + multiset(r.value.rest) == multiset(cands)
    ensures r.Ok? ==> |r.value.trace| == |r.value.accepted| && Descending(r.value.trace, loss0, r.value.loss)
    ensures r.Ok? ==> r.value.contribution == contribution0 + SumOf(r.value.accepted, BetaContrib)
    ensures r.Ok? ==> r.value.norm2 == norm0 + SumOf(r.value.accepted, BetaNorm)
    ensures r.Ok? ==> r.value.coeffs == PutAll(coeffs0, BetaCoefs(r.value.accepted))
    ensures r.Ok? ==> |r.value.accepted| == 0 || !Full(PutAll(coeffs0, BetaCoefs(r.value.accepted[..|r.value.accepted| - 1])), n)
    ensures r.Ok? ==> Stopped(r.value, n, sqrt)
    ensures r.Err? ==> exists b :: b in cands && exists c, m :: Gain(b, c, m, sqrt) == Err(r.error)
    ensures IsSqrt(sqrt) && Healthy(norm0, cands) ==> r.Ok?
    ensures r.Ok? ==> exists rests :: GreedyRun(rests, cands, contribution0, norm0, r.value.accepted,
                                                r.value.trace, r.value.rest, sqrt)
  {
    var g := Greedy(coeffs0, loss0, contribution0, norm0, [], [], cands);
    ghost var rests := [cands];
    GreedyRunStart(cands, contribution0, norm0, sqrt);
    while true
      invariant Running(g, coeffs0, loss0, contribution0, norm0, cands, n, sqrt, rests)
      decreases |g.rest|
    {
      if |g.rest| == 0 || Full(g.coeffs, n) {
        break;
      }
      var gains := Gains(g.rest, g.contribution, g.norm2, sqrt);
      GainsDefined(g.rest, g.contribution, g.norm2, sqrt);
      if gains.Err? {
        GainsErrFrom(g.rest, g.accepted, cands, g.contribution, g.norm2, sqrt);
        return Err(gains.error);
      }
      var ix := ArgMax(gains.value);
      var b := g.rest[ix];
      assert Gain(b, g.contribution, g.norm2, sqrt).Ok?;
      var newLoss := NewLoss(b, g.contribution, g.norm2, sqrt).value;
      if !(0.0 < newLoss < g.loss) {
        break;
      }
      RunningStep(g, ix, newLoss, coeffs0, loss0, contribution0, norm0, cands, n, sqrt, rests);
      rests := rests + [Delete(g.rest, ix)];
      g := Step(g, ix, newLoss);
    }
    return Ok(g);
  }

  /** One acceptance: the candidate at `ix` moves from the candidates to
      the accepted betas, its loss becomes the current one. */
  function Step(g: Greedy, ix: nat, newLoss: real): (r: Greedy)
    requires ix < |g.rest|
    ensures |r.rest| == |g.rest| - 1
  {
    var b := g.rest[ix];
    Greedy(Put(g.coeffs, b.coef), newLoss, g.contribution + b.contrib, g.norm2 + b.norm2,
           g.accepted + [b], g.trace + [newLoss], Delete(g.rest, ix))
  }

  /** One greedy step from the candidates `rest` with running sums `c` and
      `m`: every gain is defined, `b` is the first candidate of largest
      gain, it leaves the candidates, and `loss` is the loss it gives. */
  predicate StepChoice(rest: seq<Beta>, next: seq<Beta>, b: Beta, loss: real, c: real, m: real,
                       sqrt: real -> real)
  {
    && |rest| > 0
    && Gains(rest, c, m, sqrt).Ok?
    && var ix := ArgMax(Gains(rest, c, m, sqrt).value);
       b == rest[ix] && next == Delete(rest, ix) && loss == NewLoss(b, c, m, sqrt).value
  }

  /** `rests[i]` are the candidates left before the i-th acceptance, from
      `cands` down to `rest`, and each accepted beta with its traced loss
      is the greedy step from them, at the sums of the betas before it. */
  predicate GreedyRun(rests: seq<seq<Beta>>, cands: seq<Beta>, contribution0: real, norm0: real,
                      accepted: seq<Beta>, trace: seq<real>, rest: seq<Beta>, sqrt: real -> real)
    decreases |accepted|, 1
  {
    && |rests| == |accepted| + 1 && |trace| == |accepted|
    && rests[|accepted|] == rest
    && if |accepted| == 0 then rest == cands
       else LastStep(rests, cands, contribution0, norm0, accepted, trace, rest, sqrt)
  }

  /** The run up to the last acceptance, and that acceptance as the greedy
      step from the candidates left before it. */
  predicate LastStep(rests: seq<seq<Beta>>, cands: seq<Beta>, contribution0: real, norm0: real,
                     accepted: seq<Beta>, trace: seq<real>, rest: seq<Beta>, sqrt: real -> real)
    decreases |accepted|, 0
  {
    && 0 < |accepted| && |rests| == |accepted| + 1 && |trace| == |accepted|
    && var k := |accepted| - 1;
       && GreedyRun(rests[..k + 1], cands, contribution0, norm0, accepted[..k], trace[..k], rests[k], sqrt)
       && StepChoice(rests[k], rest, accepted[k], trace[k],
                     RunContrib(contribution0, accepted[..k]), RunNorm(norm0, accepted[..k]), sqrt)
  }

  /** The running affinity sum after the betas `before`. */
  function RunContrib(contribution0: real, before: seq<Beta>): real {
    contribution0 + SumOf(before, BetaContrib)
  }

  /** The running norm after the betas `before`. */
  function RunNorm(norm0: real, before: seq<Beta>): real {
    norm0 + SumOf(before, BetaNorm)
  }

  lemma GreedyRunStart(cands: seq<Beta>, contribution0: real, norm0: real, sqrt: real -> real)
    ensures GreedyRun([cands], cands, contribution0, norm0, [], [], cands, sqrt)
  {
  }

  /** A further greedy step extends the run. */
  lemma GreedyRunStep(rests: seq<seq<Beta>>, cands: seq<Beta>, contribution0: real, norm0: real,
                      accepted: seq<Beta>, trace: seq<real>, rest: seq<Beta>, sqrt: real -> real,
                      b: Beta, next: seq<Beta>, loss: real)
    requires GreedyRun(rests, cands, contribution0, norm0, accepted, trace, rest, sqrt)
    requires StepChoice(rest, next, b, loss, RunContrib(contribution0, accepted), RunNorm(norm0, accepted), sqrt)
    ensures GreedyRun(rests + [next], cands, contribution0, norm0, accepted + [b], trace + [loss], next, sqrt)
  {
    Appended(rests, next);
    Appended(accepted, b);
    Appended(trace, loss);
    AppendedAt(rests, next, |accepted|);
  }

  lemma AppendedAt<T>(s: seq<T>, x: T, i: nat)
    requires i < |s|
    ensures (s + [x])[i] == s[i]
  {
  }

  lemma Appended<T>(s: seq<T>, x: T)
    ensures (s + [x])[..|s|] == s && (s + [x])[|s|] == x
  {
  }

  /** The loop invariant of the accept loop. */
  ghost predicate Invariant(g: Greedy, coeffs0: Dict, loss0: real, contribution0: real, norm0: real,
                            cands: seq<Beta>, n: nat, sqrt: real -> real) {
    && multiset(g.accepted) + multiset(g.rest) == multiset(cands)
    && |g.trace| == |g.accepted| && Descending(g.trace, loss0, g.loss)
    && g.contribution == contribution0 + SumOf(g.accepted, BetaContrib)
    && g.norm2 == norm0 + SumOf(g.accepted, BetaNorm)
    && g.coeffs == PutAll(coeffs0, BetaCoefs(g.accepted))
    && (|g.accepted| == 0 || !Full(PutAll(coeffs0, BetaCoefs(g.accepted[..|g.accepted| - 1])), n))
    && (IsSqrt(sqrt) && Healthy(norm0, cands) ==> Healthy(g.norm2, g.rest))
  }

  lemma StepMultiset(g: Greedy, ix: nat, newLoss: real)
    requires ix < |g.rest|
    ensures multiset(Step(g, ix, newLoss).accepted) + multiset(Step(g, ix, newLoss).rest)
         == multiset(g.accepted) + multiset(g.rest)
    ensures forall x :: x in Step(g, ix, newLoss).rest ==> x in g.rest
  {
    var b := g.rest[ix];
    assert g.rest == g.rest[..ix] + [b] + g.rest[ix + 1..];
    assert multiset(g.rest) == multiset(Delete(g.rest, ix)) + multiset{b};
  }

  lemma StepSums(g: Greedy, ix: nat, newLoss: real, coeffs0: Dict)
    requires ix < |g.rest|
    ensures var r := Step(g, ix, newLoss);
      && SumOf(r.accepted, BetaContrib) == SumOf(g.accepted, BetaContrib) + g.rest[ix].contrib
      && SumOf(r.accepted, BetaNorm) == SumOf(g.accepted, BetaNorm) + g.rest[ix].norm2
      && r.accepted[..|r.accepted| - 1] == g.accepted
      && PutAll(coeffs0, BetaCoefs(r.accepted)) == Put(PutAll(coeffs0, BetaCoefs(g.accepted)), g.rest[ix].coef)
  {
    var acc := g.accepted + [g.rest[ix]];
    assert acc[..|acc| - 1] == g.accepted;
    assert BetaCoefs(acc)[..|acc| - 1] == BetaCoefs(g.accepted);
  }

  lemma StepKeeps(g: Greedy, ix: nat, newLoss: real, coeffs0: Dict, loss0: real, contribution0: real,
                  norm0: real, cands: seq<Beta>, n: nat, sqrt: real -> real)
    requires ix < |g.rest|
    requires Invariant(g, coeffs0, loss0, contribution0, norm0, cands, n, sqrt)
    requires !Full(g.coeffs, n) && 0.0 < newLoss < g.loss
    ensures Invariant(Step(g, ix, newLoss), coeffs0, loss0, contribution0, norm0, cands, n, sqrt)
  {
    var r := Step(g, ix, newLoss);
    StepMultiset(g, ix, newLoss);
    StepSums(g, ix, newLoss, coeffs0);
    assert g.rest[ix] in g.rest;
    DescendingStep(g.trace, loss0, g.loss, newLoss);
  }

  /** The loop state of `Accept`: its bookkeeping and the run so far. */
  ghost predicate Running(g: Greedy, coeffs0: Dict, loss0: real, contribution0: real, norm0: real,
                          cands: seq<Beta>, n: nat, sqrt: real -> real, rests: seq<seq<Beta>>) {
    && Invariant(g, coeffs0, loss0, contribution0, norm0, cands, n, sqrt)
    && GreedyRun(rests, cands, contribution0, norm0, g.accepted, g.trace, g.rest, sqrt)
  }

  lemma RunningStep(g: Greedy, ix: nat, newLoss: real, coeffs0: Dict, loss0: real, contribution0: real,
                    norm0: real, cands: seq<Beta>, n: nat, sqrt: real -> real, rests: seq<seq<Beta>>)
    requires ix < |g.rest|
    requires Running(g, coeffs0, loss0, contribution0, norm0, cands, n, sqrt, rests)
    requires !Full(g.coeffs, n) && 0.0 < newLoss < g.loss
    requires Gains(g.rest, g.contribution, g.norm2, sqrt).Ok?
    requires ix == ArgMax(Gains(g.rest, g.contribution, g.norm2, sqrt).value)
    requires newLoss == NewLoss(g.rest[ix], g.contribution, g.norm2, sqrt).value
    ensures Running(Step(g, ix, newLoss), coeffs0, loss0, contribution0, norm0, cands, n, sqrt,
                    rests + [Delete(g.rest, ix)])
  {
    StepKeeps(g, ix, newLoss, coeffs0, loss0, contribution0, norm0, cands, n, sqrt);
    StepRuns(g, ix, newLoss, contribution0, norm0, cands, sqrt, rests);
  }

  /** An acceptance by the greedy choice extends the run. */
  lemma StepRuns(g: Greedy, ix: nat, newLoss: real, contribution0: real, norm0: real, cands: seq<Beta>,
                 sqrt: real -> real, rests: seq<seq<Beta>>)
    requires ix < |g.rest|
    requires g.contribution == contribution0 + SumOf(g.accepted, BetaContrib)
    requires g.norm2 == norm0 + SumOf(g.accepted, BetaNorm)
    requires GreedyRun(rests, cands, contribution0, norm0, g.accepted, g.trace, g.rest, sqrt)
    requires Gains(g.rest, g.contribution, g.norm2, sqrt).Ok?
    requires ix == ArgMax(Gains(g.rest, g.contribution, g.norm2, sqrt).value)
    requires newLoss == NewLoss(g.rest[ix], g.contribution, g.norm2, sqrt).value
    ensures var r := Step(g, ix, newLoss);
      GreedyRun(rests + [r.rest], cands, contribution0, norm0, r.accepted, r.trace, r.rest, sqrt)
  {
    assert StepChoice(g.rest, Delete(g.rest, ix), g.rest[ix], newLoss, g.contribution, g.norm2, sqrt);
    assert g.contribution == RunContrib(contribution0, g.accepted);
    assert g.norm2 == RunNorm(norm0, g.accepted);
    GreedyRunStep(rests, cands, contribution0, norm0, g.accepted, g.trace, g.rest, sqrt,
                  g.rest[ix], Delete(g.rest, ix), newLoss);
  }

  lemma DescendingStep(trace: seq<real>, loss0: real, loss: real, newLoss: real)
    requires Descending(trace, loss0, loss) && 0.0 < newLoss < loss
    ensures Descending(trace + [newLoss], loss0, newLoss)
  {
    var t := trace + [newLoss];
    assert forall i :: 0 <= i < |trace| ==> t[i] == trace[i];
    assert loss <= loss0;
  }

  /** `max_lvl`: the highest level among the accepted betas, 0 if none. */
  function MaxLevel(bs: seq<Beta>): (r: nat)
    ensures forall b :: b in bs ==> b.coef.key.j <= r
    ensures r == 0 || exists b :: b in bs && b.coef.key.j == r
    decreases |bs|
  {
    if |bs| == 0 then 0
    else
      var m := MaxLevel(bs[..|bs| - 1]);
      var j := bs[|bs| - 1].coef.key.j;
      assert forall b :: b in bs <==> b in bs[..|bs| - 1] || b == bs[|bs| - 1] by {
        assert bs == bs[..|bs| - 1] + [bs[|bs| - 1]];
      }
      if m < j then j else m
  }

  /** The coefficients, the final loss, `self.delta_j`, and `trace_v` as
      the loss after each step with the beta accepted at that step. */
  datatype IterResult = IterResult(coeffs: Dict, loss: real, deltaJ: nat, trace: seq<real>, accepted: seq<Beta>)

  /** The accept loop's state at the end of `calc_iter_pdf`: the result
      with the running sums of its accepted betas and the candidates left. */
  function EndState(st: Start, res: IterResult, left: seq<Beta>): Greedy {
    Greedy(res.coeffs, res.loss, st.contrib + SumOf(res.accepted, BetaContrib),
           st.norm + SumOf(res.accepted, BetaNorm), res.accepted, res.trace, left)
  }

  /** `calc_iter_pdf(xs)`. `s1` is the store the estimator starts from and
      `s2` the store after the indexes of the explored levels have been
      added and computed. The first loop's errors come first, then the
      initial loss's square root, then `0.5 / n` on an empty sample, then
      the candidate loop, then the accept loop. The accepted betas are the
      greedy run over the candidates of `s2`, `left` holds the candidates
      it leaves, and the run ends for one of the loop's reasons. */
  method CalcIterPdf(s1: Store, s2: Store, env: Env) returns (r: Result<IterResult>, ghost left: seq<Beta>)
    requires EnvOk(env)
    ensures StartSums(s1, env).Err? ==> r == Err(StartSums(s1, env).error)
    ensures StartSums(s1, env).Ok? && StartLoss(StartSums(s1, env).value, env.sqrt).Err? ==>
              r == Err(StartLoss(StartSums(s1, env).value, env.sqrt).error)
    ensures env.n == 0 && StartSums(s1, env).Ok? && StartLoss(StartSums(s1, env).value, env.sqrt).Ok? ==>
              r == Err(ZeroDivisionError)
    ensures r.Ok? ==> StartSums(s1, env).Ok? && StartLoss(StartSums(s1, env).value, env.sqrt).Ok? && Betas(s2, env).Ok?
    ensures r.Ok? ==> r.value.loss <= StartLoss(StartSums(s1, env).value, env.sqrt).value
    ensures r.Ok? ==> Descending(r.value.trace, StartLoss(StartSums(s1, env).value, env.sqrt).value, r.value.loss)
    ensures r.Ok? ==> forall c :: c in StartSums(s1, env).value.coeffs && IsAlpha(c.key) ==> c in r.value.coeffs
    ensures r.Ok? ==> forall c :: c in r.value.coeffs ==> FromStore(c, s1) || FromStore(c, s2)
    ensures r.Ok? ==> DistinctDict(r.value.coeffs)
    ensures r.Ok? ==> r.value.coeffs == PutAll(StartSums(s1, env).value.coeffs, BetaCoefs(r.value.accepted))
    ensures r.Ok? ==> r.value.deltaJ == MaxLevel(r.value.accepted) + 1
    ensures r.Ok? ==> multiset(r.value.accepted) + multiset(left) == multiset(Betas(s2, env).value)
    ensures r.Ok? ==> exists rests :: GreedyRun(rests, Betas(s2, env).value, StartSums(s1, env).value.contrib,
                                                StartSums(s1, env).value.norm, r.value.accepted, r.value.trace, left, env.sqrt)
    ensures r.Ok? ==> Stopped(EndState(StartSums(s1, env).value, r.value, left), env.n, env.sqrt)
  {
    left := [];
    var st :- StartSums(s1, env);
    var loss :- StartLoss(st, env.sqrt);
    if env.n == 0 {
      r := Err(ZeroDivisionError);
      return;
    }
    var cands :- Betas(s2, env);
    var res;
    res, left :- Explore(st, loss, cands, env);
    AcceptedFacts(st, cands, EndState(st, res, left), s1, s2, env);
    r := Ok(res);
  }

  /** The accept loop of `calc_iter_pdf` from the start sums and loss over
      the candidates, with `self.delta_j` from the deepest accepted level. */
  method Explore(st: Start, loss: real, cands: seq<Beta>, env: Env) returns (r: Result<IterResult>, ghost left: seq<Beta>)
    ensures r.Ok? ==> Descending(r.value.trace, loss, r.value.loss)
    ensures r.Ok? ==> r.value.coeffs == PutAll(st.coeffs, BetaCoefs(r.value.accepted))
    ensures r.Ok? ==> r.value.deltaJ == MaxLevel(r.value.accepted) + 1
    ensures r.Ok? ==> multiset(r.value.accepted) + multiset(left) == multiset(cands)
    ensures r.Ok? ==> exists rests :: GreedyRun(rests, cands, st.contrib, st.norm, r.value.accepted, r.value.trace, left, env.sqrt)
    ensures r.Ok? ==> Stopped(EndState(st, r.value, left), env.n, env.sqrt)
  {
    left := [];
    var g :- Accept(st.coeffs, loss, st.contrib, st.norm, cands, env.n, env.sqrt);
    left := g.rest;
    var res := IterResult(g.coeffs, g.loss, MaxLevel(g.accepted) + 1, g.trace, g.accepted);
    EndStateOf(st, g, res);
    r := Ok(res);
  }

  /** The result with the final sums and the candidates left is the loop's
      final state. */
  lemma EndStateOf(st: Start, g: Greedy, res: IterResult)
    requires g.contribution == st.contrib + SumOf(g.accepted, BetaContrib)
    requires g.norm2 == st.norm + SumOf(g.accepted, BetaNorm)
    requires res.coeffs == g.coeffs && res.loss == g.loss && res.trace == g.trace && res.accepted == g.accepted
    ensures EndState(st, res, g.rest) == g
  {
  }

  /** The accepted betas come from the refined store and are never alphas,
      so the dictionary keeps the starting alphas and holds only store
      values. */
  lemma AcceptedFacts(st: Start, cands: seq<Beta>, g: Greedy, s1: Store, s2: Store, env: Env)
    requires EnvOk(env)
    requires StartSums(s1, env) == Ok(st) && Betas(s2, env) == Ok(cands)
    requires multiset(g.accepted) + multiset(g.rest) == multiset(cands)
    requires g.coeffs == PutAll(st.coeffs, BetaCoefs(g.accepted))
    ensures forall c :: c in st.coeffs && IsAlpha(c.key) ==> c in g.coeffs
    ensures forall c :: c in g.coeffs ==> FromStore(c, s1) || FromStore(c, s2)
    ensures DistinctDict(g.coeffs)
  {
    var cs := BetaCoefs(g.accepted);
    forall u | 0 <= u < |cs|
      ensures !IsAlpha(cs[u].key) && FromStore(cs[u], s2)
    {
      assert g.accepted[u] in multiset(cands);
    }
    PutAllKeeps(st.coeffs, cs);
    PutAllFrom(st.coeffs, cs);
    forall c | c in st.coeffs && IsAlpha(c.key)
      ensures c in g.coeffs
    {
      var t :| 0 <= t < |st.coeffs| && st.coeffs[t] == c;
      assert g.coeffs[t] == c;
    }
  }
}

=== FILE: lists.dfy ===
/** Sequence helpers that give the numpy and Python list operations used by
    the estimator their exact meaning: sums and prefix sums, first-index
    argmin/argmax, Python's negative indexing and slicing, and the raising
    behaviour of `/` and `math.sqrt`. */
module Lists {
  import opened Results

  function Abs(x: real): (r: real)
    ensures r >= 0.0
    ensures r == x || r == -x
  {
    if x < 0.0 then -x else x
  }

  function Min(a: int, b: int): int {
    if a <= b then a else b
  }

  /** Sum of a sequence of reals, accumulated left to right. */
  function Sum(s: seq<real>): real
    decreases |s|
  {
    if |s| == 0 then 0.0 else Sum(s[..|s| - 1]) + s[|s| - 1]
  }

  lemma {:induction false} SumConcat(a: seq<real>, b: seq<real>)
    ensures Sum(a + b) == Sum(a) + Sum(b)
    decreases |b|
  {
    if |b| == 0 {
      assert a + b == a;
    } else {
      assert (a + b)[..|a + b| - 1] == a + b[..|b| - 1];
      SumConcat(a, b[..|b| - 1]);
    }
  }

  lemma SumFront(s: seq<real>)
    requires |s| > 0
    ensures Sum(s) == s[0] + Sum(s[1..])
  {
    var h := [s[0]];
    assert s == h + s[1..];
    SumConcat(h, s[1..]);
    assert Sum(h) == Sum(h[..0]) + h[0];
    assert h[..0] == [];
  }

  lemma SumPrefixStep(s: seq<real>, i: nat)
    requires i < |s|
    ensures Sum(s[..i + 1]) == Sum(s[..i]) + s[i]
  {
    assert s[..i + 1][..i] == s[..i];
  }

  /** Adding `v` to one slot adds `v` to the total (numpy's `a[i] += v`). */
  lemma SumUpdate(s: seq<real>, i: nat, v: real)
    requires i < |s|
    ensures Sum(s[i := s[i] + v]) == Sum(s) + v
  {
    var t := s[i := s[i] + v];
    assert s == s[..i] + [s[i]] + s[i + 1..];
    assert t == s[..i] + [s[i] + v] + s[i + 1..];
    SumConcat(s[..i] + [s[i]], s[i + 1..]);
    SumConcat(s[..i], [s[i]]);
    SumConcat(s[..i] + [s[i] + v], s[i + 1..]);
    SumConcat(s[..i], [s[i] + v]);
  }

  /** Sum of `f` over the elements of `s`, accumulated left to right. */
  function SumOf<T>(s: seq<T>, f: T -> real): real
    decreases |s|
  {
    if |s| == 0 then 0.0 else SumOf(s[..|s| - 1], f) + f(s[|s| - 1])
  }

  lemma {:induction false} SumOfConcat<T>(a: seq<T>, b: seq<T>, f: T -> real)
    ensures SumOf(a + b, f) == SumOf(a, f) + SumOf(b, f)
    decreases |b|
  {
    if |b| == 0 {
      assert a + b == a;
    } else {
      assert (a + b)[..|a + b| - 1] == a + b[..|b| - 1];
      SumOfConcat(a, b[..|b| - 1], f);
    }
  }

  /** The order of accumulation does not matter: a permutation has the same sum. */
  lemma {:induction false} SumOfPermutation<T>(a: seq<T>, b: seq<T>, f: T -> real)
    requires multiset(a) == multiset(b)
    ensures SumOf(a, f) == SumOf(b, f)
    decreases |a|
  {
    if |a| > 0 {
      var x := a[|a| - 1];
      var a' := a[..|a| - 1];
      assert a == a' + [x];
      assert x in multiset(b);
      var k :| 0 <= k < |b| && b[k] == x;
      var b' := b[..k] + b[k + 1..];
      RemoveAt(b, k);
      assert multiset(a') == multiset(a) - multiset{x};
      SumOfPermutation(a', b', f);
      SumOfRemoveAt(b, k, f);
      SumOfConcat(a', [x], f);
      SumOfSingle(x, f);
    }
  }

  lemma RemoveAt<T>(b: seq<T>, k: nat)
    requires k < |b|
    ensures multiset(b[..k] + b[k + 1..]) == multiset(b) - multiset{b[k]}
  {
    assert b == b[..k] + [b[k]] + b[k + 1..];
    assert multiset(b) == multiset(b[..k]) + multiset{b[k]} + multiset(b[k + 1..]);
  }

  lemma SumOfSingle<T>(x: T, f: T -> real)
    ensures SumOf([x], f) == f(x)
  {
    assert [x][..0] == [];
  }

  lemma SumOfRemoveAt<T>(b: seq<T>, k: nat, f: T -> real)
    requires k < |b|
    ensures SumOf(b, f) == SumOf(b[..k] + b[k + 1..], f) + f(b[k])
  {
    SplitAt(b, k);
    SumOfSplit(b[..k], b[k], b[k + 1..], f);
  }

  lemma SplitAt<T>(b: seq<T>, k: nat)
    requires k < |b|
    ensures b == b[..k] + [b[k]] + b[k + 1..]
  {
  }

  lemma SumOfSplit<T>(p: seq<T>, x: T, q: seq<T>, f: T -> real)
    ensures SumOf(p + [x] + q, f) == SumOf(p + q, f) + f(x)
  {
    SumOfConcat(p + [x], q, f);
    SumOfConcat(p, [x], f);
    SumOfConcat(p, q, f);
    SumOfSingle(x, f);
  }

  /** `np.delete(s, i)` on a one-dimensional sequence. */
  function Delete<T>(s: seq<T>, i: nat): (r: seq<T>)
    requires i < |s|
    ensures |r| == |s| - 1
    ensures forall t :: 0 <= t < i ==> r[t] == s[t]
    ensures forall t :: i <= t < |r| ==> r[t] == s[t + 1]
  {
    s[..i] + s[i + 1..]
  }

  lemma SumDelete(s: seq<real>, i: nat)
    requires i < |s|
    ensures Sum(Delete(s, i)) == Sum(s) - s[i]
  {
    assert s == s[..i] + [s[i]] + s[i + 1..];
    SumConcat(s[..i] + [s[i]], s[i + 1..]);
    SumConcat(s[..i], [s[i]]);
    SumConcat(s[..i], s[i + 1..]);
  }

  lemma SumNonNegative(s: seq<real>)
    requires forall i :: 0 <= i < |s| ==> s[i] >= 0.0
    ensures Sum(s) >= 0.0
    decreases |s|
  {
    if |s| > 0 {
      SumNonNegative(s[..|s| - 1]);
    }
  }

  /** Sequences that agree pointwise have the same sum. */
  lemma SumPointwise(a: seq<real>, b: seq<real>)
    requires |a| == |b|
    requires forall i :: 0 <= i < |a| ==> a[i] == b[i]
    ensures Sum(a) == Sum(b)
  {
    assert a == b;
  }

  /** `np.cumsum`: entry i holds the sum of the first i+1 entries. */
  function CumSum(s: seq<real>): (r: seq<real>)
    ensures |r| == |s|
  {
    seq(|s|, i requires 0 <= i < |s| => Sum(s[..i + 1]))
  }

  /** Number of true entries: `.sum()` of a boolean numpy array. */
  function Count(bs: seq<bool>): (r: nat)
    ensures r <= |bs|
    decreases |bs|
  {
    if |bs| == 0 then 0 else Count(bs[..|bs| - 1]) + (if bs[|bs| - 1] then 1 else 0)
  }

  /** `a` is the first position of a minimal element of `s`. */
  predicate IsFirstMin(s: seq<real>, a: int) {
    && 0 <= a < |s|
    && (forall t :: 0 <= t < |s| ==> s[a] <= s[t])
    && (forall t :: 0 <= t < a ==> s[a] < s[t])
  }

  /** Appending a value keeps the first minimum unless the value is
      strictly smaller, in which case it becomes the first minimum. */
  lemma FirstMinAppend(s: seq<real>, a: int, x: real)
    requires IsFirstMin(s, a)
    ensures x < s[a] ==> IsFirstMin(s + [x], |s|)
    ensures x >= s[a] ==> IsFirstMin(s + [x], a)
  {
  }

  /** `a` is the first position of a maximal element of `s`. */
  predicate IsFirstMax(s: seq<real>, a: int) {
    && 0 <= a < |s|
    && (forall t :: 0 <= t < |s| ==> s[t] <= s[a])
    && (forall t :: 0 <= t < a ==> s[t] < s[a])
  }

  lemma FirstMinUnique(s: seq<real>, a: int, b: int)
    requires IsFirstMin(s, a) && IsFirstMin(s, b)
    ensures a == b
  {
    assert s[a] <= s[b] && s[b] <= s[a];
  }

  /** `np.argmin` on a non-empty real vector: ties go to the first index. */
  function ArgMin(s: seq<real>): (r: nat)
    requires |s| > 0
    ensures IsFirstMin(s, r)
    decreases |s|
  {
    if |s| == 1 then 0
    else
      var m := ArgMin(s[..|s| - 1]);
      if s[|s| - 1] < s[m] then |s| - 1 else m
  }

  /** `np.argmax` on a non-empty real vector: ties go to the first index. */
  function ArgMax(s: seq<real>): (r: nat)
    requires |s| > 0
    ensures IsFirstMax(s, r)
    decreases |s|
  {
    if |s| == 1 then 0
    else
      var m := ArgMax(s[..|s| - 1]);
      if s[m] < s[|s| - 1] then |s| - 1 else m
  }

  /** `np.argmin` on a non-empty boolean vector (False < True): the first
      False, or 0 when every entry is True. */
  function ArgMinBool(bs: seq<bool>): (r: nat)
    requires |bs| > 0
    ensures r < |bs|
    ensures (exists t :: 0 <= t < |bs| && !bs[t]) ==> !bs[r] && forall t :: 0 <= t < r ==> bs[t]
    ensures (forall t :: 0 <= t < |bs| ==> bs[t]) ==> r == 0
    decreases |bs|
  {
    if !bs[0] || |bs| == 1 then 0
    else
      var m := ArgMinBool(bs[1..]);
      if bs[1..][m] then 0 else m + 1
  }

  /** Python `s[i]` for any integer `i`: negative indices count from the end. */
  function PyIndex<T>(s: seq<T>, i: int): (r: Result<T>)
    ensures r.Ok? <==> -|s| <= i < |s|
    ensures 0 <= i < |s| ==> r == Ok(s[i])
    ensures -|s| <= i < 0 ==> r == Ok(s[|s| + i])
  {
    if 0 <= i < |s| then Ok(s[i])
    else if -|s| <= i < 0 then Ok(s[|s| + i])
    else Err(IndexError)
  }

  /** Python `s[:stop]` for any integer `stop`. */
  function PyPrefix<T>(s: seq<T>, stop: int): (r: seq<T>)
    ensures 0 <= stop ==> r == s[..Min(stop, |s|)]
    ensures stop < 0 ==> |r| == (if |s| + stop < 0 then 0 else |s| + stop)
    ensures r <= s
  {
    if 0 <= stop then s[..Min(stop, |s|)]
    else if |s| + stop < 0 then []
    else s[..|s| + stop]
  }

  /** Python `a / b` on floats: raises ZeroDivisionError when `b` is zero. */
  function Div(a: real, b: real): (r: Result<real>)
    ensures r.Ok? <==> b != 0.0
    ensures r.Ok? ==> r.value * b == a
  {
    if b == 0.0 then Err(ZeroDivisionError) else Ok(a / b)
  }

  /** Python `a / math.sqrt(x)` with `math.sqrt` given as the parameter
      `sqrt`: a negative argument raises ValueError, a zero root raises
      ZeroDivisionError. */
  function SqrtDiv(a: real, x: real, sqrt: real -> real): (r: Result<real>)
    ensures x < 0.0 ==> r == Err(ValueError("math domain error"))
    ensures 0.0 <= x && sqrt(x) == 0.0 ==> r == Err(ZeroDivisionError)
    ensures r.Ok? ==> 0.0 <= x && sqrt(x) != 0.0 && r.value * sqrt(x) == a
  {
    if x < 0.0 then Err(ValueError("math domain error"))
    else Div(a, sqrt(x))
  }

  /** The abstract square root behaves as one on the non-negative reals. */
  ghost predicate IsSqrt(sqrt: real -> real) {
    forall x :: 0.0 <= x ==> 0.0 <= sqrt(x) && sqrt(x) * sqrt(x) == x
  }
}

=== FILE: logest.dfy ===
/** The log-likelihood variant of the estimator (`log_estimator.py`): hard
    thresholding of the detail coefficients and the minimum-description-
    length ranking that chooses the threshold. Logarithms, the Riemannian
    volume penalties and the log-likelihood of the data under a candidate
    density are inputs. */
module LogEstimator {
  import opened Results
  import opened Lists
  import opened Sorting

  /** `GN_NUM`: a coefficient supported by at most this many samples is
      never thresholded and never ranked. */
  const GnNum: int := 35

  /** The elements of `s` that satisfy `p`, in order. */
  function Keep<T(!new)>(s: seq<T>, p: T -> bool): (r: seq<T>)
    ensures |r| <= |s|
    ensures forall x :: x in r <==> x in s && p(x)
    decreases |s|
  {
    if |s| == 0 then []
    else
      var front := s[..|s| - 1];
      var last := s[|s| - 1];
      assert s == front + [last];
      Keep(front, p) + (if p(last) then [last] else [])
  }

  /** Keeping distributes over concatenation: the kept elements stay in
      their original order. */
  lemma {:induction false} KeepConcat<T(!new)>(a: seq<T>, b: seq<T>, p: T -> bool)
    ensures Keep(a + b, p) == Keep(a, p) + Keep(b, p)
    decreases |b|
  {
    if |b| == 0 {
      assert a + b == a;
    } else {
      var b' := b[..|b| - 1];
      assert (a + b)[..|a + b| - 1] == a + b';
      KeepConcat(a, b', p);
    }
  }

  lemma KeepStep<T(!new)>(s: seq<T>, t: nat, p: T -> bool)
    requires t < |s|
    ensures Keep(s[..t + 1], p) == Keep(s[..t], p) + (if p(s[t]) then [s[t]] else [])
  {
    assert s[..t + 1][..t] == s[..t];
  }

  function NonZero(x: real): bool {
    x != 0.0
  }

  /** `ifpos(vs)`: the non-zero values. */
  function IfPos(vs: seq<real>): (r: seq<real>)
    ensures forall x :: x in r <==> x in vs && x != 0.0
  {
    Keep(vs, NonZero)
  }

  /** `log_factorial(n)`: the sum of log 2 … log n, and 0 for n ≤ 1. */
  function LogFactorial(n: int, log: real -> real): (r: real)
    ensures n <= 1 ==> r == 0.0
  {
    if n <= 1 then 0.0 else Sum(seq(n - 1, i requires 0 <= i < n - 1 => log((i + 2) as real)))
  }

  /** log n! = log (n-1)! + log n. */
  lemma LogFactorialStep(n: int, log: real -> real)
    requires n >= 1
    ensures LogFactorial(n + 1, log) == LogFactorial(n, log) + log((n + 1) as real)
  {
    var s := seq(n, i requires 0 <= i < n => log((i + 2) as real));
    assert Sum(s) == Sum(s[..n - 1]) + log((n + 1) as real);
    if n == 1 {
      assert s[..0] == [];
    } else {
      assert s[..n - 1] == seq(n - 1, i requires 0 <= i < n - 1 => log((i + 2) as real));
    }
  }

  /** The cut-off `hard_th` applies to a coefficient of level j supported by
      `num` samples: the chosen key scaled back by √(j+1) when more than
      `GN_NUM` samples support it, and 0 otherwise. */
  function LevelThreshold(thValue: real, j: nat, num: int, sqrt: real -> real): real {
    if num > GnNum then thValue * sqrt((j + 1) as real) else 0.0
  }

  /** `hard_th(n, j, num, coeff)` of `calc_hard_threshold_fun`: the
      coefficient itself when its magnitude reaches the level threshold,
      0 when it falls strictly below it. */
  function HardTh(thValue: real, sqrt: real -> real, j: nat, num: int, coeff: real): (r: real)
    ensures Abs(coeff) < LevelThreshold(thValue, j, num, sqrt) ==> r == 0.0
    ensures Abs(coeff) >= LevelThreshold(thValue, j, num, sqrt) ==> r == coeff
    ensures r == 0.0 || r == coeff
    ensures num <= GnNum ==> r == coeff
  {
    var lvl := LevelThreshold(thValue, j, num, sqrt);
    if coeff < 0.0 then
      if -coeff < lvl then 0.0 else coeff
    else
      if coeff < lvl then 0.0 else coeff
  }

  /** Thresholding never flips a sign and never grows a magnitude. */
  lemma HardThShrinks(thValue: real, sqrt: real -> real, j: nat, num: int, coeff: real)
    ensures Abs(HardTh(thValue, sqrt, j, num, coeff)) <= Abs(coeff)
    ensures HardTh(thValue, sqrt, j, num, coeff) * coeff >= 0.0
  {
  }

  /** `hard_th` is odd: it treats c and -c alike. */
  lemma HardThOdd(thValue: real, sqrt: real -> real, j: nat, num: int, coeff: real)
    ensures HardTh(thValue, sqrt, j, num, -coeff) == -HardTh(thValue, sqrt, j, num, coeff)
  {
  }

  /** Thresholding twice is thresholding once. */
  lemma HardThIdempotent(thValue: real, sqrt: real -> real, j: nat, num: int, coeff: real)
    ensures var once := HardTh(thValue, sqrt, j, num, coeff);
      HardTh(thValue, sqrt, j, num, once) == once
  {
  }

  /** `self.thresholding`: unset (`None`), or the `hard_th` closure built
      from the best rank row's parameter count and key. `HardAll` is
      `hard_th` at an infinite key, which cuts every coefficient supported
      by more than `GN_NUM` samples: the closure the alphas-only row calls
      for (see `CalcHardThresholdFunCorrected`). */
  datatype Thresholding = Unset | Hard(betasNum: int, thValue: real) | HardAll(betasNum: int)

  /** `th_fun(n, j, num, coeff)` in `pdffun_j`: `hard_th` when a
      thresholding is set and the level asks for it, the identity
      otherwise. */
  function ThFun(t: Thresholding, threshold: bool, sqrt: real -> real, j: nat, num: int, coeff: real): (r: real)
    ensures !threshold || t.Unset? ==> r == coeff
    ensures r == 0.0 || r == coeff
    ensures t.Hard? && threshold && Abs(coeff) < LevelThreshold(t.thValue, j, num, sqrt) ==> r == 0.0
    ensures t.Hard? && Abs(coeff) >= LevelThreshold(t.thValue, j, num, sqrt) ==> r == coeff
    ensures t.HardAll? && threshold && num > GnNum ==> r == 0.0
    ensures t.HardAll? && num <= GnNum ==> r == coeff
  {
    if !threshold || t.Unset? then coeff
    else if t.Hard? then HardTh(t.thValue, sqrt, j, num, coeff)
    else if num > GnNum then 0.0
    else coeff
  }

  /** One stored coefficient of the log estimator: `coeffs[j][qx][zs]` and
      its support count `nums[j][qx][zs]`. */
  datatype LogCoef = LogCoef(j: nat, qx: seq<int>, zs: seq<int>, coeff: real, num: int)

  function Squared(x: real): real {
    x * x
  }

  /** `norm_j` of `pdffun_j`: the sum of the squared coefficients after
      `th_fun`. */
  function LevelNorm(cs: seq<LogCoef>, t: Thresholding, threshold: bool, sqrt: real -> real): real
    decreases |cs|
  {
    if |cs| == 0 then 0.0
    else
      var c := cs[|cs| - 1];
      LevelNorm(cs[..|cs| - 1], t, threshold, sqrt) + Squared(ThFun(t, threshold, sqrt, c.j, c.num, c.coeff))
  }

  /** `norm_const` of `calc_pdf`: the alpha level is evaluated with the
      threshold flag off, the detail levels with it on. */
  function LogNormConst(alphas: seq<LogCoef>, details: seq<LogCoef>, t: Thresholding, sqrt: real -> real): real {
    LevelNorm(alphas, t, false, sqrt) + LevelNorm(details, t, true, sqrt)
  }

  /** The alphas are never thresholded: their share of the normaliser is
      the same with or without a thresholding. */
  lemma {:induction false} AlphasNeverThresholded(alphas: seq<LogCoef>, t: Thresholding, sqrt: real -> real)
    ensures LevelNorm(alphas, t, false, sqrt) == LevelNorm(alphas, Unset, false, sqrt)
    decreases |alphas|
  {
    if |alphas| > 0 {
      AlphasNeverThresholded(alphas[..|alphas| - 1], t, sqrt);
    }
  }

  /** Thresholding can only lower the normaliser, and it stays
      non-negative. */
  lemma {:induction false} LevelNormBounds(cs: seq<LogCoef>, t: Thresholding, threshold: bool, sqrt: real -> real)
    ensures 0.0 <= LevelNorm(cs, t, threshold, sqrt) <= LevelNorm(cs, Unset, threshold, sqrt)
    decreases |cs|
  {
    if |cs| > 0 {
      var c := cs[|cs| - 1];
      LevelNormBounds(cs[..|cs| - 1], t, threshold, sqrt);
      var v := ThFun(t, threshold, sqrt, c.j, c.num, c.coeff);
      assert v == 0.0 || v == c.coeff;
      assert Squared(v) <= Squared(c.coeff);
      assert Squared(v) >= 0.0;
    }
  }

  lemma LogNormConstBounds(alphas: seq<LogCoef>, details: seq<LogCoef>, t: Thresholding, sqrt: real -> real)
    ensures 0.0 <= LogNormConst(alphas, details, t, sqrt) <= LogNormConst(alphas, details, Unset, sqrt)
  {
    LevelNormBounds(alphas, t, false, sqrt);
    LevelNormBounds(details, t, true, sqrt);
  }

  /** One entry of `betas` in `calc_pdf_mdl`: `(j, qx, zs, v, v_th,
      num > GN_NUM)`. */
  datatype MdlBeta = MdlBeta(j: nat, qx: seq<int>, zs: seq<int>, v: real, vTh: real, gt: bool)

  function NonZeroCoef(c: LogCoef): bool {
    c.coeff != 0.0
  }

  /** `b` is the ranking entry of the stored coefficient `c`: its key is
      |v| / √(j+1), and it is eligible iff more than `GN_NUM` samples
      support `c`. */
  predicate BetaOf(c: LogCoef, b: MdlBeta, sqrt: real -> real) {
    && b.j == c.j && b.qx == c.qx && b.zs == c.zs && b.v == c.coeff
    && b.vTh * sqrt((c.j + 1) as real) == Abs(c.coeff)
    && b.gt == (c.num > GnNum)
  }

  /** The `betas` list of `calc_pdf_mdl`, built over the detail
      coefficients in store order: zero coefficients are skipped, and a
      degenerate square root raises ZeroDivisionError. */
  function MdlBetas(details: seq<LogCoef>, sqrt: real -> real): (r: Result<seq<MdlBeta>>)
    ensures r.Ok? ==> |r.value| == |Keep(details, NonZeroCoef)|
    ensures r.Ok? ==> forall i :: 0 <= i < |r.value| ==> BetaOf(Keep(details, NonZeroCoef)[i], r.value[i], sqrt)
    ensures IsSqrt(sqrt) ==> r.Ok?
    decreases |details|
  {
    if |details| == 0 then Ok([])
    else
      var front := details[..|details| - 1];
      var c := details[|details| - 1];
      var acc :- MdlBetas(front, sqrt);
      if c.coeff == 0.0 then Ok(acc)
      else
        assert IsSqrt(sqrt) ==> sqrt((c.j + 1) as real) != 0.0 by {
          if IsSqrt(sqrt) {
            var s := sqrt((c.j + 1) as real);
            assert s * s == (c.j + 1) as real;
          }
        }
        var th :- SqrtDiv(Abs(c.coeff), (c.j + 1) as real, sqrt);
        Ok(acc + [MdlBeta(c.j, c.qx, c.zs, c.coeff, th, c.num > GnNum)])
  }

  /** The sort key `(not gt, -v_th)`: eligible entries first, then by
      descending key. */
  predicate MdlLe(a: MdlBeta, b: MdlBeta) {
    (a.gt && !b.gt) || (a.gt == b.gt && -a.vTh <= -b.vTh)
  }

  lemma MdlLePreorder()
    ensures TotalPreorder(MdlLe)
  {
  }

  /** `betas.sort(key=lambda tt: (not tt[5], -tt[4]))`. */
  function SortMdl(betas: seq<MdlBeta>): (r: seq<MdlBeta>)
    ensures multiset(r) == multiset(betas)
  {
    StableSort(betas, MdlLe)
  }

  /** After sorting, every eligible entry precedes every ineligible one,
      and eligible entries come in descending key order. */
  lemma SortMdlOrder(betas: seq<MdlBeta>)
    ensures var r := SortMdl(betas);
      forall a, b :: 0 <= a < b < |r| && r[b].gt ==> r[a].gt
    ensures var r := SortMdl(betas);
      forall a, b :: 0 <= a < b < |r| && r[a].gt == r[b].gt ==> r[a].vTh >= r[b].vTh
  {
    MdlLePreorder();
    StableSortSorted(betas, MdlLe);
  }

  function Eligible(b: MdlBeta): bool {
    b.gt
  }

  predicate EligibleFirst(s: seq<MdlBeta>) {
    forall a, b :: 0 <= a < b < |s| && s[b].gt ==> s[a].gt
  }

  /** When eligible entries come first, the entries the ranking loop
      accepts form a prefix of the sorted list: once it skips one, it
      skips all the rest. */
  lemma {:induction false} EligiblePrefix(s: seq<MdlBeta>)
    requires EligibleFirst(s)
    ensures Keep(s, Eligible) == s[..|Keep(s, Eligible)|]
    decreases |s|
  {
    if |s| > 0 {
      if s[|s| - 1].gt {
        assert forall a :: 0 <= a < |s| ==> s[a].gt by {
          forall a | 0 <= a < |s| ensures s[a].gt {
            if a < |s| - 1 {
              assert s[|s| - 1].gt;
            }
          }
        }
        AllKept(s);
      } else {
        var front := s[..|s| - 1];
        assert EligibleFirst(front);
        EligiblePrefix(front);
        KeepLast(s, Eligible);
        FrontPrefix(s, |Keep(front, Eligible)|);
      }
    }
  }

  lemma KeepLast<T(!new)>(s: seq<T>, p: T -> bool)
    requires |s| > 0 && !p(s[|s| - 1])
    ensures Keep(s, p) == Keep(s[..|s| - 1], p)
  {
  }

  lemma KeepLastIn<T(!new)>(s: seq<T>, p: T -> bool)
    requires |s| > 0 && p(s[|s| - 1])
    ensures Keep(s, p) == Keep(s[..|s| - 1], p) + [s[|s| - 1]]
  {
  }

  lemma FrontPrefix<T>(s: seq<T>, k: nat)
    requires |s| > 0 && k <= |s| - 1
    ensures s[..|s| - 1][..k] == s[..k]
  {
  }

  lemma {:induction false} AllKept(s: seq<MdlBeta>)
    requires forall a :: 0 <= a < |s| ==> s[a].gt
    ensures Keep(s, Eligible) == s
    decreases |s|
  {
    if |s| > 0 {
      var front := s[..|s| - 1];
      var last := s[|s| - 1];
      assert forall a :: 0 <= a < |front| ==> front[a].gt;
      AllKept(front);
      KeepLastIn(s, Eligible);
      assert front + [last] == s;
    }
  }

  /** `rank_tuple = (k, logLL, penalty, logLL + penalty, th)`. */
  datatype RankRow = RankRow(k: int, logLL: real, penalty: real, score: real, th: real)

  /** Row i of the ranking: the alphas plus the first i accepted betas,
      i.e. num_alphas + i parameters, the negative log-likelihood of that
      density, its penalty, their sum, and the key of the last beta added
      (0 for the alphas alone). */
  predicate RowOf(row: RankRow, i: nat, numAlphas: nat, accepted: seq<MdlBeta>,
                  nll: seq<MdlBeta> -> real, penalty: int -> real)
    requires i <= |accepted|
  {
    && row.k == numAlphas + i
    && row.logLL == nll(accepted[..i])
    && row.penalty == penalty(numAlphas + i)
    && row.score == row.logLL + row.penalty
    && row.th == (if i == 0 then 0.0 else accepted[i - 1].vTh)
  }

  function Scores(rows: seq<RankRow>): (r: seq<real>)
    ensures |r| == |rows|
    ensures forall i :: 0 <= i < |rows| ==> r[i] == rows[i].score
  {
    seq(|rows|, i requires 0 <= i < |rows| => rows[i].score)
  }

  function MakeRow(k: int, nll: real, penalty: real, th: real): RankRow {
    RankRow(k, nll, penalty, nll + penalty, th)
  }

  /** `rows` is the ranking of the alphas followed by `accepted`. */
  predicate Ranking(rows: seq<RankRow>, numAlphas: nat, accepted: seq<MdlBeta>,
                    nll: seq<MdlBeta> -> real, penalty: int -> real)
  {
    && |rows| == |accepted| + 1
    && forall i :: 0 <= i < |rows| ==> RowOf(rows[i], i, numAlphas, accepted, nll, penalty)
  }

  lemma RankingExtend(rows: seq<RankRow>, numAlphas: nat, accepted: seq<MdlBeta>, b: MdlBeta,
                      nll: seq<MdlBeta> -> real, penalty: int -> real)
    requires Ranking(rows, numAlphas, accepted, nll, penalty)
    ensures var k := numAlphas + |accepted| + 1;
      Ranking(rows + [MakeRow(k, nll(accepted + [b]), penalty(k), b.vTh)], numAlphas, accepted + [b], nll, penalty)
  {
    var accepted' := accepted + [b];
    assert forall i :: 0 <= i <= |accepted| ==> accepted'[..i] == accepted[..i];
    assert accepted'[..|accepted'|] == accepted';
  }

  lemma ScoresAppend(rows: seq<RankRow>, row: RankRow)
    ensures Scores(rows + [row]) == Scores(rows) + [row.score]
  {
  }

  /** The state of the ranking loop after `accepted`: the parameter count,
      the rows so far and the best of them, which sits at position `a`. */
  ghost predicate RankInv(numAlphas: nat, accepted: seq<MdlBeta>, k: int, best: RankRow, ranking: seq<RankRow>,
                          a: int, nll: seq<MdlBeta> -> real, penalty: int -> real)
  {
    && k == numAlphas + |accepted|
    && Ranking(ranking, numAlphas, accepted, nll, penalty)
    && IsFirstMin(Scores(ranking), a) && best == ranking[a]
  }

  /** One turn of the ranking loop on an eligible beta. */
  method RankOne(numAlphas: nat, b: MdlBeta, accepted: seq<MdlBeta>, k: int, best: RankRow, ranking: seq<RankRow>,
                 ghost a: int, nll: seq<MdlBeta> -> real, penalty: int -> real)
    returns (k': int, best': RankRow, ranking': seq<RankRow>, ghost a': int)
    requires RankInv(numAlphas, accepted, k, best, ranking, a, nll, penalty)
    ensures RankInv(numAlphas, accepted + [b], k', best', ranking', a', nll, penalty)
  {
    var row := MakeRow(k + 1, nll(accepted + [b]), penalty(k + 1), b.vTh);
    RankingExtend(ranking, numAlphas, accepted, b, nll, penalty);
    ScoresAppend(ranking, row);
    FirstMinAppend(Scores(ranking), a, row.score);
    if row.score < best.score {
      best' := row;
      a' := |ranking|;
    } else {
      best' := best;
      a' := a;
    }
    k' := k + 1;
    ranking' := ranking + [row];
  }

  /** The ranking loop of `calc_pdf_mdl`: one row for the alphas alone,
      then one row per eligible beta in sorted order (ineligible ones are
      skipped). The best row is replaced only by a strictly smaller score,
      so it is the first row of minimal score. */
  method MdlRank(numAlphas: nat, sorted: seq<MdlBeta>, nll: seq<MdlBeta> -> real, penalty: int -> real)
    returns (best: RankRow, ranking: seq<RankRow>)
    ensures Ranking(ranking, numAlphas, Keep(sorted, Eligible), nll, penalty)
    ensures exists a :: IsFirstMin(Scores(ranking), a) && best == ranking[a]
  {
    var accepted: seq<MdlBeta> := [];
    var k := numAlphas;
    best := MakeRow(k, nll([]), penalty(k), 0.0);
    ranking := [best];
    ghost var a := 0;
    var t := 0;
    while t < |sorted|
      invariant 0 <= t <= |sorted|
      invariant accepted == Keep(sorted[..t], Eligible)
      invariant RankInv(numAlphas, accepted, k, best, ranking, a, nll, penalty)
    {
      var b := sorted[t];
      KeepStep(sorted, t, Eligible);
      if b.gt {
        k, best, ranking, a := RankOne(numAlphas, b, accepted, k, best, ranking, a, nll, penalty);
        accepted := accepted + [b];
      }
      t := t + 1;
    }
    assert sorted[..|sorted|] == sorted;
  }

  /** The keys of the ranking rows after the first beta never increase. */
  lemma RankingKeysDescending(sorted: seq<MdlBeta>, ranking: seq<RankRow>, numAlphas: nat,
                              nll: seq<MdlBeta> -> real, penalty: int -> real)
    requires EligibleFirst(sorted)
    requires forall a, b :: 0 <= a < b < |sorted| && sorted[a].gt == sorted[b].gt ==> sorted[a].vTh >= sorted[b].vTh
    requires Ranking(ranking, numAlphas, Keep(sorted, Eligible), nll, penalty)
    ensures forall i :: 2 <= i < |ranking| ==> ranking[i].th <= ranking[i - 1].th
  {
    var acc := Keep(sorted, Eligible);
    EligiblePrefix(sorted);
    forall i | 2 <= i < |ranking|
      ensures ranking[i].th <= ranking[i - 1].th
    {
      assert RowOf(ranking[i], i, numAlphas, acc, nll, penalty);
      assert RowOf(ranking[i - 1], i - 1, numAlphas, acc, nll, penalty);
      assert acc[i - 1] in acc && acc[i - 2] in acc;
      assert acc[i - 1] == sorted[i - 1] && acc[i - 2] == sorted[i - 2];
    }
  }

  /** `best` is the first row of least description length in the ranking
      of the alphas followed by `accepted`. */
  ghost predicate BestRow(best: RankRow, numAlphas: nat, accepted: seq<MdlBeta>,
                    nll: seq<MdlBeta> -> real, penalty: int -> real)
  {
    exists rows, a :: Ranking(rows, numAlphas, accepted, nll, penalty) && IsFirstMin(Scores(rows), a) && best == rows[a]
  }

  /** What `calc_pdf_mdl` returns and records: the best rank row and the
      whole ranking. */
  datatype Mdl = Mdl(best: RankRow, ranking: seq<RankRow>)

  function Coeffs(cs: seq<LogCoef>): (r: seq<real>)
    ensures |r| == |cs|
    ensures forall i :: 0 <= i < |cs| ==> r[i] == cs[i].coeff
  {
    seq(|cs|, i requires 0 <= i < |cs| => cs[i].coeff)
  }

  /** `calc_pdf_mdl`: rank the non-zero detail coefficients and pick the
      row of smallest description length. `nll(accepted)` is the negative
      log-likelihood of the data under the density of the alphas and the
      accepted betas, and `penalty(k)` the Riemannian-volume penalty of k
      parameters; both are inputs. */
  method CalcPdfMdl(alphas: seq<LogCoef>, details: seq<LogCoef>, nll: seq<MdlBeta> -> real,
                    penalty: int -> real, sqrt: real -> real) returns (r: Result<Mdl>)
    ensures IsSqrt(sqrt) ==> r.Ok?
    ensures r.Ok? ==> |r.value.ranking| >= 1 && r.value.ranking[0].k == |IfPos(Coeffs(alphas))|
    ensures r.Ok? ==> exists a :: IsFirstMin(Scores(r.value.ranking), a) && r.value.best == r.value.ranking[a]
    ensures r.Ok? ==> forall i :: 0 <= i < |r.value.ranking| ==> r.value.ranking[i].k == |IfPos(Coeffs(alphas))| + i
    ensures r.Ok? ==> |r.value.ranking| <= |Keep(details, NonZeroCoef)| + 1
    ensures r.Ok? ==> forall i :: 2 <= i < |r.value.ranking| ==> r.value.ranking[i].th <= r.value.ranking[i - 1].th
    ensures r.Ok? ==> MdlBetas(details, sqrt).Ok?
    ensures r.Ok? ==> Ranking(r.value.ranking, |IfPos(Coeffs(alphas))|,
                              Keep(SortMdl(MdlBetas(details, sqrt).value), Eligible), nll, penalty)
    ensures r.Ok? ==> BestRow(r.value.best, |IfPos(Coeffs(alphas))|,
                              Keep(SortMdl(MdlBetas(details, sqrt).value), Eligible), nll, penalty)
  {
    var numAlphas := |IfPos(Coeffs(alphas))|;
    var betas :- MdlBetas(details, sqrt);
    var sorted := SortMdl(betas);
    SortMdlOrder(betas);
    var best, ranking := MdlRank(numAlphas, sorted, nll, penalty);
    assert |sorted| == |betas| by {
      assert |multiset(sorted)| == |multiset(betas)|;
    }
    RankingKeysDescending(sorted, ranking, numAlphas, nll, penalty);
    assert forall i :: 0 <= i < |ranking| ==> RowOf(ranking[i], i, numAlphas, Keep(sorted, Eligible), nll, penalty);
    return Ok(Mdl(best, ranking));
  }

  /** `calc_hard_threshold_fun(best_tuple)`. */
  function CalcHardThresholdFun(best: RankRow): (r: Thresholding)
    ensures r.Hard? && r.betasNum == best.k && r.thValue == best.th
  {
    Hard(best.k, best.th)
  }

  /** With a true square root, the threshold chosen from a rank row keeps
      an eligible beta exactly when its ranking key reaches the row's key,
      and always keeps an ineligible one: the density `mdlfit` builds uses
      the ranked prefix up to the best row (plus the betas tied with it). */
  lemma HardThKeepsRanked(c: LogCoef, b: MdlBeta, row: RankRow, sqrt: real -> real)
    requires IsSqrt(sqrt) && BetaOf(c, b, sqrt) && c.coeff != 0.0
    ensures var t := CalcHardThresholdFun(row);
      b.gt ==> (ThFun(t, true, sqrt, c.j, c.num, c.coeff) == c.coeff <==> b.vTh >= row.th)
    ensures var t := CalcHardThresholdFun(row);
      !b.gt ==> ThFun(t, true, sqrt, c.j, c.num, c.coeff) == c.coeff
  {
    var s := sqrt((c.j + 1) as real);
    assert s * s == (c.j + 1) as real && s >= 0.0;
    assert s > 0.0;
    if b.gt {
      assert b.vTh * s == Abs(c.coeff);
      if b.vTh >= row.th {
        assert (b.vTh - row.th) * s >= 0.0;
      } else {
        assert (row.th - b.vTh) * s > 0.0;
      }
    }
  }

  /** As written, the alphas-only row carries the key 0 (line 180), so
      when it is the best row the closure keeps every beta: the density of
      the alphas alone is never the one `mdlfit` installs. */
  lemma AsWrittenAlphaRowKeepsBetas(rows: seq<RankRow>, numAlphas: nat, accepted: seq<MdlBeta>,
                                     nll: seq<MdlBeta> -> real, penalty: int -> real,
                                     c: LogCoef, b: MdlBeta, sqrt: real -> real)
    requires Ranking(rows, numAlphas, accepted, nll, penalty)
    requires IsSqrt(sqrt) && BetaOf(c, b, sqrt) && c.coeff != 0.0
    ensures ThFun(CalcHardThresholdFun(rows[0]), true, sqrt, c.j, c.num, c.coeff) == c.coeff
  {
    assert RowOf(rows[0], 0, numAlphas, accepted, nll, penalty);
    HardThKeepsRanked(c, b, rows[0], sqrt);
    if b.gt {
      assert b.vTh >= 0.0 == rows[0].th;
    }
  }

  /** The closure the ranking calls for: the betas ranked up to the best
      row, and none of them when the best row is the alphas alone (row k
      of the ranking has `num_alphas + k` parameters). */
  function CalcHardThresholdFunCorrected(best: RankRow, numAlphas: nat): (r: Thresholding)
    ensures r.Hard? || r.HardAll?
    ensures r.betasNum == best.k
    ensures best.k != numAlphas ==> r == CalcHardThresholdFun(best)
  {
    if best.k == numAlphas then HardAll(best.k) else Hard(best.k, best.th)
  }

  /** With the corrected closure, row a of the ranking keeps an eligible
      beta exactly when a > 0 and its key reaches the row's key, so the
      alphas-only row keeps none; an ineligible beta always survives. */
  lemma CorrectedKeepsRanked(rows: seq<RankRow>, numAlphas: nat, accepted: seq<MdlBeta>,
                             nll: seq<MdlBeta> -> real, penalty: int -> real, a: nat,
                             c: LogCoef, b: MdlBeta, sqrt: real -> real)
    requires Ranking(rows, numAlphas, accepted, nll, penalty) && a < |rows|
    requires IsSqrt(sqrt) && BetaOf(c, b, sqrt) && c.coeff != 0.0
    ensures var t := CalcHardThresholdFunCorrected(rows[a], numAlphas);
      b.gt ==> (ThFun(t, true, sqrt, c.j, c.num, c.coeff) == c.coeff <==> a > 0 && b.vTh >= rows[a].th)
    ensures var t := CalcHardThresholdFunCorrected(rows[a], numAlphas);
      !b.gt ==> ThFun(t, true, sqrt, c.j, c.num, c.coeff) == c.coeff
  {
    assert RowOf(rows[a], a, numAlphas, accepted, nll, penalty);
    if a > 0 {
      HardThKeepsRanked(c, b, rows[a], sqrt);
    }
  }

  /** `mdlfit` once the coefficients are in: rank, set the hard threshold
      from the best row (the corrected closure, which keeps no beta when
      the alphas alone score best), and compute the normaliser of the
      thresholded density. */
  method MdlFit(alphas: seq<LogCoef>, details: seq<LogCoef>, nll: seq<MdlBeta> -> real,
                penalty: int -> real, sqrt: real -> real) returns (r: Result<(Thresholding, real)>)
    ensures IsSqrt(sqrt) ==> r.Ok?
    ensures r.Ok? ==> r.value.0.Hard? || r.value.0.HardAll?
    ensures r.Ok? ==> MdlBetas(details, sqrt).Ok?
    ensures r.Ok? ==> exists best :: BestRow(best, |IfPos(Coeffs(alphas))|,
                                             Keep(SortMdl(MdlBetas(details, sqrt).value), Eligible), nll, penalty)
                                     && r.value.0 == CalcHardThresholdFunCorrected(best, |IfPos(Coeffs(alphas))|)
    ensures r.Ok? ==> r.value.1 == LogNormConst(alphas, details, r.value.0, sqrt)
    ensures r.Ok? ==> 0.0 <= r.value.1 <= LogNormConst(alphas, details, Unset, sqrt)
  {
    var m :- CalcPdfMdl(alphas, details, nll, penalty, sqrt);
    var t := CalcHardThresholdFunCorrected(m.best, |IfPos(Coeffs(alphas))|);
    LogNormConstBounds(alphas, details, t, sqrt);
    return Ok((t, LogNormConst(alphas, details, t, sqrt)));
  }
}

=== FILE: multi.dfy ===
/** The multi-level threshold search (`StateJ`, `StateWDE`,
    `multi_threshold`): one cut position per level, started from the single
    threshold and moved on a grid while the loss strictly improves. */
module MultiThreshold {
  import opened Results
  import opened Lists
  import opened Sorting
  import opened Criteria
  import opened Thresholds
  import WParams
  import Terms

  /** Values of `threshold_c`: ±infinity or a finite threshold. */
  datatype Bound = NegInf | PosInf | At(c: real)

  /** `threshold_c` after the level loop has handled level j. The variable
      is overwritten in the loop, so the level of the single threshold sees
      the value the previous level left: the single threshold itself only
      when that level is 0. */
  function BoundAt(j: nat, thJ: int, c: real): (r: Bound)
    ensures j < thJ ==> r == NegInf
    ensures j > thJ ==> r == PosInf
    ensures j == thJ && j == 0 ==> r == At(c)
    ensures j == thJ && j > 0 ==> r == NegInf
  {
    var prev := if j == 0 then At(c) else BoundAt(j - 1, thJ, c);
    if j < thJ then NegInf
    else if j == thJ then prev
    else PosInf
  }

  /** `value >= threshold_c`. */
  predicate Passes(v: real, b: Bound) {
    match b
    case NegInf => true
    case PosInf => false
    case At(c) => v >= c
  }

  /** The candidates of level j, in the order of the level-sorted list. */
  function OfLevel(s: seq<Candidate>, j: nat): (r: seq<Candidate>)
    ensures |r| <= |s|
    decreases |s|
  {
    if |s| == 0 then []
    else
      var rest := OfLevel(s[..|s| - 1], j);
      if LevelOf(s[|s| - 1]) == j then rest + [s[|s| - 1]] else rest
  }

  lemma {:induction false} OfLevelMembers(s: seq<Candidate>, j: nat)
    ensures forall x :: x in OfLevel(s, j) <==> x in s && LevelOf(x) == j
    decreases |s|
  {
    if |s| > 0 {
      OfLevelMembers(s[..|s| - 1], j);
      assert forall x :: x in s <==> x in s[..|s| - 1] || x == s[|s| - 1] by {
        assert s == s[..|s| - 1] + [s[|s| - 1]];
      }
    }
  }

  /** The sort key `-threshold`. */
  predicate KeyDescLe(a: Candidate, b: Candidate) {
    -a.th <= -b.th
  }

  /** `sorted(filter(level j), key=lambda values: -values[1])`. */
  function LevelContribs(s: seq<Candidate>, j: nat): (r: seq<Candidate>)
    ensures forall a, b :: 0 <= a < b < |r| ==> r[a].th >= r[b].th
  {
    var f := OfLevel(s, j);
    StableSortSorted(f, KeyDescLe);
    StableSort(f, KeyDescLe)
  }

  /** Level j's candidates are exactly the candidates of level j. */
  lemma LevelContribsMembers(s: seq<Candidate>, j: nat)
    ensures forall x :: x in LevelContribs(s, j) <==> x in s && LevelOf(x) == j
  {
    var f := OfLevel(s, j);
    OfLevelMembers(s, j);
    var r := StableSort(f, KeyDescLe);
    assert forall x :: x in r <==> x in multiset(f);
  }

  /** One level's state: its candidates, the running affinity and norm
      sums (`np.cumsum`) and the current cut position `curr_k`. */
  datatype Level = Level(j: nat, contribs: seq<Candidate>, battaSums: seq<real>, normSums: seq<real>, currK: int)

  predicate LevelOk(l: Level) {
    && |l.contribs| > 0
    && |l.battaSums| == |l.contribs|
    && |l.normSums| == |l.contribs|
    && -1 <= l.currK < |l.contribs|
  }

  function Contribs(cs: seq<Candidate>): (r: seq<real>)
    ensures |r| == |cs|
    ensures forall t :: 0 <= t < |cs| ==> r[t] == ContribOf(cs[t])
  {
    seq(|cs|, t requires 0 <= t < |cs| => ContribOf(cs[t]))
  }

  function Coeff2s(cs: seq<Candidate>): (r: seq<real>)
    ensures |r| == |cs|
    ensures forall t :: 0 <= t < |cs| ==> r[t] == Coeff2Of(cs[t])
  {
    seq(|cs|, t requires 0 <= t < |cs| => Coeff2Of(cs[t]))
  }

  /** `np.argmin(values >= threshold_c) - 1`: one before the first value
      below the bound. When every value passes, or none does, numpy's
      argmin is 0 and the position is -1. */
  function StartK(cs: seq<Candidate>, b: Bound): (r: int)
    requires |cs| > 0
    ensures -1 <= r < |cs| - 1
    ensures (forall t :: 0 <= t < |cs| ==> Passes(cs[t].th, b)) ==> r == -1
    ensures (forall t :: 0 <= t < |cs| ==> !Passes(cs[t].th, b)) ==> r == -1
    ensures (exists t :: 0 <= t < |cs| && !Passes(cs[t].th, b)) ==>
              !Passes(cs[r + 1].th, b) && forall t :: 0 <= t <= r ==> Passes(cs[t].th, b)
  {
    var passes := seq(|cs|, t requires 0 <= t < |cs| => Passes(cs[t].th, b));
    assert forall t :: 0 <= t < |cs| ==> passes[t] == Passes(cs[t].th, b);
    ArgMinBool(passes) - 1
  }

  /** With the key sorted descending and a finite bound, the start is the
      last candidate whose key reaches the bound, unless all of them do. */
  lemma StartKIsLastPassing(cs: seq<Candidate>, c: real, k: nat)
    requires forall a, b :: 0 <= a < b < |cs| ==> cs[a].th >= cs[b].th
    requires k + 1 < |cs| && cs[k].th >= c && cs[k + 1].th < c
    ensures StartK(cs, At(c)) == k
  {
    var r := StartK(cs, At(c));
    assert !Passes(cs[k + 1].th, At(c));
    assert r < k + 1;
    assert cs[r + 1].th < c && cs[k].th >= c;
  }

  /** `StateJ(j, contribs, threshold_c)`: numpy's argmin raises ValueError
      on a level without candidates. */
  function StateJ(j: nat, cs: seq<Candidate>, b: Bound): (r: Result<Level>)
    ensures r.Err? <==> |cs| == 0
    ensures r.Ok? ==> LevelOk(r.value) && r.value.j == j && r.value.contribs == cs
    ensures r.Ok? ==> r.value.currK == StartK(cs, b)
  {
    if |cs| == 0 then Err(ValueError(EmptyArgmin))
    else Ok(Level(j, cs, CumSum(Contribs(cs)), CumSum(Coeff2s(cs)), StartK(cs, b)))
  }

  /** A level's running sums: entry k totals the first k+1 candidates'
      contributions and squared weights. */
  lemma StateJSums(j: nat, cs: seq<Candidate>, b: Bound)
    requires |cs| > 0
    ensures forall k :: 0 <= k < |cs| ==>
              && StateJ(j, cs, b).value.battaSums[k] == Sum(Contribs(cs)[..k + 1])
              && StateJ(j, cs, b).value.normSums[k] == Sum(Coeff2s(cs)[..k + 1])
  {
  }

  predicate LevelsOk(levels: seq<Level>) {
    forall i :: 0 <= i < |levels| ==> LevelOk(levels[i])
  }

  /** Level j holds level j's candidates, cut where its bound says. */
  predicate BuiltFrom(sorted: seq<Candidate>, thJ: int, c: real, levels: seq<Level>) {
    forall j :: 0 <= j < |levels| ==>
      && levels[j].j == j
      && levels[j].contribs == LevelContribs(sorted, j)
      && |levels[j].contribs| > 0
      && levels[j].currK == StartK(LevelContribs(sorted, j), BoundAt(j, thJ, c))
  }

  /** `np.argmin` of an empty array. */
  const EmptyArgmin := "attempt to get argmin of an empty sequence"

  /** The level-sorted candidate lists of levels 0..d-1. */
  function Groups(sorted: seq<Candidate>, d: nat): (r: seq<seq<Candidate>>)
    ensures |r| == d
    ensures forall j :: 0 <= j < d ==> r[j] == LevelContribs(sorted, j)
  {
    seq(d, j requires 0 <= j < d => LevelContribs(sorted, j))
  }

  /** The level loop of `multi_threshold` over the candidate lists `gs`:
      one `StateJ` per level in turn; the first empty level raises. */
  function Build(gs: seq<seq<Candidate>>, thJ: int, c: real): (r: Result<seq<Level>>)
    ensures r.Ok? ==> |r.value| == |gs| && LevelsOk(r.value)
    decreases |gs|
  {
    if |gs| == 0 then Ok([])
    else
      var d := |gs| - 1;
      var prev := Build(gs[..d], thJ, c);
      if prev.Err? then prev
      else
        var l :- StateJ(d, gs[d], BoundAt(d, thJ, c));
        assert forall t :: 0 <= t < d ==> (prev.value + [l])[t] == prev.value[t];
        Ok(prev.value + [l])
  }

  /** Level j of a successful build holds list j, cut where its bound says. */
  predicate BuiltFromGroups(gs: seq<seq<Candidate>>, thJ: int, c: real, levels: seq<Level>)
    requires |levels| == |gs|
  {
    forall j :: 0 <= j < |gs| ==>
      && levels[j].j == j
      && levels[j].contribs == gs[j]
      && |gs[j]| > 0
      && levels[j].currK == StartK(gs[j], BoundAt(j, thJ, c))
  }

  /** Building fails exactly when some list is empty. */
  lemma {:induction false} BuildOk(gs: seq<seq<Candidate>>, thJ: int, c: real)
    ensures Build(gs, thJ, c).Ok? <==> forall j :: 0 <= j < |gs| ==> |gs[j]| > 0
    decreases |gs|
  {
    if |gs| > 0 {
      var d := |gs| - 1;
      BuildOk(gs[..d], thJ, c);
      assert forall j :: 0 <= j < d ==> gs[..d][j] == gs[j];
    }
  }

  /** Each built level holds its own list and start cut. */
  lemma {:induction false} BuildSpec(gs: seq<seq<Candidate>>, thJ: int, c: real)
    requires Build(gs, thJ, c).Ok?
    ensures BuiltFromGroups(gs, thJ, c, Build(gs, thJ, c).value)
    decreases |gs|
  {
    var d := |gs| - 1;
    if d >= 0 {
      BuildSpec(gs[..d], thJ, c);
      var prev := Build(gs[..d], thJ, c).value;
      var l := StateJ(d, gs[d], BoundAt(d, thJ, c)).value;
      var levels := Build(gs, thJ, c).value;
      assert levels == prev + [l];
      forall j | 0 <= j < |gs|
        ensures levels[j].j == j && levels[j].contribs == gs[j] && |gs[j]| > 0
        ensures levels[j].currK == StartK(gs[j], BoundAt(j, thJ, c))
      {
        if j < d {
          assert levels[j] == prev[j] && gs[..d][j] == gs[j];
        }
      }
    }
  }

  /** A single list builds its one level. */
  lemma BuildOne(g: seq<Candidate>, thJ: int, c: real)
    requires |g| > 0
    ensures Build([g], thJ, c) == Ok([StateJ(0, g, BoundAt(0, thJ, c)).value])
  {
    assert [g][..0] == [];
    assert Build([], thJ, c) == Ok([]);
    var l := StateJ(0, g, BoundAt(0, thJ, c)).value;
    assert [] + [l] == [l];
  }

  /** The levels 0..d-1 as `multi_threshold` builds them. */
  function BuildLevels(sorted: seq<Candidate>, d: nat, thJ: int, c: real): (r: Result<seq<Level>>)
    ensures r.Ok? ==> |r.value| == d && LevelsOk(r.value)
  {
    Build(Groups(sorted, d), thJ, c)
  }

  /** Building fails, with numpy's ValueError, exactly when some level
      0..d-1 has no candidates. */
  lemma BuildLevelsOk(sorted: seq<Candidate>, d: nat, thJ: int, c: real)
    ensures BuildLevels(sorted, d, thJ, c).Ok? <==> forall j :: 0 <= j < d ==> |LevelContribs(sorted, j)| > 0
  {
    BuildOk(Groups(sorted, d), thJ, c);
  }

  /** Level j of the built levels holds level j's candidates, cut where its
      bound says. */
  lemma BuildLevelsSpec(sorted: seq<Candidate>, d: nat, thJ: int, c: real)
    requires BuildLevels(sorted, d, thJ, c).Ok?
    ensures BuiltFrom(sorted, thJ, c, BuildLevels(sorted, d, thJ, c).value)
  {
    var gs := Groups(sorted, d);
    BuildSpec(gs, thJ, c);
    BuildOk(gs, thJ, c);
  }

  /** A cut position per level, each in [-1, len). */
  predicate PositionsOk(levels: seq<Level>, pos: seq<int>) {
    |pos| == |levels| && forall i :: 0 <= i < |pos| ==> -1 <= pos[i] < |levels[i].contribs|
  }

  /** `StateJ.batta_sum()` and `norm_sum()`: a position outside the level
      contributes nothing. */
  function BattaAt(l: Level, k: int): real
    requires LevelOk(l)
  {
    if 0 <= k < |l.contribs| then l.battaSums[k] else 0.0
  }

  function NormAt(l: Level, k: int): real
    requires LevelOk(l)
  {
    if 0 <= k < |l.contribs| then l.normSums[k] else 0.0
  }

  function BattaTotal(levels: seq<Level>, pos: seq<int>): real
    requires LevelsOk(levels) && |pos| == |levels|
    decreases |levels|
  {
    if |levels| == 0 then 0.0
    else BattaTotal(levels[..|levels| - 1], pos[..|pos| - 1]) + BattaAt(levels[|levels| - 1], pos[|pos| - 1])
  }

  function NormTotal(levels: seq<Level>, pos: seq<int>): real
    requires LevelsOk(levels) && |pos| == |levels|
    decreases |levels|
  {
    if |levels| == 0 then 0.0
    else NormTotal(levels[..|levels| - 1], pos[..|pos| - 1]) + NormAt(levels[|levels| - 1], pos[|pos| - 1])
  }

  /** The alpha sums and the loss shared by every evaluation. */
  datatype Ctx = Ctx(alphaNorm: real, alphaContrib: real, loss: Loss, sqrt: real -> real)

  /** `StateWDE.eval_target()` with the levels at positions `pos`. */
  function EvalTarget(levels: seq<Level>, pos: seq<int>, ctx: Ctx): (r: Result<real>)
    requires LevelsOk(levels) && |pos| == |levels|
    ensures ctx.loss.Original? || ctx.loss.Improved? ==> r.Ok?
  {
    StateLoss(ctx.loss, ctx.alphaContrib + BattaTotal(levels, pos), ctx.alphaNorm + NormTotal(levels, pos), ctx.sqrt)
  }

  /** The grid steps, evaluated at ±2. */
  predicate Step(x: int) {
    x == -2 || x == 0 || x == 2
  }

  function Prepend(x: int, ms: seq<seq<int>>): (r: seq<seq<int>>)
    ensures |r| == |ms|
    ensures forall i :: 0 <= i < |ms| ==> r[i] == [x] + ms[i]
  {
    seq(|ms|, i requires 0 <= i < |ms| => [x] + ms[i])
  }

  /** A combination of grid steps, one per level. */
  predicate IsMove(m: seq<int>, d: nat) {
    |m| == d && forall t :: 0 <= t < d ==> Step(m[t])
  }

  /** `itertools.product([-ddx, 0, ddx], repeat=d)`, in its order: the first
      level's step varies slowest. */
  function Moves(d: nat): (r: seq<seq<int>>)
    ensures forall i :: 0 <= i < |r| ==> IsMove(r[i], d)
  {
    if d == 0 then [[]]
    else
      var ms := Moves(d - 1);
      var a, b, c := Prepend(-2, ms), Prepend(0, ms), Prepend(2, ms);
      PrependMoves(-2, ms, d);
      PrependMoves(0, ms, d);
      PrependMoves(2, ms, d);
      AppendMoves(a, b, d);
      AppendMoves(a + b, c, d);
      a + b + c
  }

  lemma PrependMoves(x: int, ms: seq<seq<int>>, d: nat)
    requires d > 0 && Step(x)
    requires forall i :: 0 <= i < |ms| ==> IsMove(ms[i], d - 1)
    ensures forall i :: 0 <= i < |ms| ==> IsMove(Prepend(x, ms)[i], d)
  {
    forall i | 0 <= i < |ms|
      ensures IsMove(Prepend(x, ms)[i], d)
    {
      var m := Prepend(x, ms)[i];
      assert m == [x] + ms[i];
      assert forall t :: 1 <= t < d ==> m[t] == ms[i][t - 1];
    }
  }

  lemma AppendMoves(a: seq<seq<int>>, b: seq<seq<int>>, d: nat)
    requires forall i :: 0 <= i < |a| ==> IsMove(a[i], d)
    requires forall i :: 0 <= i < |b| ==> IsMove(b[i], d)
    ensures forall i :: 0 <= i < |a + b| ==> IsMove((a + b)[i], d)
  {
    forall i | 0 <= i < |a + b|
      ensures IsMove((a + b)[i], d)
    {
      if i >= |a| {
        assert (a + b)[i] == b[i - |a|];
      }
    }
  }

  lemma MovesShape(d: nat)
    requires d > 0
    ensures Moves(d) == Prepend(-2, Moves(d - 1)) + Prepend(0, Moves(d - 1)) + Prepend(2, Moves(d - 1))
  { }

  /** Every combination of steps is among the moves. */
  lemma {:induction false} MovesComplete(d: nat, m: seq<int>)
    requires IsMove(m, d)
    ensures m in Moves(d)
  {
    if d > 0 {
      var tail := m[1..];
      MovesComplete(d - 1, tail);
      var i :| 0 <= i < |Moves(d - 1)| && Moves(d - 1)[i] == tail;
      assert m == [m[0]] + tail;
      MovesHas(d, i, m[0]);
    }
  }

  /** Any step put in front of a shorter move gives a move. */
  lemma MovesHas(d: nat, i: nat, x: int)
    requires d > 0 && i < |Moves(d - 1)| && Step(x)
    ensures [x] + Moves(d - 1)[i] in Moves(d)
  {
    var ms := Moves(d - 1);
    MovesShape(d);
    var a, b, c := Prepend(-2, ms), Prepend(0, ms), Prepend(2, ms);
    if x == -2 {
      assert (a + b + c)[i] == a[i];
    } else if x == 0 {
      assert (a + b + c)[|a| + i] == b[i];
    } else {
      assert (a + b + c)[|a| + |b| + i] == c[i];
    }
  }

  predicate AllZero(m: seq<int>) {
    forall t :: 0 <= t < |m| ==> m[t] == 0
  }

  /** `dk_ok()` on every level. */
  predicate Valid(levels: seq<Level>, pos: seq<int>, m: seq<int>)
    requires |pos| == |levels| && |m| == |levels|
  {
    forall i :: 0 <= i < |levels| ==> 0 <= pos[i] + m[i] < |levels[i].contribs|
  }

  function Shift(pos: seq<int>, m: seq<int>): (r: seq<int>)
    requires |m| == |pos|
    ensures |r| == |pos|
    ensures forall i :: 0 <= i < |pos| ==> r[i] == pos[i] + m[i]
  {
    seq(|pos|, i requires 0 <= i < |pos| => pos[i] + m[i])
  }

  /** One pass of the grid loop: every non-zero move that keeps all levels
      in range is evaluated, in order, and kept when strictly better than
      the best value so far. The result is the best move found (or the one
      passed in) and its value. */
  function Round(levels: seq<Level>, pos: seq<int>, moves: seq<seq<int>>, cv: real,
                 best: Option<seq<int>>, ctx: Ctx): (r: Result<(Option<seq<int>>, real)>)
    requires LevelsOk(levels) && |pos| == |levels|
    requires forall m :: m in moves ==> |m| == |levels|
    ensures r.Ok? ==> r.value.1 <= cv
    ensures r.Ok? && r.value.1 == cv ==> r.value.0 == best
    ensures r.Ok? && r.value.1 < cv ==>
              && r.value.0.Some?
              && r.value.0.value in moves
              && !AllZero(r.value.0.value)
              && Valid(levels, pos, r.value.0.value)
              && EvalTarget(levels, Shift(pos, r.value.0.value), ctx) == Ok(r.value.1)
    ensures r.Ok? ==> forall m :: m in moves && !AllZero(m) && Valid(levels, pos, m) ==>
              EvalTarget(levels, Shift(pos, m), ctx).Ok? && r.value.1 <= EvalTarget(levels, Shift(pos, m), ctx).value
    ensures ctx.loss.Original? || ctx.loss.Improved? ==> r.Ok?
    decreases |moves|
  {
    if |moves| == 0 then Ok((best, cv))
    else
      var m := moves[0];
      assert forall x :: x in moves <==> x == m || x in moves[1..] by {
        assert moves == [m] + moves[1..];
      }
      if AllZero(m) || !Valid(levels, pos, m) then Round(levels, pos, moves[1..], cv, best, ctx)
      else
        var v :- EvalTarget(levels, Shift(pos, m), ctx);
        if v < cv then Round(levels, pos, moves[1..], v, Some(m), ctx)
        else Round(levels, pos, moves[1..], cv, best, ctx)
  }

  /** The cut positions of the levels as built. */
  function StartPositions(levels: seq<Level>): (r: seq<int>)
    requires LevelsOk(levels)
    ensures PositionsOk(levels, r)
    ensures forall i :: 0 <= i < |levels| ==> r[i] == levels[i].currK
  {
    seq(|levels|, i requires 0 <= i < |levels| => levels[i].currK)
  }

  /** Every position of the grid: each level's cut inside its candidates. */
  function Box(lens: seq<nat>): set<seq<int>>
    decreases |lens|
  {
    if |lens| == 0 then {[]}
    else
      var inner := Box(lens[1..]);
      set x: int, p | 0 <= x < lens[0] && p in inner :: [x] + p
  }

  lemma {:induction false} BoxMember(lens: seq<nat>, p: seq<int>)
    requires |p| == |lens| && forall i :: 0 <= i < |p| ==> 0 <= p[i] < lens[i]
    ensures p in Box(lens)
    decreases |lens|
  {
    if |lens| > 0 {
      BoxMember(lens[1..], p[1..]);
      assert p == [p[0]] + p[1..];
    }
  }

  function Lens(levels: seq<Level>): (r: seq<nat>)
    ensures |r| == |levels|
    ensures forall i :: 0 <= i < |levels| ==> r[i] == |levels[i].contribs|
  {
    seq(|levels|, i requires 0 <= i < |levels| => |levels[i].contribs|)
  }

  /** The grid positions whose loss beats `cv`. */
  function Better(levels: seq<Level>, cv: real, ctx: Ctx): set<seq<int>>
    requires LevelsOk(levels)
  {
    set q | q in Box(Lens(levels)) && |q| == |levels| && EvalTarget(levels, q, ctx).Ok? && EvalTarget(levels, q, ctx).value < cv
  }

  /** Reaching a strictly better position strictly shrinks the set of
      positions better than the current value: the search terminates. */
  lemma BetterShrinks(levels: seq<Level>, q: seq<int>, cv: real, cv2: real, ctx: Ctx)
    requires LevelsOk(levels) && |q| == |levels|
    requires forall i :: 0 <= i < |q| ==> 0 <= q[i] < |levels[i].contribs|
    requires EvalTarget(levels, q, ctx) == Ok(cv2) && cv2 < cv
    ensures |Better(levels, cv2, ctx)| < |Better(levels, cv, ctx)|
  {
    BoxMember(Lens(levels), q);
    var a, b := Better(levels, cv2, ctx), Better(levels, cv, ctx);
    assert a <= b;
    assert q in b - a;
    assert b == a + (b - a);
    assert a * (b - a) == {};
    assert |b - a| >= 1;
  }

  /** `as_result(target_val)`: the threshold is read with Python indexing,
      so a level still at -1 reports its last candidate's key. */
  function LevelResult(l: Level, k: int, target: real): (r: Threshold)
    requires LevelOk(l) && -1 <= k < |l.contribs|
    ensures r.posK == k && r.targetVal == target && r.sorted == l.contribs && r.thJ == l.j && r.msg == Multi
    ensures r.values == []
    ensures PyIndex(l.contribs, k) == Ok(l.contribs[if k == -1 then |l.contribs| - 1 else k])
    ensures r.threshold == PyIndex(l.contribs, k).value.th
  {
    Threshold(PyIndex(l.contribs, k).value.th, k, target, [], l.contribs, l.j, Multi)
  }

  /** The loss of the start position, before any move. */
  function InitialTarget(sorted: seq<Candidate>, d: nat, thJ: int, c: real, ctx: Ctx): Result<real> {
    var levels :- BuildLevels(sorted, d, thJ, c);
    EvalTarget(levels, StartPositions(levels), ctx)
  }

  /** No combination of grid steps from the cuts `pos` beats `cv`. */
  ghost predicate Stuck(levels: seq<Level>, pos: seq<int>, cv: real, ctx: Ctx)
    requires LevelsOk(levels) && |pos| == |levels|
  {
    forall m :: IsMove(m, |levels|) && !AllZero(m) && Valid(levels, pos, m) ==>
      EvalTarget(levels, Shift(pos, m), ctx).Ok? && cv <= EvalTarget(levels, Shift(pos, m), ctx).value
  }

  /** A round over the enumerated moves that finds nothing better leaves the
      search stuck against every combination of steps. */
  lemma StuckFromMoves(levels: seq<Level>, pos: seq<int>, cv: real, ctx: Ctx)
    requires LevelsOk(levels) && |pos| == |levels|
    requires forall m :: m in Moves(|levels|) && !AllZero(m) && Valid(levels, pos, m) ==>
               EvalTarget(levels, Shift(pos, m), ctx).Ok? && cv <= EvalTarget(levels, Shift(pos, m), ctx).value
    ensures Stuck(levels, pos, cv, ctx)
  {
    forall m | IsMove(m, |levels|) && !AllZero(m) && Valid(levels, pos, m)
      ensures EvalTarget(levels, Shift(pos, m), ctx).Ok? && cv <= EvalTarget(levels, Shift(pos, m), ctx).value
    {
      MovesComplete(|levels|, m);
    }
  }

  /** The `while ok` loop of `multi_threshold` from the cuts `pos0` with
      value `cv0`, moving to each accepted move's evaluated cuts. The value
      kept is always the loss at the current cuts. */
  method Descend(levels: seq<Level>, pos0: seq<int>, cv0: real, ctx: Ctx) returns (r: Result<(seq<int>, real)>)
    requires LevelsOk(levels) && PositionsOk(levels, pos0)
    requires EvalTarget(levels, pos0, ctx) == Ok(cv0)
    ensures r.Ok? ==> PositionsOk(levels, r.value.0) && r.value.1 <= cv0
    ensures r.Ok? ==> EvalTarget(levels, r.value.0, ctx) == Ok(r.value.1)
    ensures r.Ok? ==> Stuck(levels, r.value.0, r.value.1, ctx)
    ensures ctx.loss.Original? || ctx.loss.Improved? ==> r.Ok?
  {
    var pos, cv := pos0, cv0;
    var moves := Moves(|levels|);
    var ok := true;
    while ok
      invariant PositionsOk(levels, pos)
      invariant EvalTarget(levels, pos, ctx) == Ok(cv)
      invariant cv <= cv0
      invariant !ok ==> Stuck(levels, pos, cv, ctx)
      decreases ok, |Better(levels, cv, ctx)|
    {
      var res :- Round(levels, pos, moves, cv, None, ctx);
      if res.0.Some? {
        var q := Shift(pos, res.0.value);
        BetterShrinks(levels, q, cv, res.1, ctx);
        pos := q;
        cv := res.1;
      } else {
        StuckFromMoves(levels, pos, cv, ctx);
        ok := false;
      }
    }
    return Ok((pos, cv));
  }

  /** The per-level results at cuts `pos`. */
  function LevelResults(levels: seq<Level>, pos: seq<int>, cv: real): (r: seq<Threshold>)
    requires LevelsOk(levels) && PositionsOk(levels, pos)
    ensures |r| == |levels|
    ensures forall j :: 0 <= j < |levels| ==> r[j] == LevelResult(levels[j], pos[j], cv)
  {
    seq(|levels|, j requires 0 <= j < |levels| => LevelResult(levels[j], pos[j], cv))
  }

  function Cuts(rs: seq<Threshold>): (r: seq<int>)
    ensures |r| == |rs|
    ensures forall j :: 0 <= j < |rs| ==> r[j] == rs[j].posK
  {
    seq(|rs|, j requires 0 <= j < |rs| => rs[j].posK)
  }

  /** `rs` is what `multi_threshold` reports from `sorted`: one threshold
      per level, each holding that level's own sorted candidates and a cut
      in [-1, len), with one common target no worse than the start, equal
      to the loss at the reported cuts, and beaten by no grid move. */
  ghost predicate Searched(rs: seq<Threshold>, sorted: seq<Candidate>, d: nat, thJ: int, c: real, ctx: Ctx) {
    && InitialTarget(sorted, d, thJ, c, ctx).Ok?
    && |rs| == d
    && (forall j :: 0 <= j < d ==>
          && rs[j].msg == Multi
          && rs[j].thJ == j
          && rs[j].sorted == LevelContribs(sorted, j)
          && -1 <= rs[j].posK < |LevelContribs(sorted, j)|
          && rs[j].targetVal <= InitialTarget(sorted, d, thJ, c, ctx).value
          && rs[j].targetVal == rs[0].targetVal)
    && (d > 0 ==>
          && BuildLevels(sorted, d, thJ, c).Ok?
          && EvalTarget(BuildLevels(sorted, d, thJ, c).value, Cuts(rs), ctx) == Ok(rs[0].targetVal)
          && Stuck(BuildLevels(sorted, d, thJ, c).value, Cuts(rs), rs[0].targetVal, ctx))
  }

  /** `multi_threshold`, moving to the cuts each accepted move was
      evaluated at. The loss never increases, every level's cut stays in
      [-1, len), the reported value is the loss at the reported cuts, and
      when the search stops no grid move from the final cuts beats it. */
  method Search(sorted: seq<Candidate>, d: nat, thJ: int, c: real, ctx: Ctx) returns (r: Result<seq<Threshold>>)
    ensures BuildLevels(sorted, d, thJ, c).Err? ==> r.Err?
    ensures ctx.loss.Original? || ctx.loss.Improved? ==> (r.Ok? <==> BuildLevels(sorted, d, thJ, c).Ok?)
    ensures r.Ok? ==> InitialTarget(sorted, d, thJ, c, ctx).Ok?
    ensures r.Ok? ==> |r.value| == d
    ensures r.Ok? ==> forall j :: 0 <= j < d ==>
              && r.value[j].msg == Multi
              && r.value[j].thJ == j
              && r.value[j].sorted == LevelContribs(sorted, j)
              && -1 <= r.value[j].posK < |LevelContribs(sorted, j)|
              && r.value[j].targetVal <= InitialTarget(sorted, d, thJ, c, ctx).value
              && r.value[j].targetVal == r.value[0].targetVal
    ensures r.Ok? && d > 0 ==> EvalTarget(BuildLevels(sorted, d, thJ, c).value, Cuts(r.value), ctx) == Ok(r.value[0].targetVal)
    ensures r.Ok? && d > 0 ==> Stuck(BuildLevels(sorted, d, thJ, c).value, Cuts(r.value), r.value[0].targetVal, ctx)
  {
    var levels :- BuildLevels(sorted, d, thJ, c);
    BuildLevelsSpec(sorted, d, thJ, c);
    var pos := StartPositions(levels);
    var cv :- EvalTarget(levels, pos, ctx);
    assert InitialTarget(sorted, d, thJ, c, ctx) == Ok(cv);
    var fin :- Descend(levels, pos, cv, ctx);
    var results := LevelResults(levels, fin.0, fin.1);
    ResultsFacts(sorted, thJ, c, levels, fin.0, fin.1);
    return Ok(results);
  }

  /** The per-level results of built levels report each level's own
      candidates, its cut and the common value. */
  lemma ResultsFacts(sorted: seq<Candidate>, thJ: int, c: real, levels: seq<Level>, pos: seq<int>, cv: real)
    requires LevelsOk(levels) && PositionsOk(levels, pos) && BuiltFrom(sorted, thJ, c, levels)
    ensures Cuts(LevelResults(levels, pos, cv)) == pos
    ensures forall j :: 0 <= j < |levels| ==>
              && LevelResults(levels, pos, cv)[j].thJ == j
              && LevelResults(levels, pos, cv)[j].sorted == LevelContribs(sorted, j)
              && -1 <= LevelResults(levels, pos, cv)[j].posK < |LevelContribs(sorted, j)|
              && LevelResults(levels, pos, cv)[j].msg == Multi
              && LevelResults(levels, pos, cv)[j].targetVal == cv
  {
    var results := LevelResults(levels, pos, cv);
    assert Cuts(results) == pos;
    forall j | 0 <= j < |levels|
      ensures results[j].thJ == j && results[j].sorted == LevelContribs(sorted, j)
      ensures -1 <= results[j].posK < |LevelContribs(sorted, j)|
      ensures results[j].msg == Multi && results[j].targetVal == cv
    {
      assert results[j] == LevelResult(levels[j], pos[j], cv);
    }
  }

  /** The first pass of the grid loop from the start cuts. */
  function FirstRound(levels: seq<Level>, ctx: Ctx): (r: Result<(Option<seq<int>>, real)>)
    requires LevelsOk(levels)
    ensures r.Ok? ==> EvalTarget(levels, StartPositions(levels), ctx).Ok?
    ensures r.Ok? && r.value.0.None? ==> r.value.1 == EvalTarget(levels, StartPositions(levels), ctx).value
  {
    var pos := StartPositions(levels);
    var cv :- EvalTarget(levels, pos, ctx);
    Round(levels, pos, Moves(|levels|), cv, None, ctx)
  }

  /** As written, `best_dk_js[j] / ddx` is true division, so an improving
      round turns every `curr_k` into a float, and the `curr_cs()` of the
      trace entry recorded in the same round indexes each level's candidate
      list with it (TypeError). The search therefore returns only when the
      first round finds nothing. */
  function SearchAsWritten(sorted: seq<Candidate>, d: nat, thJ: int, c: real, ctx: Ctx): (r: Result<seq<Threshold>>)
    ensures r.Ok? ==> InitialTarget(sorted, d, thJ, c, ctx).Ok?
    ensures r.Ok? ==> forall j :: 0 <= j < |r.value| ==> r.value[j].targetVal == InitialTarget(sorted, d, thJ, c, ctx).value
  {
    var levels :- BuildLevels(sorted, d, thJ, c);
    var res :- FirstRound(levels, ctx);
    if res.0.None? then Ok(LevelResults(levels, StartPositions(levels), res.1))
    else Err(TypeError)
  }

  /** Whenever the first round improves on the start, the search as
      written raises TypeError, while the corrected `Search` goes on (for
      the Original and Improved losses it never raises once the levels are
      built). */
  lemma AsWrittenFailsAfterImprovement(sorted: seq<Candidate>, d: nat, thJ: int, c: real, ctx: Ctx)
    requires BuildLevels(sorted, d, thJ, c).Ok?
    requires FirstRound(BuildLevels(sorted, d, thJ, c).value, ctx).Ok?
    requires FirstRound(BuildLevels(sorted, d, thJ, c).value, ctx).value.0.Some?
    ensures SearchAsWritten(sorted, d, thJ, c, ctx) == Err(TypeError)
  {
  }

  /** Three level-0 candidates with keys 3, 2 and 1, each adding 0.1 to
      the affinity. */
  function Example(): seq<Candidate> {
    var key := WParams.Key(0, [1], [0], [1.0]);
    var e := WParams.Entry(1.0, 1.0, 1);
    var t := Terms.Terms(0.1, 0.0, 0.0, 0.01);
    [Candidate(WParams.Coef(key, e), 3.0, t),
     Candidate(WParams.Coef(key, e), 2.0, t),
     Candidate(WParams.Coef(key, e), 1.0, t)]
  }

  lemma ExampleLevel()
    ensures LevelContribs(Example(), 0) == Example()
  {
    var ex := Example();
    assert ex[..2][..1] == [ex[0]];
    assert OfLevel(ex[..1], 0) == [ex[0]];
    assert OfLevel(ex[..2], 0) == ex[..2];
    assert OfLevel(ex, 0) == ex;
    assert Insert(ex[2], [], KeyDescLe) == [ex[2]];
    assert Insert(ex[1], [ex[2]], KeyDescLe) == ex[1..];
    assert Insert(ex[0], ex[1..], KeyDescLe) == ex;
    assert ex[1..][1..] == [ex[2]];
    assert StableSort(ex[2..], KeyDescLe) == [ex[2]];
    assert StableSort(ex[1..], KeyDescLe) == ex[1..];
  }

  /** The single level of the example, cut at 0. */
  function ExampleLevels(): seq<Level> {
    [Level(0, Example(), [0.1, 0.1 + 0.1, 0.1 + 0.1 + 0.1], [0.01, 0.01 + 0.01, 0.01 + 0.01 + 0.01], 0)]
  }

  lemma SumsOfThree(x: real)
    ensures CumSum([x, x, x]) == [x, x + x, x + x + x]
  {
    var s := [x, x, x];
    assert s[..1] == [x] && s[..2] == [x, x] && s[..3] == s;
    assert Sum([x]) == x by {
      assert [x][..0] == [];
    }
    assert Sum([x, x]) == x + x by {
      assert [x, x][..1] == [x];
    }
    assert Sum(s) == x + x + x by {
      assert s[..2] == [x, x];
    }
    var c := CumSum(s);
    assert c[0] == x && c[1] == x + x && c[2] == x + x + x;
  }

  lemma ExampleSums()
    ensures CumSum(Contribs(Example())) == [0.1, 0.1 + 0.1, 0.1 + 0.1 + 0.1]
    ensures CumSum(Coeff2s(Example())) == [0.01, 0.01 + 0.01, 0.01 + 0.01 + 0.01]
  {
    assert Contribs(Example()) == [0.1, 0.1, 0.1];
    assert Coeff2s(Example()) == [0.01, 0.01, 0.01];
    SumsOfThree(0.1);
    SumsOfThree(0.01);
  }

  lemma ExampleStateJ()
    ensures StateJ(0, LevelContribs(Example(), 0), BoundAt(0, 0, 2.5)) == Ok(ExampleLevels()[0])
  {
    ExampleLevel();
    ExampleStartK();
    ExampleSums();
  }

  lemma ExampleStartK()
    ensures StartK(Example(), BoundAt(0, 0, 2.5)) == 0
  {
    StartKIsLastPassing(Example(), 2.5, 0);
  }

  lemma ExampleBuild()
    ensures BuildLevels(Example(), 1, 0, 2.5) == Ok(ExampleLevels())
  {
    var gs := Groups(Example(), 1);
    assert gs == [LevelContribs(Example(), 0)];
    ExampleLevel();
    BuildOne(gs[0], 0, 2.5);
    ExampleStateJ();
  }

  lemma ExampleFirstRound(ctx: Ctx)
    requires ctx.loss.Original? && ctx.alphaContrib == 0.0
    ensures FirstRound(ExampleLevels(), ctx).Ok?
    ensures FirstRound(ExampleLevels(), ctx).value.0.Some?
  {
    var levels := ExampleLevels();
    var pos := StartPositions(levels);
    assert pos == [0];
    assert Moves(0) == [[]];
    assert [-2] + [] == [-2] && [0] + [] == [0] && [2] + [] == [2];
    assert Prepend(-2, [[]]) == [[-2]] && Prepend(0, [[]]) == [[0]] && Prepend(2, [[]]) == [[2]];
    assert Moves(1) == [[-2], [0], [2]];
    assert pos[..0] == [] && levels[..0] == [];
    assert EvalTarget(levels, pos, ctx) == Ok(1.0 - 0.1);
    assert Valid(levels, pos, [2]);
    var q := Shift(pos, [2]);
    assert q == [2];
    assert q[..0] == [];
    assert EvalTarget(levels, q, ctx) == Ok(1.0 - (0.1 + 0.1 + 0.1));
    assert [2] in Moves(1) && !AllZero([2]);
  }

  /** With one level, the single threshold 2.5 on it and the Original loss,
      the start cut is 0 (loss 0.9) and the move +2 reaches loss 0.7, so
      the search as written raises TypeError. */
  lemma AsWrittenCounterexample()
    ensures SearchAsWritten(Example(), 1, 0, 2.5, Ctx(0.0, 0.0, Original, x => x)) == Err(TypeError)
  {
    ExampleBuild();
    ExampleFirstRound(Ctx(0.0, 0.0, Original, x => x));
    AsWrittenFailsAfterImprovement(Example(), 1, 0, 2.5, Ctx(0.0, 0.0, Original, x => x));
  }
}

=== FILE: results.dfy ===
/** Failure-compatible wrappers for the Python exceptions raised by the
    modelled estimator code. */
module Results {

  /** The exception classes the modelled code can raise. */
  datatype Error =
    | ValueError(msg: string)
    | ZeroDivisionError
    | IndexError
    | KeyError
    | TypeError
    | AttributeError
    | OverflowError
    | RuntimeError(msg: string)

  datatype Option<+T> = None | Some(value: T)

  /** A computation that either returns a value or raises one exception. */
  datatype Result<+T> = Ok(value: T) | Err(error: Error) {

    predicate IsFailure() {
      Err?
    }

    function PropagateFailure<U>(): Result<U>
      requires Err?
    {
      Err(error)
    }

    function Extract(): T
      requires Ok?
    {
      value
    }
  }
}

=== FILE: sorting.dfy ===
/** Python's `sorted(..., key=...)`: a stable sort by a key. The key
    comparison is given as a total preorder `le` ("key(a) <= key(b)"). */
module Sorting {

  ghost predicate TotalPreorder<T(!new)>(le: (T, T) -> bool) {
    && (forall a, b :: le(a, b) || le(b, a))
    && (forall a, b, c :: le(a, b) && le(b, c) ==> le(a, c))
  }

  predicate Sorted<T>(s: seq<T>, le: (T, T) -> bool) {
    forall i, j :: 0 <= i < j < |s| ==> le(s[i], s[j])
  }

  /** `a` and `b` have equal sort keys. */
  predicate Equiv<T>(le: (T, T) -> bool, a: T, b: T) {
    le(a, b) && le(b, a)
  }

  /** The elements of `s` whose key equals the key of `z`, in order. */
  function SameKey<T>(s: seq<T>, le: (T, T) -> bool, z: T): (r: seq<T>)
    ensures |r| <= |s|
    decreases |s|
  {
    if |s| == 0 then []
    else (if Equiv(le, s[0], z) then [s[0]] else []) + SameKey(s[1..], le, z)
  }

  /** Inserts `x` before the first element whose key is not smaller. */
  function Insert<T>(x: T, t: seq<T>, le: (T, T) -> bool): (r: seq<T>)
    ensures |r| == |t| + 1
    ensures multiset(r) == multiset(t) + multiset{x}
    decreases |t|
  {
    if |t| == 0 then [x]
    else if le(x, t[0]) then [x] + t
    else
      assert t == [t[0]] + t[1..];
      [t[0]] + Insert(x, t[1..], le)
  }

  /** Insertion sort; earlier elements go before later ones with equal keys. */
  function StableSort<T>(s: seq<T>, le: (T, T) -> bool): (r: seq<T>)
    ensures multiset(r) == multiset(s)
    decreases |s|
  {
    if |s| == 0 then []
    else
      assert s == [s[0]] + s[1..];
      Insert(s[0], StableSort(s[1..], le), le)
  }

  lemma {:induction false} InsertSorted<T(!new)>(x: T, t: seq<T>, le: (T, T) -> bool)
    requires TotalPreorder(le)
    requires Sorted(t, le)
    ensures Sorted(Insert(x, t, le), le)
    decreases |t|
  {
    if |t| > 0 && !le(x, t[0]) {
      var rest := Insert(x, t[1..], le);
      InsertSorted(x, t[1..], le);
      forall y | y in rest
        ensures le(t[0], y)
      {
        assert y in multiset(rest);
        if y != x {
          assert y in multiset(t[1..]);
          assert y in t[1..];
        }
      }
      var r := [t[0]] + rest;
      forall i, j | 0 <= i < j < |r|
        ensures le(r[i], r[j])
      {
        if i == 0 {
          assert r[j] == rest[j - 1];
          assert r[j] in rest;
        } else {
          assert r[i] == rest[i - 1] && r[j] == rest[j - 1];
        }
      }
    }
  }

  lemma {:induction false} StableSortSorted<T(!new)>(s: seq<T>, le: (T, T) -> bool)
    requires TotalPreorder(le)
    ensures Sorted(StableSort(s, le), le)
    decreases |s|
  {
    if |s| > 0 {
      StableSortSorted(s[1..], le);
      InsertSorted(s[0], StableSort(s[1..], le), le);
    }
  }

  lemma {:induction false} SameKeyInsertOther<T>(x: T, t: seq<T>, le: (T, T) -> bool, z: T)
    requires !Equiv(le, x, z)
    ensures SameKey(Insert(x, t, le), le, z) == SameKey(t, le, z)
    decreases |t|
  {
    if |t| > 0 && !le(x, t[0]) {
      SameKeyInsertOther(x, t[1..], le, z);
      assert Insert(x, t, le)[1..] == Insert(x, t[1..], le);
    }
  }

  lemma Trans<T(!new)>(le: (T, T) -> bool, a: T, b: T, c: T)
    requires TotalPreorder(le)
    requires le(a, b) && le(b, c)
    ensures le(a, c)
  {
  }

  lemma {:induction false} SameKeyInsertOwn<T>(x: T, t: seq<T>, le: (T, T) -> bool, z: T)
    requires Equiv(le, x, z)
    requires forall y :: y in t && Equiv(le, y, z) ==> le(x, y)
    ensures SameKey(Insert(x, t, le), le, z) == [x] + SameKey(t, le, z)
    decreases |t|
  {
    if |t| == 0 {
    } else if le(x, t[0]) {
      assert Insert(x, t, le)[1..] == t;
    } else {
      var rest := Insert(x, t[1..], le);
      var r := Insert(x, t, le);
      assert r == [t[0]] + rest;
      assert t[0] in t;
      assert !Equiv(le, t[0], z);
      SameKeyInsertOwn(x, t[1..], le, z);
      assert r[1..] == rest;
      assert SameKey(r, le, z) == SameKey(rest, le, z);
      assert SameKey(t, le, z) == SameKey(t[1..], le, z);
    }
  }

  /** Stability: for every key, the elements carrying that key keep their
      relative order. With sortedness and the permutation property this
      pins the result down to what Python's stable `sorted` returns. */
  lemma {:induction false} StableSortStable<T(!new)>(s: seq<T>, le: (T, T) -> bool, z: T)
    requires TotalPreorder(le)
    ensures SameKey(StableSort(s, le), le, z) == SameKey(s, le, z)
    decreases |s|
  {
    if |s| > 0 {
      var sorted := StableSort(s[1..], le);
      StableSortStable(s[1..], le, z);
      if Equiv(le, s[0], z) {
        forall y | y in sorted && Equiv(le, y, z)
          ensures le(s[0], y)
        {
          Trans(le, s[0], z, y);
        }
        SameKeyInsertOwn(s[0], sorted, le, z);
      } else {
        SameKeyInsertOther(s[0], sorted, le, z);
      }
    }
  }
}

=== FILE: sortkeys.dfy ===
/** The sort keys `coeff_sort`, `coeff_sort_no_j` and `_cv2_key_sort`,
    together with Python's tuple comparison, under which they put the
    alpha coefficients first and then order the betas. */
module SortKeys {
  import opened Results
  import opened Lists
  import opened WParams

  /** Python's `<` on two tuples: the first position where the items
      differ decides, and a proper prefix is smaller. */
  function LexLt<T(==)>(a: seq<T>, b: seq<T>, lt: (T, T) -> bool): bool
    decreases |a|
  {
    if |a| == 0 then |b| > 0
    else if |b| == 0 then false
    else if a[0] == b[0] then LexLt(a[1..], b[1..], lt)
    else lt(a[0], b[0])
  }

  /** `lt` is a strict total order on T. */
  ghost predicate StrictTotal<T(!new)>(lt: (T, T) -> bool) {
    && (forall x :: !lt(x, x))
    && (forall x, y, z :: lt(x, y) && lt(y, z) ==> lt(x, z))
    && (forall x, y :: x != y ==> lt(x, y) || lt(y, x))
  }

  lemma {:induction false} LexIrreflexive<T(!new)>(a: seq<T>, lt: (T, T) -> bool)
    requires StrictTotal(lt)
    ensures !LexLt(a, a, lt)
    decreases |a|
  {
    if |a| > 0 {
      LexIrreflexive(a[1..], lt);
    }
  }

  lemma {:induction false} LexTransitive<T(!new)>(a: seq<T>, b: seq<T>, c: seq<T>, lt: (T, T) -> bool)
    requires StrictTotal(lt)
    requires LexLt(a, b, lt) && LexLt(b, c, lt)
    ensures LexLt(a, c, lt)
    decreases |a|
  {
    if |a| > 0 && a[0] == b[0] && b[0] == c[0] {
      LexTransitive(a[1..], b[1..], c[1..], lt);
    }
  }

  lemma {:induction false} LexTotal<T(!new)>(a: seq<T>, b: seq<T>, lt: (T, T) -> bool)
    requires StrictTotal(lt)
    requires a != b
    ensures LexLt(a, b, lt) || LexLt(b, a, lt)
    decreases |a|
  {
    if |a| > 0 && |b| > 0 && a[0] == b[0] {
      assert a == [a[0]] + a[1..] && b == [b[0]] + b[1..];
      LexTotal(a[1..], b[1..], lt);
    }
  }

  function IntLt(x: int, y: int): bool { x < y }

  function RealLt(x: real, y: real): bool { x < y }

  function BoolLt(x: bool, y: bool): bool { !x && y }

  lemma OrdersStrictTotal()
    ensures StrictTotal(IntLt) && StrictTotal(RealLt)
  { }

  /** Python's `<` on two resolution indices `(j, qx, zs, jpow2)`. */
  predicate KeyLt(a: Key, b: Key) {
    if a.j != b.j then a.j < b.j
    else if a.qx != b.qx then LexLt(a.qx, b.qx, IntLt)
    else if a.zs != b.zs then LexLt(a.zs, b.zs, IntLt)
    else LexLt(a.jpow2, b.jpow2, RealLt)
  }

  /** Distinct indices are always ordered one way or the other, never both. */
  lemma KeyLtStrictTotal(a: Key, b: Key, c: Key)
    ensures !KeyLt(a, a)
    ensures a != b ==> KeyLt(a, b) || KeyLt(b, a)
    ensures KeyLt(a, b) && KeyLt(b, c) ==> KeyLt(a, c)
  {
    OrdersStrictTotal();
    LexIrreflexive(a.jpow2, RealLt);
    if a != b {
      if a.j == b.j && a.qx == b.qx && a.zs == b.zs {
        LexTotal(a.jpow2, b.jpow2, RealLt);
      } else if a.j == b.j && a.qx == b.qx {
        LexTotal(a.zs, b.zs, IntLt);
      } else if a.j == b.j {
        LexTotal(a.qx, b.qx, IntLt);
      }
    }
    if KeyLt(a, b) && KeyLt(b, c) {
      KeyTransitive(a, b, c);
    }
  }

  lemma KeyTransitive(a: Key, b: Key, c: Key)
    requires KeyLt(a, b) && KeyLt(b, c)
    ensures KeyLt(a, c)
  {
    OrdersStrictTotal();
    if a.j == b.j == c.j {
      if a.qx == b.qx == c.qx {
        if a.zs == b.zs == c.zs {
          LexTransitive(a.jpow2, b.jpow2, c.jpow2, RealLt);
        } else if a.zs != b.zs && b.zs != c.zs {
          LexTransitive(a.zs, b.zs, c.zs, IntLt);
          if a.zs == c.zs {
            LexIrreflexive(a.zs, IntLt);
          }
        }
      } else if a.qx != b.qx && b.qx != c.qx {
        LexTransitive(a.qx, b.qx, c.qx, IntLt);
        if a.qx == c.qx {
          LexIrreflexive(a.qx, IntLt);
        }
      }
    }
  }

  /** The key `(not is_alpha, -v_th, key)` of `coeff_sort` and
      `coeff_sort_no_j`. */
  datatype CoeffKey = CoeffKey(beta: bool, negVTh: real, key: Key)

  /** Python's `<` on two such keys. */
  predicate CoeffKeyLt(a: CoeffKey, b: CoeffKey) {
    if a.beta != b.beta then BoolLt(a.beta, b.beta)
    else if a.negVTh != b.negVTh then a.negVTh < b.negVTh
    else KeyLt(a.key, b.key)
  }

  /** `coeff, num = tup`: the value tuple must hold exactly two items,
      otherwise the unpacking raises ValueError. The items are given as
      reals (`num` is a count). */
  function Unpack2(tup: seq<real>): (r: Result<real>)
    ensures r.Ok? <==> |tup| == 2
    ensures r.Ok? ==> r.value == tup[0]
    ensures |tup| < 2 ==> r == Err(ValueError("not enough values to unpack"))
    ensures |tup| > 2 ==> r == Err(ValueError("too many values to unpack"))
  {
    if |tup| < 2 then Err(ValueError("not enough values to unpack"))
    else if |tup| > 2 then Err(ValueError("too many values to unpack"))
    else Ok(tup[0])
  }

  /** `coeff_sort((key, tup))`: alphas first, then by decreasing
      level-scaled magnitude |coeff|/sqrt(j+1), then by index. */
  function CoeffSort(key: Key, tup: seq<real>, sqrt: real -> real): (r: Result<CoeffKey>)
    ensures r.Ok? <==> |tup| == 2 && sqrt((key.j + 1) as real) != 0.0
    ensures |tup| != 2 ==> r.Err? && r.error.ValueError?
    ensures r.Ok? ==> r.value.beta == !IsAlpha(key) && r.value.key == key
    ensures r.Ok? ==> -r.value.negVTh * sqrt((key.j + 1) as real) == Abs(tup[0])
  {
    var coeff :- Unpack2(tup);
    var vTh :- SqrtDiv(Abs(coeff), (key.j + 1) as real, sqrt);
    Ok(CoeffKey(!IsAlpha(key), -vTh, key))
  }

  /** `coeff_sort_no_j((key, tup))`: as `coeff_sort` without the level
      scaling. */
  function CoeffSortNoJ(key: Key, tup: seq<real>): (r: Result<CoeffKey>)
    ensures r.Ok? <==> |tup| == 2
    ensures |tup| != 2 ==> r.Err? && r.error.ValueError?
    ensures r.Ok? ==> r.value.beta == !IsAlpha(key) && r.value.key == key
    ensures r.Ok? ==> r.value.negVTh == -Abs(tup[0])
  {
    var coeff :- Unpack2(tup);
    Ok(CoeffKey(!IsAlpha(key), -Abs(coeff), key))
  }

  /** The store's values are triples `(coeff, coeff_b, num)`, so both keys
      raise ValueError on a store item: they can only be applied to pairs. */
  lemma CoeffSortRejectsEntries(key: Key, e: Entry, sqrt: real -> real)
    ensures CoeffSort(key, [e.coeff, e.coeffB, e.num as real], sqrt) == Err(ValueError("too many values to unpack"))
    ensures CoeffSortNoJ(key, [e.coeff, e.coeffB, e.num as real]) == Err(ValueError("too many values to unpack"))
  { }

  /** Every alpha sorts before every beta. */
  lemma CoeffSortAlphasFirst(a: CoeffKey, b: CoeffKey)
    requires !a.beta && b.beta
    ensures CoeffKeyLt(a, b) && !CoeffKeyLt(b, a)
  { }

  lemma SqrtPositive(x: real, sqrt: real -> real)
    requires IsSqrt(sqrt) && x > 0.0
    ensures sqrt(x) > 0.0
  {
    var s := sqrt(x);
    assert s >= 0.0 && s * s == x;
    ZeroTimes(s, s);
  }

  lemma ZeroTimes(d: real, s: real)
    ensures d == 0.0 ==> d * s == 0.0
  { }

  lemma NonPositiveTimes(d: real, s: real)
    requires s > 0.0 && d <= 0.0
    ensures d * s <= 0.0
  { }

  /** A product with a non-zero factor vanishes only with the other one. */
  lemma ZeroProduct(d: real, s: real)
    requires s != 0.0
    ensures d * s == 0.0 ==> d == 0.0
  {
    if d * s == 0.0 {
      assert d == (d * s) / s;
    }
  }

  /** A larger numerator over the same positive divisor gives a larger
      quotient. */
  lemma DivMonotone(a: real, b: real, s: real, qa: real, qb: real)
    requires s > 0.0 && qa * s == a && qb * s == b
    ensures a > b ==> qa > qb
    ensures a == b ==> qa == qb
  {
    var d := qa - qb;
    assert d * s == a - b;
    if d <= 0.0 {
      NonPositiveTimes(d, s);
    }
    ZeroProduct(d, s);
  }

  /** Within one level and one kind, `coeff_sort` puts the larger
      magnitude first, and breaks ties of magnitude by the index. */
  lemma CoeffSortByMagnitude(k1: Key, t1: seq<real>, k2: Key, t2: seq<real>, sqrt: real -> real)
    requires IsSqrt(sqrt)
    requires |t1| == 2 && |t2| == 2 && k1.j == k2.j && IsAlpha(k1) == IsAlpha(k2)
    ensures CoeffSort(k1, t1, sqrt).Ok? && CoeffSort(k2, t2, sqrt).Ok?
    ensures Abs(t1[0]) > Abs(t2[0]) ==> CoeffKeyLt(CoeffSort(k1, t1, sqrt).value, CoeffSort(k2, t2, sqrt).value)
    ensures Abs(t1[0]) == Abs(t2[0]) ==>
      (CoeffKeyLt(CoeffSort(k1, t1, sqrt).value, CoeffSort(k2, t2, sqrt).value) <==> KeyLt(k1, k2))
  {
    var x := (k1.j + 1) as real;
    SqrtPositive(x, sqrt);
    var r1 := CoeffSort(k1, t1, sqrt).value;
    var r2 := CoeffSort(k2, t2, sqrt).value;
    DivMonotone(Abs(t1[0]), Abs(t2[0]), sqrt(x), -r1.negVTh, -r2.negVTh);
  }

  lemma SqrtOne(sqrt: real -> real)
    requires IsSqrt(sqrt)
    ensures sqrt(1.0) == 1.0
  {
    var s := sqrt(1.0);
    assert s >= 0.0 && s * s == 1.0;
    assert (s - 1.0) * (s + 1.0) == 0.0;
    ZeroProduct(s - 1.0, s + 1.0);
  }

  /** At level 0 the level scaling divides by sqrt(1), so the two keys
      coincide. */
  lemma CoeffSortLevelZero(key: Key, tup: seq<real>, sqrt: real -> real)
    requires IsSqrt(sqrt) && key.j == 0
    ensures CoeffSort(key, tup, sqrt) == CoeffSortNoJ(key, tup)
  {
    SqrtOne(sqrt);
    if |tup| == 2 {
      var r := CoeffSort(key, tup, sqrt).value;
      assert -r.negVTh * 1.0 == Abs(tup[0]);
    }
  }

  /** `coeff_sort_no_j` orders kinds first and then by decreasing
      magnitude, with the index as the last tie-break. */
  lemma CoeffSortNoJOrder(k1: Key, t1: seq<real>, k2: Key, t2: seq<real>)
    requires |t1| == 2 && |t2| == 2
    ensures CoeffKeyLt(CoeffSortNoJ(k1, t1).value, CoeffSortNoJ(k2, t2).value) <==>
      if IsAlpha(k1) != IsAlpha(k2) then IsAlpha(k1)
      else if Abs(t1[0]) != Abs(t2[0]) then Abs(t1[0]) > Abs(t2[0])
      else KeyLt(k1, k2)
  { }

  /** The key `(not is_alpha, -j, qx, zs)` of `_cv2_key_sort`. */
  datatype Cv2Key = Cv2Key(beta: bool, negJ: int, qx: seq<int>, zs: seq<int>)

  function Cv2KeySort(key: Key): (r: Cv2Key)
    ensures r.beta <==> !IsAlpha(key)
    ensures r.negJ <= 0 && -r.negJ == key.j
    ensures r.qx == key.qx && r.zs == key.zs
  {
    Cv2Key(!IsAlpha(key), -(key.j as int), key.qx, key.zs)
  }

  /** Python's `<` on two `_cv2_key_sort` keys. */
  predicate Cv2Lt(a: Cv2Key, b: Cv2Key) {
    if a.beta != b.beta then BoolLt(a.beta, b.beta)
    else if a.negJ != b.negJ then a.negJ < b.negJ
    else if a.qx != b.qx then LexLt(a.qx, b.qx, IntLt)
    else LexLt(a.zs, b.zs, IntLt)
  }

  /** Under `_cv2_key_sort` alphas come first, then the finer levels before
      the coarser ones, then quadrant and translation in tuple order. */
  lemma Cv2Order(k1: Key, k2: Key)
    ensures Cv2Lt(Cv2KeySort(k1), Cv2KeySort(k2)) <==>
      if IsAlpha(k1) != IsAlpha(k2) then IsAlpha(k1)
      else if k1.j != k2.j then k1.j > k2.j
      else if k1.qx != k2.qx then LexLt(k1.qx, k2.qx, IntLt)
      else LexLt(k1.zs, k2.zs, IntLt)
  { }

  /** Two indices tie under `_cv2_key_sort` exactly when they differ at
      most in their scale `jpow2`, so the key leaves the order of such
      indices to the stability of the sort. */
  lemma Cv2Ties(k1: Key, k2: Key)
    ensures (!Cv2Lt(Cv2KeySort(k1), Cv2KeySort(k2)) && !Cv2Lt(Cv2KeySort(k2), Cv2KeySort(k1))) <==>
      (k1.j == k2.j && k1.qx == k2.qx && k1.zs == k2.zs)
  {
    OrdersStrictTotal();
    if k1.j == k2.j && k1.qx == k2.qx && k1.zs == k2.zs {
      LexIrreflexive(k1.zs, IntLt);
    } else if k1.j == k2.j && k1.qx == k2.qx {
      LexTotal(k1.zs, k2.zs, IntLt);
    } else if k1.j == k2.j {
      LexTotal(k1.qx, k2.qx, IntLt);
    }
  }
}

=== FILE: spwde.dfy ===
/** The shape-preserving estimator's level search (`spwde.py`): the
    leave-one-out scaling coefficients of every sample and the per-sample
    values `best_j` accumulates. The wavelet evaluations of `calc_funs`, the
    ball query and the bias correction `calc_omega` are inputs; the score
    `b_hat_j` built from the values is only printed and is not modelled. */
module Spwde {
  import opened Results
  import opened Lists
  import opened NearestBalls
  import opened WParams

  /** The four modes of `best_j`, and any other string. */
  datatype Mode = Unnormed | Normed | Diff | MdlMode | OtherMode(name: string)

  predicate KnownMode(m: Mode) {
    !m.OtherMode?
  }

  /** Σ_j a[j]·b[j], the numpy `(a * b).sum()`. */
  function Dot(a: seq<real>, b: seq<real>): real
    requires |a| == |b|
  {
    Sum(Times(a, b))
  }

  /** Every translation's dual column has one value per sample. */
  predicate Columns(dual: seq<seq<real>>, n: nat) {
    forall z :: 0 <= z < |dual| ==> |dual[z]| == n
  }

  /** Σ_{j≠i} a[j]·b[j]: the dot product with sample i's term taken out. */
  function DotNoI(a: seq<real>, b: seq<real>, i: nat): real
    requires |a| == |b| && i < |a|
  {
    Dot(a, b) - a[i] * b[i]
  }

  lemma DotWithout(a: seq<real>, b: seq<real>, i: nat)
    requires |a| == |b| && i < |a|
    ensures DotNoI(a, b, i) == Sum(Delete(Times(a, b), i))
  {
    SumDelete(Times(a, b), i);
  }

  /** `calc_alphas_no_i`: for every translation, ω(n-1) times the dual
      column weighted by the leave-one-out balls, with sample i's own term
      taken out. */
  function CalcAlphasNoI(dual: seq<seq<real>>, balls: seq<real>, i: nat, omega: int -> real): (r: seq<real>)
    requires i < |balls| && Columns(dual, |balls|)
    ensures |r| == |dual|
  {
    seq(|dual|, z requires 0 <= z < |dual| => omega(|balls| - 1) * DotNoI(dual[z], balls, i))
  }

  /** Taking sample i's term out of the sum is summing over every other
      sample. */
  lemma AlphasNoIOthers(dual: seq<seq<real>>, balls: seq<real>, i: nat, omega: int -> real, z: nat)
    requires i < |balls| && Columns(dual, |balls|) && z < |dual|
    ensures CalcAlphasNoI(dual, balls, i, omega)[z] == omega(|balls| - 1) * Sum(Delete(Times(dual[z], balls), i))
  {
    var a := dual[z];
    DotWithout(a, balls, i);
    ScaleEqual(omega(|balls| - 1), DotNoI(a, balls, i), Sum(Delete(Times(a, balls), i)));
  }

  lemma ScaleEqual(w: real, x: real, y: real)
    requires x == y
    ensures w * x == w * y
  { }

  /** `calc_alphas`: for every translation, ω(n) times the dual column
      weighted by the k-th-ball volumes. */
  function CalcAlphas(dual: seq<seq<real>>, vk: seq<real>, omega: int -> real): (r: seq<real>)
    requires Columns(dual, |vk|)
    ensures |r| == |dual|
  {
    seq(|dual|, z requires 0 <= z < |dual| => omega(|vk|) * Dot(dual[z], vk))
  }

  /** On the same balls, the leave-one-out coefficient is the full one
      without sample i's term, rescaled from ω(n) to ω(n-1). */
  lemma AlphasNoIFromAlphas(dual: seq<seq<real>>, vk: seq<real>, i: nat, omega: int -> real, z: nat)
    requires i < |vk| && Columns(dual, |vk|) && z < |dual|
    ensures omega(|vk|) * CalcAlphasNoI(dual, vk, i, omega)[z]
         == omega(|vk| - 1) * (CalcAlphas(dual, vk, omega)[z] - omega(|vk|) * (dual[z][i] * vk[i]))
  {
    var d := Dot(dual[z], vk);
    var e := dual[z][i] * vk[i];
    var w0 := omega(|vk| - 1);
    var w1 := omega(|vk|);
    assert CalcAlphasNoI(dual, vk, i, omega)[z] == w0 * DotNoI(dual[z], vk, i);
    assert DotNoI(dual[z], vk, i) == d - e;
    ScaleEqual(w0, DotNoI(dual[z], vk, i), d - e);
    assert CalcAlphas(dual, vk, omega)[z] == w1 * d;
    Rescale(w0, w1, d, e);
  }

  lemma Rescale(w0: real, w1: real, d: real, e: real)
    ensures w1 * (w0 * (d - e)) == w0 * (w1 * d - w1 * e)
  {
  }

  const NoValue := "Got norms but no value"

  /** The value `best_j` records for one sample from its leave-one-out
      coefficients and the base functions at the sample: with
      g = Σ α·base and N = Σ α², g²/N in the normed and MDL modes, g² in the
      others; 0 when N is 0 and g is too, and RuntimeError when N is 0 but
      g is not. */
  function SampleTot(alphas: seq<real>, baseAt: seq<real>, mode: Mode): (r: Result<real>)
    requires |alphas| == |baseAt|
    ensures r.Err? <==> Dot(alphas, alphas) == 0.0 && Dot(alphas, baseAt) != 0.0
    ensures r.Err? ==> r.error == RuntimeError(NoValue)
    ensures r.Ok? && Dot(alphas, alphas) == 0.0 ==> r.value == 0.0
    ensures r.Ok? && Dot(alphas, alphas) != 0.0 && (mode.Normed? || mode.MdlMode?) ==>
      r.value * Dot(alphas, alphas) == Dot(alphas, baseAt) * Dot(alphas, baseAt)
    ensures r.Ok? && Dot(alphas, alphas) != 0.0 && !(mode.Normed? || mode.MdlMode?) ==>
      r.value == Dot(alphas, baseAt) * Dot(alphas, baseAt)
  {
    var g := Dot(alphas, baseAt);
    var norm2 := Dot(alphas, alphas);
    if norm2 == 0.0 then
      if g == 0.0 then Ok(0.0) else Err(RuntimeError(NoValue))
    else if mode.Normed? || mode.MdlMode? then Ok(g * g / norm2)
    else Ok(g * g)
  }

  lemma TimesFront(a: seq<real>, b: seq<real>)
    requires |a| == |b| && |a| > 0
    ensures Times(a, b)[..|a| - 1] == Times(a[..|a| - 1], b[..|b| - 1])
    ensures Dot(a, b) == Dot(a[..|a| - 1], b[..|b| - 1]) + a[|a| - 1] * b[|b| - 1]
  {
    var p := Times(a, b);
    var q := Times(a[..|a| - 1], b[..|b| - 1]);
    assert forall t :: 0 <= t < |q| ==> p[t] == q[t];
    assert p[..|a| - 1] == q;
  }

  lemma {:induction false} SquaresNonNegative(a: seq<real>)
    ensures Dot(a, a) >= 0.0
    decreases |a|
  {
    if |a| > 0 {
      var a' := a[..|a| - 1];
      SquaresNonNegative(a');
      TimesFront(a, a);
      assert a[|a| - 1] * a[|a| - 1] >= 0.0;
    }
  }

  /** A zero sum of squares means every coefficient is zero. */
  lemma {:induction false} SquaresZero(a: seq<real>)
    requires Dot(a, a) == 0.0
    ensures forall z :: 0 <= z < |a| ==> a[z] == 0.0
    decreases |a|
  {
    if |a| > 0 {
      var a' := a[..|a| - 1];
      var x := a[|a| - 1];
      TimesFront(a, a);
      SquaresNonNegative(a');
      ZeroSumOfSquares(Dot(a', a'), x);
      SquaresZero(a');
      assert forall z :: 0 <= z < |a'| ==> a'[z] == a[z];
    }
  }

  /** A non-negative remainder plus a square can only vanish when both do. */
  lemma ZeroSumOfSquares(rest: real, x: real)
    requires rest >= 0.0 && rest + x * x == 0.0
    ensures x == 0.0 && rest == 0.0
  {
    assert x * x >= 0.0;
    assert x * x == 0.0;
    SquareNonZero(x);
  }

  lemma SquareNonZero(x: real)
    ensures x * x == 0.0 ==> x == 0.0
  {
    if x != 0.0 {
      var inv := 1.0 / x;
      assert x * inv == 1.0;
      assert (x * x) * inv == x * (x * inv);
    }
  }

  lemma {:induction false} DotZero(a: seq<real>, b: seq<real>)
    requires |a| == |b|
    requires forall z :: 0 <= z < |a| ==> a[z] == 0.0
    ensures Dot(a, b) == 0.0
    decreases |a|
  {
    if |a| > 0 {
      var a' := a[..|a| - 1];
      var b' := b[..|b| - 1];
      TimesFront(a, b);
      DotZero(a', b');
    }
  }

  /** In exact arithmetic the RuntimeError branch cannot be reached: a zero
      sum of squares forces every coefficient, and hence g, to zero; and
      every recorded value is non-negative. */
  lemma SampleTotTotal(alphas: seq<real>, baseAt: seq<real>, mode: Mode)
    requires |alphas| == |baseAt|
    ensures SampleTot(alphas, baseAt, mode).Ok?
    ensures SampleTot(alphas, baseAt, mode).value >= 0.0
  {
    var norm2 := Dot(alphas, alphas);
    var g := Dot(alphas, baseAt);
    SquaresNonNegative(alphas);
    if norm2 == 0.0 {
      SquaresZero(alphas);
      DotZero(alphas, baseAt);
    } else {
      assert norm2 > 0.0;
      assert g * g >= 0.0;
      if mode.Normed? || mode.MdlMode? {
        assert g * g / norm2 >= 0.0;
      }
    }
  }

  /** A translation index `zs` of an alpha. */
  type Zs = seq<int>

  /** `calc_funs(j, xs)` for one level: the translations of the dual range
      in `itertools.product` order with their dual functions at every
      sample (`dual[z]` belongs to `zs[z]`), and the base functions keyed
      by the translations of the base range. */
  datatype LevelFuns = LevelFuns(zs: seq<Zs>, dual: seq<seq<real>>, base: map<Zs, seq<real>>)

  predicate FunsShape(f: LevelFuns, n: nat) {
    && |f.dual| == |f.zs| && Columns(f.dual, n)
    && forall t :: t in f.base ==> |f.base[t]| == n
  }

  /** Every dual translation has a base function: `base_fun[zs]` finds it. */
  predicate BaseKeys(f: LevelFuns) {
    forall z :: 0 <= z < |f.zs| ==> f.zs[z] in f.base
  }

  /** The base functions at sample i, one per dual translation and in its
      order, looked up by translation; a translation missing from the base
      range raises KeyError. */
  function BaseAt(f: LevelFuns, i: nat): (r: Result<seq<real>>)
    requires forall t :: t in f.base ==> i < |f.base[t]|
    ensures r.Ok? <==> BaseKeys(f)
    ensures r.Err? ==> r.error == KeyError
    ensures r.Ok? ==> |r.value| == |f.zs|
    ensures r.Ok? ==> forall z :: 0 <= z < |f.zs| ==> r.value[z] == f.base[f.zs[z]][i]
  {
    if BaseKeys(f) then Ok(seq(|f.zs|, z requires 0 <= z < |f.zs| => f.base[f.zs[z]][i]))
    else Err(KeyError)
  }

  /** The neighbour table has a row of k+2 indices per sample, and both
      volume vectors one entry per sample. */
  predicate BallsShape(b: Balls) {
    && |b.vk| == |b.inx| && |b.vk1| == |b.inx|
    && forall t :: 0 <= t < |b.inx| ==> |b.inx[t]| >= 1
  }

  /** `balls` is what `balls_no_i(b, i)` returns. */
  predicate LeftOut(b: Balls, i: int, balls: seq<real>)
    requires BallsShape(b)
  {
    && |balls| == |b.inx|
    && (forall t :: 0 <= t < |balls| && AmongNearest(b, t, i) ==> balls[t] == b.vk1[t])
    && (forall t :: 0 <= t < |balls| && !AmongNearest(b, t, i) ==> balls[t] == b.vk[t])
  }

  /** `tot` is the value `best_j` records for sample i on level `f`. */
  predicate TotOf(tot: real, i: nat, f: LevelFuns, balls: seq<real>, mode: Mode, omega: int -> real)
    requires i < |balls| && FunsShape(f, |balls|) && BaseKeys(f)
  {
    SampleTot(CalcAlphasNoI(f.dual, balls, i, omega), BaseAt(f, i).value, mode) == Ok(tot)
  }

  /** The sample loop of `best_j` for one level: every sample's
      leave-one-out coefficients, then its recorded value. `left[i]` are
      the balls without sample i. A dual translation without a base
      function raises KeyError at the first sample; the RuntimeError of a
      sample cannot occur (`SampleTotTotal`). */
  method LevelTots(f: LevelFuns, b: Balls, mode: Mode, omega: int -> real)
    returns (r: Result<seq<real>>, ghost left: seq<seq<real>>)
    requires BallsShape(b) && FunsShape(f, |b.inx|)
    ensures r.Err? <==> |b.inx| > 0 && !BaseKeys(f)
    ensures r.Err? ==> r.error == KeyError
    ensures r.Ok? ==> |r.value| == |b.inx| && |left| == |b.inx|
    ensures r.Ok? ==> forall i :: 0 <= i < |b.inx| ==>
              BaseKeys(f) && LeftOut(b, i, left[i]) && TotOf(r.value[i], i, f, left[i], mode, omega)
    ensures r.Ok? ==> forall i :: 0 <= i < |b.inx| ==> r.value[i] >= 0.0
  {
    var n := |b.inx|;
    var tots := [];
    left := [];
    var i := 0;
    while i < n
      invariant 0 <= i <= n
      invariant |tots| == i && |left| == i
      invariant i > 0 ==> BaseKeys(f)
      invariant forall t :: 0 <= t < i ==> LeftOut(b, t, left[t]) && TotOf(tots[t], t, f, left[t], mode, omega)
      invariant forall t :: 0 <= t < i ==> tots[t] >= 0.0
    {
      var balls := BallsNoI(b, i);
      var alphas := CalcAlphasNoI(f.dual, balls, i, omega);
      var baseAt :- BaseAt(f, i);
      SampleTotTotal(alphas, baseAt, mode);
      var tot := SampleTot(alphas, baseAt, mode).value;
      tots := tots + [tot];
      left := left + [balls];
      i := i + 1;
    }
    return Ok(tots), left;
  }

  const WrongMode := "Mode is wrong"

  /** `best_j` scans the levels `range(9)`. */
  const LevelCount := 9

  /** The largest exponent e among the halves (m + 1) / 2 for which the
      double `math.pi ** e` is finite: log10 π · 620 ≈ 308.233 lies below
      log10 of the largest double (≈ 308.255), log10 π · 620.5 ≈ 308.481
      lies above it, and Python's float power raises OverflowError there. */
  const MaxPiExponent: real := 620.0

  /** `calc_surface(m)` raises OverflowError in `math.pi ** ((m + 1) / 2)`;
      the `gamma` of scipy returns inf instead of raising, so this is the
      only exception of the MDL term. */
  predicate SurfaceOverflows(numParams: nat) {
    (numParams as real + 1.0) / 2.0 > MaxPiExponent
  }

  lemma SurfaceOverflowsAt(numParams: nat)
    ensures SurfaceOverflows(numParams) <==> numParams >= 1240
  {
  }

  /** Level f passes `best_j`: every dual translation has a base function
      and, in MDL mode, the surface term of its `num_alphas` (one alpha per
      dual translation) is finite. */
  predicate LevelOk(f: LevelFuns, mode: Mode) {
    BaseKeys(f) && !(mode.MdlMode? && SurfaceOverflows(|f.zs|))
  }

  /** The exception of a failing level: the per-sample loop comes first. */
  function LevelError(f: LevelFuns): Error {
    if !BaseKeys(f) then KeyError else OverflowError
  }

  /** Level j is the first of the scan that fails. */
  predicate FirstFailing(funs: nat -> LevelFuns, j: nat, mode: Mode) {
    && (forall t :: 0 <= t < j ==> LevelOk(funs(t), mode))
    && !LevelOk(funs(j), mode)
  }

  /** `SPWDE.best_j`: an unknown mode raises ValueError before anything is
      computed; then the ball query (which raises when there are fewer than
      k+2 samples) and, for each of the nine levels, the functions
      `funs(j)` of `calc_funs(j, xs)`, the per-sample values and, in MDL
      mode, `calc_surface(num_alphas)`. The scan stops at the first failing
      level with that level's exception. */
  method BestJ(funs: nat -> LevelFuns, n: nat, k: nat, q: Query, pow: real -> real, unit: real,
               mode: Mode, omega: int -> real) returns (r: Result<seq<seq<real>>>)
    requires k + 2 <= n ==> QueryShape(q, n, k + 2)
    requires forall j :: 0 <= j < LevelCount ==> FunsShape(funs(j), n)
    ensures !KnownMode(mode) ==> r == Err(ValueError(WrongMode))
    ensures KnownMode(mode) && k + 2 > n ==> r == SqrtVolumes(n, k, q, pow, unit).PropagateFailure()
    ensures KnownMode(mode) && k + 2 <= n ==>
              (r.Ok? <==> forall j :: 0 <= j < LevelCount ==> LevelOk(funs(j), mode))
    ensures KnownMode(mode) && k + 2 <= n && r.Err? ==>
              exists j :: 0 <= j < LevelCount && FirstFailing(funs, j, mode) && r.error == LevelError(funs(j))
    ensures KnownMode(mode) && !mode.MdlMode? && k + 2 <= n && r.Err? ==> r.error == KeyError
    ensures r.Ok? ==> |r.value| == LevelCount
    ensures r.Ok? ==> forall j :: 0 <= j < LevelCount ==> |r.value[j]| == n
    ensures r.Ok? ==> forall j, i :: 0 <= j < LevelCount && 0 <= i < n ==> r.value[j][i] >= 0.0
  {
    if !KnownMode(mode) {
      return Err(ValueError(WrongMode));
    }
    var b :- SqrtVolumes(n, k, q, pow, unit);
    assert BallsShape(b);
    var out: seq<seq<real>> := [];
    var j := 0;
    while j < LevelCount
      invariant 0 <= j <= LevelCount
      invariant |out| == j
      invariant forall t :: 0 <= t < j ==> LevelOk(funs(t), mode)
      invariant forall t :: 0 <= t < j ==> |out[t]| == n
      invariant forall t, i :: 0 <= t < j && 0 <= i < n ==> out[t][i] >= 0.0
    {
      var tots;
      ghost var left;
      tots, left := LevelTots(funs(j), b, mode, omega);
      if tots.Err? {
        assert FirstFailing(funs, j, mode);
        return Err(tots.error);
      }
      if mode.MdlMode? && SurfaceOverflows(|funs(j).zs|) {
        assert FirstFailing(funs, j, mode);
        return Err(OverflowError);
      }
      out := out + [tots.value];
      j := j + 1;
    }
    return Ok(out);
  }
}

=== FILE: terms.dfy ===
/** `calc_terms`: the three terms whose combination t1 - t2 + t3 is the
    estimated contribution of one coefficient to the Hellinger affinity,
    and its squared weight coeff·coeff_b. */
module Terms {
  import opened Results
  import opened Lists
  import opened NearestBalls
  import opened WParams

  /** `(term1, term2, term3, coeff2)`. */
  datatype Terms = Terms(t1: real, t2: real, t3: real, coeff2: real)

  /** `term1 - term2 + term3`. */
  function Contribution(t: Terms): real {
    t.t1 - t.t2 + t.t3
  }

  /** The shape `calc_terms` relies on: one dual and one base value per
      sample, and the ball data of the same samples queried with k+2
      neighbours. */
  predicate TermShape(dual: seq<real>, base: seq<real>, b: Balls, k: nat) {
    |base| == |dual| && WellFormed(b, |dual|, k)
  }

  /** What sample j's m-th neighbour i (column m+1) receives:
      base[i]·dual[j]·vk[i]·(vk1[j] - vk[j]). */
  function NeighbourTerm(dual: seq<real>, base: seq<real>, b: Balls, k: nat, j: nat, m: nat): real
    requires TermShape(dual, base, b, k)
    requires j < |dual| && m < k
  {
    var i := b.inx[j][m + 1];
    base[i] * dual[j] * b.vk[i] * (b.vk1[j] - b.vk[j])
  }

  /** Σ over the first m neighbours of sample j. */
  function Inner(dual: seq<real>, base: seq<real>, b: Balls, k: nat, j: nat, m: nat): real
    requires TermShape(dual, base, b, k)
    requires j < |dual| && m <= k
  {
    if m == 0 then 0.0
    else Inner(dual, base, b, k, j, m - 1) + NeighbourTerm(dual, base, b, k, j, m - 1)
  }

  /** Σ over the first j samples of all their k neighbours' terms. */
  function Outer(dual: seq<real>, base: seq<real>, b: Balls, k: nat, j: nat): real
    requires TermShape(dual, base, b, k)
    requires j <= |dual|
  {
    if j == 0 then 0.0
    else Outer(dual, base, b, k, j - 1) + Inner(dual, base, b, k, j - 1, k)
  }

  lemma {:induction false} InnerZero(dual: seq<real>, base: seq<real>, b: Balls, k: nat, j: nat, m: nat)
    requires TermShape(dual, base, b, k)
    requires j < |dual| && m <= k
    requires b.vk1[j] == b.vk[j]
    ensures Inner(dual, base, b, k, j, m) == 0.0
  {
    if m > 0 {
      InnerZero(dual, base, b, k, j, m - 1);
    }
  }

  /** When no sample's (k+1)-th ball differs from its k-th ball, the
      correction term vanishes. */
  lemma {:induction false} OuterZero(dual: seq<real>, base: seq<real>, b: Balls, k: nat, j: nat)
    requires TermShape(dual, base, b, k)
    requires j <= |dual|
    requires forall t :: 0 <= t < |dual| ==> b.vk1[t] == b.vk[t]
    ensures Outer(dual, base, b, k, j) == 0.0
  {
    if j > 0 {
      OuterZero(dual, base, b, k, j - 1);
      InnerZero(dual, base, b, k, j - 1, k);
    }
  }

  lemma OuterZeroWhen(dual: seq<real>, base: seq<real>, b: Balls, k: nat)
    requires TermShape(dual, base, b, k)
    ensures (forall t :: 0 <= t < |dual| ==> b.vk1[t] == b.vk[t]) ==> Outer(dual, base, b, k, |dual|) == 0.0
  {
    if forall t :: 0 <= t < |dual| ==> b.vk1[t] == b.vk[t] {
      OuterZero(dual, base, b, k, |dual|);
    }
  }

  lemma {:induction false} SumZeros(n: nat)
    ensures Sum(seq(n, _ => 0.0)) == 0.0
  {
    if n > 0 {
      assert seq(n, _ => 0.0)[..n - 1] == seq(n - 1, _ => 0.0);
      SumZeros(n - 1);
    }
  }

  /** The `vals_i` loop of `calc_terms`: every neighbour term is added to
      the slot of the neighbour it belongs to. However the terms land, the
      slots add up to the double sum over samples and neighbours. */
  method ScatterVals(dual: seq<real>, base: seq<real>, b: Balls, k: nat) returns (vals: seq<real>)
    requires TermShape(dual, base, b, k)
    ensures |vals| == |dual|
    ensures Sum(vals) == Outer(dual, base, b, k, |dual|)
  {
    var n := |dual|;
    vals := seq(n, _ => 0.0);
    SumZeros(n);
    var j := 0;
    while j < n
      invariant 0 <= j <= n
      invariant |vals| == n
      invariant Sum(vals) == Outer(dual, base, b, k, j)
    {
      var m := 0;
      while m < k
        invariant 0 <= m <= k
        invariant |vals| == n
        invariant Sum(vals) == Outer(dual, base, b, k, j) + Inner(dual, base, b, k, j, m)
      {
        var i := b.inx[j][m + 1];
        var v := base[i] * dual[j] * b.vk[i] * (b.vk1[j] - b.vk[j]);
        assert Inner(dual, base, b, k, j, m + 1) == Inner(dual, base, b, k, j, m) + v;
        SumUpdate(vals, i, v);
        vals := vals[i := vals[i] + v];
        m := m + 1;
      }
      j := j + 1;
    }
  }

  /** `dual·base·vk·vk` per sample, for term2. */
  function SquaredWeights(dual: seq<real>, base: seq<real>, vk: seq<real>): (r: seq<real>)
    requires |base| == |dual| && |vk| == |dual|
    ensures |r| == |dual|
    ensures forall i :: 0 <= i < |dual| ==> r[i] == dual[i] * base[i] * (vk[i] * vk[i])
  {
    seq(|dual|, i requires 0 <= i < |dual| => dual[i] * base[i] * vk[i] * vk[i])
  }

  /** The terms `calc_terms` computes from the bias factors `wn` = ω(n)
      and `wn1` = ω(n-1): term1·ω(n) is ω(n-1)·coeff·coeff_b, term2 is
      ω(n)·ω(n-1) times the squared-weight sum, term3 ω(n)·ω(n-1) times
      the neighbour sum, and coeff2 the coefficient product. */
  predicate TermsFrom(t: Terms, key: Key, e: Entry, xs: seq<Point>, b: Balls, k: nat,
                      wn: real, wn1: real, wave: Wave)
    requires WellFormed(b, |xs|, k)
  {
    var dual := Column(wave.dual, key, xs);
    var base := Column(wave.base, key, xs);
    && t.t1 * wn == wn1 * (e.coeff * e.coeffB)
    && t.t2 == wn * wn1 * Sum(SquaredWeights(dual, base, b.vk))
    && t.t3 == wn * wn1 * Outer(dual, base, b, k, |xs|)
    && t.coeff2 == e.coeff * e.coeffB
  }

  /** `omega(n)`: √(n-1)·Γ(k)/Γ(k+½)/n, the bias correction of the k-th
      nearest-neighbour sum for n samples, with the gamma ratio
      Γ(k)/Γ(k+½) given as `g`. `math.sqrt` raises ValueError below n = 1. */
  function Omega(n: int, g: real, sqrt: real -> real): (r: Result<real>)
    ensures r.Err? <==> n < 1
    ensures r.Err? ==> r.error == ValueError("math domain error")
    ensures r.Ok? ==> r.value * (n as real) == sqrt((n - 1) as real) * g
  {
    if n < 1 then Err(ValueError("math domain error"))
    else Ok(sqrt((n - 1) as real) * g / (n as real))
  }

  /** With a true square root and a positive gamma ratio, ω(n) is positive
      from two samples on. */
  lemma OmegaPositive(n: int, g: real, sqrt: real -> real)
    requires IsSqrt(sqrt) && g > 0.0 && n >= 2
    ensures Omega(n, g, sqrt).Ok? && Omega(n, g, sqrt).value > 0.0
  {
    var x := (n - 1) as real;
    var s := sqrt(x);
    assert 0.0 <= s && s * s == x;
    assert s != 0.0;
    assert s * g > 0.0;
  }

  /** The terms for bias factors `wn` = ω(n) and `wn1` = ω(n-1); term1
      divides by ω(n). */
  function TermsAt(key: Key, e: Entry, xs: seq<Point>, b: Balls, k: nat,
                   wn: real, wn1: real, wave: Wave): (r: Result<Terms>)
    requires WellFormed(b, |xs|, k)
    ensures r.Ok? <==> wn != 0.0
    ensures r.Err? ==> r.error == ZeroDivisionError
    ensures r.Ok? ==> TermsFrom(r.value, key, e, xs, b, k, wn, wn1, wave)
    ensures r.Ok? && (forall t :: 0 <= t < |xs| ==> b.vk1[t] == b.vk[t]) ==> r.value.t3 == 0.0
  {
    var ratio :- Div(wn1, wn);
    var dual := Column(wave.dual, key, xs);
    var base := Column(wave.base, key, xs);
    OuterZeroWhen(dual, base, b, k);
    RatioTerm(ratio, wn, wn1, e.coeff * e.coeffB);
    Ok(Terms(
      ratio * (e.coeff * e.coeffB),
      wn * wn1 * Sum(SquaredWeights(dual, base, b.vk)),
      wn * wn1 * Outer(dual, base, b, k, |xs|),
      e.coeff * e.coeffB))
  }

  /** `calc_terms(key, coeff, coeff_b, xs)` for an estimator fitted on `n`
      samples, with the gamma ratio of ω given as `g`. It raises
      ValueError when the ball data has not been computed yet, and
      ValueError from `math.sqrt` of a negative number when n ≤ 1 (ω(n)
      fails for n < 1, ω(n-1) for n = 1); a zero ω(n) divides term1 by
      zero. */
  function CalcTerms(key: Key, e: Entry, xs: seq<Point>, balls: Option<Balls>, k: nat,
                     n: int, g: real, sqrt: real -> real, wave: Wave): (r: Result<Terms>)
    requires balls.Some? ==> WellFormed(balls.value, |xs|, k)
    ensures balls.None? ==> r == Err(ValueError("Use calc_coeffs first"))
    ensures balls.Some? && n <= 1 ==> r == Err(ValueError("math domain error"))
    ensures balls.Some? && n >= 2 ==> (r.Ok? <==> Omega(n, g, sqrt).value != 0.0)
    ensures balls.Some? && n >= 2 && r.Err? ==> r.error == ZeroDivisionError
    ensures r.Ok? ==> balls.Some? && n >= 2
    ensures r.Ok? ==> TermsFrom(r.value, key, e, xs, balls.value, k,
                                Omega(n, g, sqrt).value, Omega(n - 1, g, sqrt).value, wave)
    ensures r.Ok? && (forall t :: 0 <= t < |xs| ==> balls.value.vk1[t] == balls.value.vk[t]) ==> r.value.t3 == 0.0
  {
    match balls
    case None => Err(ValueError("Use calc_coeffs first"))
    case Some(b) =>
      var wn :- Omega(n, g, sqrt);
      var wn1 :- Omega(n - 1, g, sqrt);
      TermsAt(key, e, xs, b, k, wn, wn1, wave)
  }

  /** (ω(n-1)/ω(n))·p·ω(n) is ω(n-1)·p. */
  lemma RatioTerm(ratio: real, wn: real, wn1: real, p: real)
    requires ratio * wn == wn1
    ensures ratio * p * wn == wn1 * p
  {
    calc {
      ratio * p * wn;
      (ratio * wn) * p;
      wn1 * p;
    }
  }
}

=== FILE: threshold.dfy ===
/** The single-threshold selector: `calc_c_function` builds the loss curve
    over the candidates sorted by level and ordering key, `pos_k_min` picks
    the clamped first minimum, and `single_threshold` reports it. */
module Thresholds {
  import opened Results
  import opened Lists
  import opened Sorting
  import opened WParams
  import opened Terms
  import opened Criteria

  /** `((key, tup), threshold, (term1, term2, term3, coeff2))`: a beta
      coefficient, its ordering key and its terms. */
  datatype Candidate = Candidate(coef: Coef, th: real, terms: Terms)

  function LevelOf(c: Candidate): nat {
    c.coef.key.j
  }

  function ContribOf(c: Candidate): real {
    Contribution(c.terms)
  }

  function Coeff2Of(c: Candidate): real {
    c.terms.coeff2
  }

  /** The sort key `(j, -threshold)`, compared as a Python tuple. */
  predicate LevelThenKeyLe(a: Candidate, b: Candidate) {
    LevelOf(a) < LevelOf(b) || (LevelOf(a) == LevelOf(b) && -a.th <= -b.th)
  }

  lemma LevelThenKeyPreorder()
    ensures TotalPreorder(LevelThenKeyLe)
  {
  }

  /** `sorted(contributions, key=lambda values: (j, -threshold))`: levels
      ascending, and within a level the ordering key descending. */
  function SortCandidates(cs: seq<Candidate>): (r: seq<Candidate>)
    ensures multiset(r) == multiset(cs)
    ensures |r| == |cs|
  {
    var r := StableSort(cs, LevelThenKeyLe);
    assert |r| == |multiset(r)| == |multiset(cs)| == |cs|;
    r
  }

  lemma SortCandidatesSorted(cs: seq<Candidate>)
    ensures var r := SortCandidates(cs);
      forall a, b :: 0 <= a < b < |r| ==> LevelOf(r[a]) <= LevelOf(r[b])
    ensures var r := SortCandidates(cs);
      forall a, b :: 0 <= a < b < |r| && LevelOf(r[a]) == LevelOf(r[b]) ==> r[a].th >= r[b].th
  {
    LevelThenKeyPreorder();
    StableSortSorted(cs, LevelThenKeyLe);
  }

  /** Sorting neither adds nor drops a candidate. */
  lemma SortCandidatesMembers(cs: seq<Candidate>)
    ensures forall x :: x in SortCandidates(cs) <==> x in cs
  {
    assert forall x :: x in SortCandidates(cs) <==> x in multiset(SortCandidates(cs));
  }

  /** Candidates with the same level and key keep their input order. */
  lemma SortCandidatesStable(cs: seq<Candidate>, z: Candidate)
    ensures SameKey(SortCandidates(cs), LevelThenKeyLe, z) == SameKey(cs, LevelThenKeyLe, z)
  {
    LevelThenKeyPreorder();
    StableSortStable(cs, LevelThenKeyLe, z);
  }

  /** One row of the loss curve: `(threshold, target, j)`. */
  datatype Row = Row(th: real, target: real, j: nat)

  /** The loss after taking the first i+1 sorted candidates on top of the
      alphas' affinity and norm. */
  function PrefixLoss(sorted: seq<Candidate>, i: nat, norm: real, contrib: real, loss: Loss, sqrt: real -> real): Result<real>
    requires i < |sorted|
  {
    LossValue(loss, contrib + SumOf(sorted[..i + 1], ContribOf), norm + SumOf(sorted[..i + 1], Coeff2Of), sqrt)
  }

  lemma SumOfPrefixStep<T>(s: seq<T>, i: nat, f: T -> real)
    requires i < |s|
    ensures SumOf(s[..i + 1], f) == SumOf(s[..i], f) + f(s[i])
  {
    assert s[..i + 1][..i] == s[..i];
  }

  /** `row` is row i of the loss curve over `sorted`. */
  predicate CurveRow(sorted: seq<Candidate>, i: nat, row: Row, norm: real, contrib: real, loss: Loss, sqrt: real -> real)
    requires i < |sorted|
  {
    var target := PrefixLoss(sorted, i, norm, contrib, loss, sqrt);
    target.Ok? && row == Row(sorted[i].th, target.value, LevelOf(sorted[i]))
  }

  /** `calc_c_function`: one row per candidate in sorted order, holding the
      candidate's key, its level and the loss of the prefix ending at it.
      An unknown loss or a failing square root raises at the first row, so
      with no candidates nothing is raised at all. */
  method CalcCFunction(cands: seq<Candidate>, norm: real, contrib: real, loss: Loss, sqrt: real -> real)
    returns (r: Result<seq<Row>>)
    ensures r.Ok? ==> |r.value| == |cands|
    ensures r.Ok? ==> forall i :: 0 <= i < |r.value| ==> CurveRow(SortCandidates(cands), i, r.value[i], norm, contrib, loss, sqrt)
    ensures r.Err? ==> exists i :: 0 <= i < |cands| && PrefixLoss(SortCandidates(cands), i, norm, contrib, loss, sqrt) == Err(r.error)
  {
    var sorted := SortCandidates(cands);
    var batta := contrib;
    var normSum := norm;
    var rows := [];
    var i := 0;
    while i < |sorted|
      invariant 0 <= i <= |sorted|
      invariant |rows| == i
      invariant batta == contrib + SumOf(sorted[..i], ContribOf)
      invariant normSum == norm + SumOf(sorted[..i], Coeff2Of)
      invariant forall t :: 0 <= t < i ==> CurveRow(sorted, t, rows[t], norm, contrib, loss, sqrt)
    {
      var c := sorted[i];
      SumOfPrefixStep(sorted, i, ContribOf);
      SumOfPrefixStep(sorted, i, Coeff2Of);
      normSum := normSum + c.terms.coeff2;
      batta := batta + Contribution(c.terms);
      var target := LossValue(loss, batta, normSum, sqrt);
      assert target == PrefixLoss(sorted, i, norm, contrib, loss, sqrt);
      if target.Err? {
        return Err(target.error);
      }
      rows := rows + [Row(c.th, target.value, LevelOf(c))];
      i := i + 1;
    }
    return Ok(rows);
  }

  /** `pos_k_min(vals, max_params)`: the first minimum of the loss curve,
      clamped to the parameter budget and to the last row. A negative
      budget gives a negative position. */
  function PosKMin(targets: seq<real>, maxParams: int): (r: int)
    requires |targets| > 0
    ensures r <= maxParams && r < |targets|
    ensures forall a :: IsFirstMin(targets, a) ==> r <= a
    ensures r == maxParams || r == |targets| - 1 || IsFirstMin(targets, r)
    ensures 0 <= maxParams ==> 0 <= r
  {
    var a := ArgMin(targets);
    forall b | IsFirstMin(targets, b)
      ensures a == b
    {
      FirstMinUnique(targets, a, b);
    }
    Min(a, Min(maxParams, |targets| - 1))
  }

  /** Which selector produced a `ThresholdResult`. */
  datatype Msg = All | Multi | NoBetas

  /** `ThresholdResult(threshold, pos_k, target_val, values, sorted_contrib,
      th_j, msg)`. */
  datatype Threshold = Threshold(
    threshold: real, posK: int, targetVal: real, values: seq<Row>,
    sorted: seq<Candidate>, thJ: int, msg: Msg)

  function Targets(rows: seq<Row>): (r: seq<real>)
    ensures |r| == |rows|
    ensures forall i :: 0 <= i < |rows| ==> r[i] == rows[i].target
  {
    seq(|rows|, i requires 0 <= i < |rows| => rows[i].target)
  }

  /** The result with no beta candidates: nothing is selected. */
  const NoBetasResult := Threshold(0.0, -1, 1.0, [], [], -1, NoBetas)

  /** `single_threshold`: the position on the loss curve where the betas
      are cut. The budget is the sample count minus the number of alphas.
      When the budget lets the first minimum through, the reported target
      is the minimum of the whole curve. */
  method SingleThreshold(numAlphas: nat, loss: Loss, cands: seq<Candidate>, alphaNorm: real,
                         alphaContrib: real, n: nat, sqrt: real -> real) returns (r: Result<Threshold>)
    ensures |cands| == 0 ==> r == Ok(NoBetasResult)
    ensures r.Ok? && |cands| > 0 ==>
      && r.value.msg == All
      && r.value.sorted == SortCandidates(cands)
      && |r.value.values| == |cands|
      && r.value.posK == PosKMin(Targets(r.value.values), n - numAlphas)
      && PyIndex(r.value.values, r.value.posK).Ok?
      && PyIndex(r.value.values, r.value.posK).value.th == r.value.threshold
      && PyIndex(r.value.values, r.value.posK).value.target == r.value.targetVal
      && PyIndex(r.value.values, r.value.posK).value.j == r.value.thJ
    ensures r.Ok? && |cands| > 0 ==> r.value.posK <= n - numAlphas && r.value.posK < |cands|
    ensures r.Ok? && |cands| > 0 && n - numAlphas >= |cands| - 1 ==>
      forall t :: 0 <= t < |cands| ==> r.value.targetVal <= r.value.values[t].target
    ensures r.Ok? && |cands| > 0 ==> forall i :: 0 <= i < |cands| ==>
      CurveRow(r.value.sorted, i, r.value.values[i], alphaNorm, alphaContrib, loss, sqrt)
    ensures r.Err? && |cands| > 0 && n - numAlphas >= 0 ==>
      exists i :: 0 <= i < |cands| && PrefixLoss(SortCandidates(cands), i, alphaNorm, alphaContrib, loss, sqrt) == Err(r.error)
  {
    var rows :- CalcCFunction(cands, alphaNorm, alphaContrib, loss, sqrt);
    if |rows| == 0 {
      return Ok(NoBetasResult);
    }
    var targets := Targets(rows);
    var k := PosKMin(targets, n - numAlphas);
    var row :- PyIndex(rows, k);
    if n - numAlphas >= |cands| - 1 {
      assert k == ArgMin(targets);
      assert row == rows[k];
    }
    return Ok(Threshold(row.th, k, row.target, rows, SortCandidates(cands), row.j, All));
  }
}

=== FILE: wparams.dfy ===
/** The coefficient store `WParams`: a dictionary from resolution indices
    `(j, qx, zs, jpow2)` to coefficient triples `(coeff, coeff_b, num)`,
    where a freshly indexed key maps to `None` until `calc_coeffs` fills
    it. Python dictionaries keep insertion order, so a store is a sequence
    of slots with distinct keys. */
module WParams {
  import opened Results
  import opened Lists
  import opened NearestBalls

  type Point = seq<real>

  /** Resolution index: level j, quadrant selector qx, translation zs and
      per-axis scale jpow2. */
  datatype Key = Key(j: nat, qx: seq<int>, zs: seq<int>, jpow2: seq<real>)

  /** Alpha (scaling) index: level 0 and the all-zero quadrant. */
  predicate IsAlpha(key: Key) {
    key.j == 0 && forall i :: 0 <= i < |key.qx| ==> key.qx[i] == 0
  }

  /** `(coeff, coeff_b, num)`: dual-weighted and base-weighted coefficients
      and the number of samples in the dual function's support. */
  datatype Entry = Entry(coeff: real, coeffB: real, num: nat)

  /** The wavelet-evaluation collaborator (`fun_ix('dual' | 'base', ...)`
      and `supp_ix('dual', ...)`) evaluated at one point. */
  datatype Wave = Wave(
    dual: (Key, Point) -> real,
    base: (Key, Point) -> real,
    supp: (Key, Point) -> bool)

  /** One dictionary slot; `None` is a key whose coefficients are pending. */
  datatype Slot = Slot(key: Key, entry: Option<Entry>)

  type Store = seq<Slot>

  /** A computed coefficient, as held by the dictionaries the selectors build. */
  datatype Coef = Coef(key: Key, entry: Entry)

  type Dict = seq<Coef>

  function StoreKeys(s: Store): set<Key> {
    set i | 0 <= i < |s| :: s[i].key
  }

  predicate DistinctKeys(s: Store) {
    forall i, j :: 0 <= i < j < |s| ==> s[i].key != s[j].key
  }

  function DictKeys(d: Dict): set<Key> {
    set i | 0 <= i < |d| :: d[i].key
  }

  predicate DistinctDict(d: Dict) {
    forall i, j :: 0 <= i < j < |d| ==> d[i].key != d[j].key
  }

  /** Every slot has been computed. */
  predicate Complete(s: Store) {
    forall i :: 0 <= i < |s| ==> s[i].entry.Some?
  }

  /** The computed dictionary behind a complete store. */
  function Ready(s: Store): (d: Dict)
    requires Complete(s)
    ensures |d| == |s|
    ensures forall i :: 0 <= i < |s| ==> d[i] == Coef(s[i].key, s[i].entry.value)
  {
    seq(|s|, i requires 0 <= i < |s| => Coef(s[i].key, s[i].entry.value))
  }

  /** Position of `k` in the dictionary, if present. */
  function IndexOf(d: Dict, k: Key): (r: Option<nat>)
    ensures r.Some? ==> r.value < |d| && d[r.value].key == k
    ensures r.None? <==> k !in DictKeys(d)
    decreases |d|
  {
    if |d| == 0 then None
    else if d[|d| - 1].key == k then Some(|d| - 1)
    else
      var r := IndexOf(d[..|d| - 1], k);
      assert forall t :: 0 <= t < |d| - 1 ==> d[..|d| - 1][t] == d[t];
      assert DictKeys(d) == DictKeys(d[..|d| - 1]) + {d[|d| - 1].key};
      r
  }

  /** Python `d[key] = value` on an insertion-ordered dictionary: an
      existing key keeps its position and takes the new value, a new key
      goes at the end. */
  function Put(d: Dict, c: Coef): (r: Dict)
    ensures DictKeys(r) == DictKeys(d) + {c.key}
    ensures c in r
    ensures c.key in DictKeys(d) ==> |r| == |d|
    ensures c.key !in DictKeys(d) ==> r == d + [c]
    ensures forall t :: 0 <= t < |d| && d[t].key != c.key ==> r[t] == d[t]
    ensures DistinctDict(d) ==> DistinctDict(r)
    ensures |d| <= |r|
    ensures forall x :: x in r ==> x in d || x == c
  {
    match IndexOf(d, c.key)
    case Some(t) =>
      var r := d[t := c];
      assert r[t] == c;
      assert forall u :: 0 <= u < |d| && u != t ==> r[u] == d[u];
      assert forall x :: x in r ==> x in d || x == c by {
        forall x | x in r
          ensures x in d || x == c
        {
          var u :| 0 <= u < |r| && r[u] == x;
          if u != t {
            assert d[u] == x;
          }
        }
      }
      assert DictKeys(r) == DictKeys(d) + {c.key} by {
        assert forall u :: 0 <= u < |r| ==> r[u].key == d[u].key;
      }
      r
    case None =>
      var r := d + [c];
      assert DictKeys(r) == DictKeys(d) + {c.key} by {
        assert forall u :: 0 <= u < |d| ==> r[u] == d[u];
        assert r[|d|] == c;
      }
      assert DistinctDict(d) ==> DistinctDict(r) by {
        assert forall u :: 0 <= u < |d| ==> d[u].key in DictKeys(d);
      }
      r
  }

  /** `d[key] = value` for each item in turn. */
  function PutAll(d: Dict, cs: Dict): (r: Dict)
    ensures DictKeys(r) == DictKeys(d) + DictKeys(cs)
    ensures DistinctDict(d) ==> DistinctDict(r)
    decreases |cs|
  {
    if |cs| == 0 then d
    else
      DictKeysFront(cs);
      Put(PutAll(d, cs[..|cs| - 1]), cs[|cs| - 1])
  }

  lemma DictKeysFront(cs: Dict)
    requires |cs| > 0
    ensures DictKeys(cs) == DictKeys(cs[..|cs| - 1]) + {cs[|cs| - 1].key}
  {
    assert forall u :: 0 <= u < |cs| - 1 ==> cs[..|cs| - 1][u] == cs[u];
  }

  /** Every value `PutAll` leaves was already there or was put. */
  lemma {:induction false} PutAllFrom(d: Dict, cs: Dict)
    ensures forall x :: x in PutAll(d, cs) ==> x in d || x in cs
    decreases |cs|
  {
    if |cs| > 0 {
      PutAllFrom(d, cs[..|cs| - 1]);
      assert forall x :: x in cs[..|cs| - 1] ==> x in cs;
    }
  }

  /** A key that is never put keeps its position and value. */
  lemma {:induction false} PutAllKeeps(d: Dict, cs: Dict)
    ensures forall t :: 0 <= t < |d| && d[t].key !in DictKeys(cs) ==>
              t < |PutAll(d, cs)| && PutAll(d, cs)[t] == d[t]
    decreases |cs|
  {
    if |cs| > 0 {
      var cs' := cs[..|cs| - 1];
      PutAllKeeps(d, cs');
      assert DictKeys(cs') <= DictKeys(cs) by {
        assert forall u :: 0 <= u < |cs'| ==> cs'[u] == cs[u];
      }
      assert cs[|cs| - 1].key in DictKeys(cs);
    }
  }

  lemma {:induction false} DistinctCard(s: Store)
    requires DistinctKeys(s)
    ensures |StoreKeys(s)| == |s|
    decreases |s|
  {
    if |s| > 0 {
      var s' := s[..|s| - 1];
      DistinctCard(s');
      assert StoreKeys(s) == StoreKeys(s') + {s[|s| - 1].key};
      assert s[|s| - 1].key !in StoreKeys(s');
    }
  }

  /** The keys listed in a candidate sequence. */
  function Elems(cs: seq<Key>): set<Key> {
    set c | c in cs
  }

  lemma ElemsPrefixStep(cs: seq<Key>, i: nat)
    requires i < |cs|
    ensures Elems(cs[..i + 1]) == Elems(cs[..i]) + {cs[i]}
  {
    assert cs[..i + 1] == cs[..i] + [cs[i]];
  }

  lemma StoreKeysAppend(r: Store, sl: Slot)
    ensures StoreKeys(r + [sl]) == StoreKeys(r) + {sl.key}
  {
    var r' := r + [sl];
    assert forall t :: 0 <= t < |r| ==> r'[t] == r[t];
    assert r'[|r|] == sl;
  }

  lemma AppendDistinct(r: Store, sl: Slot)
    requires DistinctKeys(r)
    requires sl.key !in StoreKeys(r)
    ensures DistinctKeys(r + [sl])
  {
    assert forall t :: 0 <= t < |r| ==> r[t].key in StoreKeys(r);
  }

  lemma NewKeysCount(s: Store, r: Store)
    requires DistinctKeys(r)
    requires |s| <= |r| && r[..|s|] == s
    ensures |StoreKeys(r) - StoreKeys(s)| == |r| - |s|
  {
    assert DistinctKeys(s) by {
      assert forall t :: 0 <= t < |s| ==> s[t] == r[t];
    }
    DistinctCard(s);
    DistinctCard(r);
    assert StoreKeys(s) <= StoreKeys(r) by {
      assert forall t :: 0 <= t < |s| ==> s[t] == r[t];
    }
    var a, b := StoreKeys(r), StoreKeys(s);
    assert a == (a - b) + b;
    assert (a - b) * b == {};
  }

  /** The loop state of `_calc_indexes_j` after the first i candidates. */
  ghost predicate AddInv(s: Store, cands: seq<Key>, i: nat, r: Store, added: nat) {
    && i <= |cands|
    && DistinctKeys(r)
    && |s| <= |r| && r[..|s|] == s
    && StoreKeys(r) == StoreKeys(s) + Elems(cands[..i])
    && (forall t :: |s| <= t < |r| ==> r[t].entry == None && r[t].key !in StoreKeys(s))
    && added == |r| - |s|
  }

  /** The store after offering one more candidate index. */
  function AddKey(r: Store, k: Key): Store {
    if k in StoreKeys(r) then r else r + [Slot(k, None)]
  }

  lemma AddStep(s: Store, cands: seq<Key>, i: nat, r: Store, added: nat)
    requires AddInv(s, cands, i, r, added) && i < |cands|
    ensures AddInv(s, cands, i + 1, AddKey(r, cands[i]), added + |AddKey(r, cands[i])| - |r|)
  {
    ElemsPrefixStep(cands, i);
    if cands[i] !in StoreKeys(r) {
      var sl := Slot(cands[i], None);
      AppendDistinct(r, sl);
      StoreKeysAppend(r, sl);
      assert (r + [sl])[..|s|] == r[..|s|];
      assert cands[i] !in StoreKeys(s);
    }
  }

  lemma AddDone(s: Store, cands: seq<Key>, r: Store, added: nat)
    requires AddInv(s, cands, |cands|, r, added)
    ensures StoreKeys(r) == StoreKeys(s) + Elems(cands)
    ensures added == |Elems(cands) - StoreKeys(s)|
  {
    assert cands[..|cands|] == cands;
    NewKeysCount(s, r);
    assert Elems(cands) - StoreKeys(s) == StoreKeys(r) - StoreKeys(s);
  }

  /** `_calc_indexes_j`: adds every candidate index (the translations of the
      external `z_range`) that is not yet a key, with a pending slot, and
      returns how many keys were new. Slots already present stay as they
      are, where they are. */
  method AddIndexes(s: Store, cands: seq<Key>) returns (r: Store, added: nat)
    requires DistinctKeys(s)
    ensures DistinctKeys(r)
    ensures |s| <= |r| && r[..|s|] == s
    ensures StoreKeys(r) == StoreKeys(s) + Elems(cands)
    ensures forall i :: |s| <= i < |r| ==> r[i].entry == None && r[i].key !in StoreKeys(s)
    ensures added == |r| - |s|
    ensures added == |Elems(cands) - StoreKeys(s)|
  {
    r := s;
    added := 0;
    var i := 0;
    assert cands[..0] == [];
    while i < |cands|
      invariant AddInv(s, cands, i, r, added)
    {
      AddStep(s, cands, i, r, added);
      if cands[i] !in StoreKeys(r) {
        r := r + [Slot(cands[i], None)];
        added := added + 1;
      }
      i := i + 1;
    }
    AddDone(s, cands, r, added);
  }

  /** `fun_ix(which, key)(xs)`: one function evaluated at every sample. */
  function Column(f: (Key, Point) -> real, key: Key, xs: seq<Point>): (r: seq<real>)
    ensures |r| == |xs|
    ensures forall i :: 0 <= i < |xs| ==> r[i] == f(key, xs[i])
  {
    seq(|xs|, i requires 0 <= i < |xs| => f(key, xs[i]))
  }

  /** Elementwise product of two vectors of equal length. */
  function Times(a: seq<real>, b: seq<real>): (r: seq<real>)
    requires |a| == |b|
    ensures |r| == |a|
    ensures forall i :: 0 <= i < |a| ==> r[i] == a[i] * b[i]
  {
    seq(|a|, i requires 0 <= i < |a| => a[i] * b[i])
  }

  function SupportColumn(wave: Wave, key: Key, xs: seq<Point>): (r: seq<bool>)
    ensures |r| == |xs|
    ensures forall i :: 0 <= i < |xs| ==> r[i] == wave.supp(key, xs[i])
  {
    seq(|xs|, i requires 0 <= i < |xs| => wave.supp(key, xs[i]))
  }

  /** The triple computed for one key: `(Σ dual·balls)·ω`, `(Σ base·balls)·ω`
      and the support count. */
  function Compute(key: Key, xs: seq<Point>, balls: seq<real>, omega: real, wave: Wave): Entry
    requires |xs| == |balls|
  {
    Entry(
      Sum(Times(Column(wave.dual, key, xs), balls)) * omega,
      Sum(Times(Column(wave.base, key, xs), balls)) * omega,
      Count(SupportColumn(wave, key, xs)))
  }

  /** The pruning floor of `calc_coeffs`. */
  const Floor: real := 0.0000001

  /** Both coefficients are below the floor. */
  predicate BelowFloor(coeff: real, coeffB: real) {
    Abs(coeff) < Floor && Abs(coeffB) < Floor
  }

  /** The computed pair is below the floor, so the key is pruned. */
  predicate Negligible(e: Entry) {
    BelowFloor(e.coeff, e.coeffB)
  }

  /** What `calc_coeffs` leaves for one slot, given the pair `e` computed
      for its key: a computed slot as it was, a pending slot filled with
      `e`, or nothing when `e` is negligible. */
  function Filled(sl: Slot, e: Entry): (r: Option<Slot>)
    ensures r.Some? ==> r.value.key == sl.key && r.value.entry.Some?
  {
    if sl.entry.Some? then Some(sl)
    else if Negligible(e) then None
    else Some(Slot(sl.key, Some(e)))
  }

  /** The pass of `calc_coeffs` over the dictionary, with the pair of each
      key given by `comp`. */
  function Prune(s: Store, comp: Key -> Entry): (r: Store)
    ensures |r| <= |s|
    ensures Complete(r)
    decreases |s|
  {
    if |s| == 0 then []
    else
      var rest := Prune(s[..|s| - 1], comp);
      var last := s[|s| - 1];
      match Filled(last, comp(last.key))
      case None => rest
      case Some(sl) => rest + [sl]
  }

  /** The slots after the pass are exactly what `Filled` leaves of each
      slot before it. */
  lemma {:induction false} PruneMembers(s: Store, comp: Key -> Entry)
    ensures forall c :: c in Prune(s, comp) <==>
              exists i :: 0 <= i < |s| && Filled(s[i], comp(s[i].key)) == Some(c)
    decreases |s|
  {
    if |s| > 0 {
      var s' := s[..|s| - 1];
      PruneMembers(s', comp);
      assert forall i :: 0 <= i < |s'| ==> s'[i] == s[i];
      forall c | exists i :: 0 <= i < |s| && Filled(s[i], comp(s[i].key)) == Some(c)
        ensures c in Prune(s, comp)
      {
        var i :| 0 <= i < |s| && Filled(s[i], comp(s[i].key)) == Some(c);
        if i < |s'| {
          assert Filled(s'[i], comp(s'[i].key)) == Some(c);
        }
      }
    }
  }

  lemma {:induction false} PruneDistinct(s: Store, comp: Key -> Entry)
    requires DistinctKeys(s)
    ensures DistinctKeys(Prune(s, comp))
    decreases |s|
  {
    if |s| > 0 {
      var s' := s[..|s| - 1];
      assert DistinctKeys(s') by {
        assert forall i :: 0 <= i < |s'| ==> s'[i] == s[i];
      }
      PruneDistinct(s', comp);
      PruneMembers(s', comp);
      var rest := Prune(s', comp);
      var last := s[|s| - 1];
      forall t | 0 <= t < |rest|
        ensures rest[t].key != last.key
      {
        assert rest[t] in rest;
        var i :| 0 <= i < |s'| && Filled(s'[i], comp(s'[i].key)) == Some(rest[t]);
        assert s'[i] == s[i];
      }
    }
  }

  /** `calc_coeffs`: computes the pending slots and deletes the keys whose
      computed pair is negligible, keeping the dictionary order; afterwards
      no slot is pending. */
  function CalcCoeffs(s: Store, xs: seq<Point>, balls: seq<real>, omega: real, wave: Wave): (r: Store)
    requires |xs| == |balls|
    ensures |r| <= |s|
    ensures Complete(r)
  {
    Prune(s, k => Compute(k, xs, balls, omega, wave))
  }

  lemma PruneKeepsComputed(s: Store, comp: Key -> Entry)
    ensures forall i :: 0 <= i < |s| && s[i].entry.Some? ==> s[i] in Prune(s, comp)
  {
    PruneMembers(s, comp);
    forall i | 0 <= i < |s| && s[i].entry.Some?
      ensures s[i] in Prune(s, comp)
    {
      assert Filled(s[i], comp(s[i].key)) == Some(s[i]);
    }
  }

  lemma PruneFillsPending(s: Store, comp: Key -> Entry)
    requires DistinctKeys(s)
    ensures forall i :: 0 <= i < |s| && s[i].entry.None? ==>
              (Slot(s[i].key, Some(comp(s[i].key))) in Prune(s, comp) <==> !Negligible(comp(s[i].key)))
  {
    PruneMembers(s, comp);
    forall i | 0 <= i < |s| && s[i].entry.None?
      ensures Slot(s[i].key, Some(comp(s[i].key))) in Prune(s, comp) <==> !Negligible(comp(s[i].key))
    {
      var sl := Slot(s[i].key, Some(comp(s[i].key)));
      if sl in Prune(s, comp) {
        var i' :| 0 <= i' < |s| && Filled(s[i'], comp(s[i'].key)) == Some(sl);
        assert i' == i;
      }
    }
  }

  lemma PruneOnly(s: Store, comp: Key -> Entry)
    ensures forall c :: c in Prune(s, comp) ==>
              c in s || exists i :: 0 <= i < |s| && s[i].entry.None? && c == Slot(s[i].key, Some(comp(s[i].key)))
  {
    PruneMembers(s, comp);
    forall c | c in Prune(s, comp)
      ensures c in s || exists i :: 0 <= i < |s| && s[i].entry.None? && c == Slot(s[i].key, Some(comp(s[i].key)))
    {
      var i :| 0 <= i < |s| && Filled(s[i], comp(s[i].key)) == Some(c);
      if s[i].entry.Some? {
        assert s[i] in s;
      }
    }
  }

  /** `calc_coeffs` keeps every computed slot unchanged, keeps a pending
      key, with its computed pair, exactly when that pair is not
      negligible, and adds nothing else. */
  lemma CalcCoeffsSlots(s: Store, xs: seq<Point>, balls: seq<real>, omega: real, wave: Wave)
    requires |xs| == |balls|
    requires DistinctKeys(s)
    ensures forall i :: 0 <= i < |s| && s[i].entry.Some? ==> s[i] in CalcCoeffs(s, xs, balls, omega, wave)
    ensures forall i :: 0 <= i < |s| && s[i].entry.None? ==>
              (Slot(s[i].key, Some(Compute(s[i].key, xs, balls, omega, wave))) in CalcCoeffs(s, xs, balls, omega, wave)
               <==> !Negligible(Compute(s[i].key, xs, balls, omega, wave)))
    ensures forall c :: c in CalcCoeffs(s, xs, balls, omega, wave) ==>
              c in s || exists i :: 0 <= i < |s| && s[i].entry.None? && c == Slot(s[i].key, Some(Compute(s[i].key, xs, balls, omega, wave)))
  {
    var comp := k => Compute(k, xs, balls, omega, wave);
    PruneKeepsComputed(s, comp);
    PruneFillsPending(s, comp);
    PruneOnly(s, comp);
  }

  /** The keys that survive `calc_coeffs` are the computed ones and the
      pending ones whose pair is not negligible; no key is duplicated. */
  lemma CalcCoeffsKeys(s: Store, xs: seq<Point>, balls: seq<real>, omega: real, wave: Wave)
    requires |xs| == |balls|
    requires DistinctKeys(s)
    ensures DistinctKeys(CalcCoeffs(s, xs, balls, omega, wave))
    ensures forall i :: 0 <= i < |s| ==>
              (s[i].key in StoreKeys(CalcCoeffs(s, xs, balls, omega, wave))
               <==> s[i].entry.Some? || !Negligible(Compute(s[i].key, xs, balls, omega, wave)))
  {
    var comp := k => Compute(k, xs, balls, omega, wave);
    var r := Prune(s, comp);
    PruneDistinct(s, comp);
    PruneMembers(s, comp);
    forall i | 0 <= i < |s|
      ensures s[i].key in StoreKeys(r) <==> s[i].entry.Some? || !Negligible(comp(s[i].key))
    {
      if s[i].key in StoreKeys(r) {
        var t :| 0 <= t < |r| && r[t].key == s[i].key;
        assert r[t] in r;
        var i' :| 0 <= i' < |s| && Filled(s[i'], comp(s[i'].key)) == Some(r[t]);
        assert i' == i;
      }
      var f := Filled(s[i], comp(s[i].key));
      if f.Some? {
        assert f.value in r;
        var t :| 0 <= t < |r| && r[t] == f.value;
        assert r[t].key in StoreKeys(r);
      }
    }
  }

  /** The ball volume sample `i` uses once sample `ix` is left out in
      `calc_coeffs_loo`: its (k+1)-th-ball volume when `ix` is its k-th
      neighbour (column -2 of its row), its k-th-ball volume otherwise. */
  function AdjustedBall(b: Balls, ix: nat, i: nat): real
    requires i < |b.vk| && i < |b.vk1| && i < |b.inx| && |b.inx[i]| >= 2
  {
    if b.inx[i][|b.inx[i]| - 2] == ix then b.vk1[i] else b.vk[i]
  }

  predicate BallsShape(b: Balls) {
    && |b.vk| == |b.inx|
    && |b.vk1| == |b.inx|
    && forall i :: 0 <= i < |b.inx| ==> |b.inx[i]| >= 2
  }

  /** The ball vector of `calc_coeffs_loo`: one entry per sample except
      `ix`, in sample order, each the adjusted volume. */
  method LooBalls(b: Balls, ix: nat) returns (r: seq<real>)
    requires BallsShape(b)
    requires ix < |b.inx|
    ensures |r| == |b.inx| - 1
    ensures forall t :: 0 <= t < |r| ==> r[t] == AdjustedBall(b, ix, if t < ix then t else t + 1)
  {
    r := [];
    var i := 0;
    while i < |b.inx|
      invariant 0 <= i <= |b.inx|
      invariant |r| == (if i <= ix then i else i - 1)
      invariant forall t :: 0 <= t < |r| ==> r[t] == AdjustedBall(b, ix, if t < ix then t else t + 1)
    {
      if i != ix {
        if b.inx[i][|b.inx[i]| - 2] == ix {
          r := r + [b.vk1[i]];
        } else {
          r := r + [b.vk[i]];
        }
      }
      i := i + 1;
    }
  }

  /** `calc_coeffs_loo(xs, ix)`: `calc_coeffs` over the samples without
      `ix`, with the adjusted ball vector and the bias factor for n-1
      samples (`omegaN1`). Each newly computed pair equals the adjusted
      sum over all n samples minus the left-out sample's own term. */
  method CalcCoeffsLoo(s: Store, xs: seq<Point>, b: Balls, ix: nat, omegaN1: real, wave: Wave)
    returns (r: Store)
    requires BallsShape(b) && |xs| == |b.inx|
    requires ix < |xs|
    requires DistinctKeys(s)
    ensures Complete(r)
    ensures forall i :: 0 <= i < |s| && s[i].entry.Some? ==> s[i] in r
    ensures forall c :: c in r && c !in s ==>
              exists i :: 0 <= i < |s| && s[i].entry.None? && s[i].key == c.key
    ensures forall c :: c in r && c !in s ==> LooCoef(c, xs, b, ix, omegaN1, wave)
    ensures DistinctKeys(r)
    ensures forall i, e :: 0 <= i < |s| && s[i].entry.None? && LooCoef(Slot(s[i].key, Some(e)), xs, b, ix, omegaN1, wave) ==>
              (s[i].key in StoreKeys(r) <==> !Negligible(e))
  {
    var balls := LooBalls(b, ix);
    r := CalcCoeffs(s, Delete(xs, ix), balls, omegaN1, wave);
    LooSlots(s, xs, b, ix, balls, omegaN1, wave);
    LooSurvival(s, xs, b, ix, balls, omegaN1, wave);
  }

  /** A pending key survives the leave-one-out pass exactly when its
      leave-one-out pair is not negligible. */
  lemma LooSurvival(s: Store, xs: seq<Point>, b: Balls, ix: nat, balls: seq<real>, omega: real, wave: Wave)
    requires BallsShape(b) && |xs| == |b.inx| && ix < |xs|
    requires |balls| == |xs| - 1
    requires LooBallsOf(b, ix, balls)
    requires DistinctKeys(s)
    ensures DistinctKeys(CalcCoeffs(s, Delete(xs, ix), balls, omega, wave))
    ensures forall i, e :: 0 <= i < |s| && s[i].entry.None? && LooCoef(Slot(s[i].key, Some(e)), xs, b, ix, omega, wave) ==>
              (s[i].key in StoreKeys(CalcCoeffs(s, Delete(xs, ix), balls, omega, wave)) <==> !Negligible(e))
  {
    var xs' := Delete(xs, ix);
    var r := CalcCoeffs(s, xs', balls, omega, wave);
    CalcCoeffsKeys(s, xs', balls, omega, wave);
    forall i, e | 0 <= i < |s| && s[i].entry.None? && LooCoef(Slot(s[i].key, Some(e)), xs, b, ix, omega, wave)
      ensures s[i].key in StoreKeys(r) <==> !Negligible(e)
    {
      LooNegligible(s[i].key, e, xs, b, ix, balls, omega, wave);
    }
  }

  /** The pair computed without `ix` is negligible exactly when the
      leave-one-out pair is. */
  lemma LooNegligible(key: Key, e: Entry, xs: seq<Point>, b: Balls, ix: nat, balls: seq<real>, omega: real, wave: Wave)
    requires BallsShape(b) && |xs| == |b.inx| && ix < |xs|
    requires |balls| == |xs| - 1
    requires LooBallsOf(b, ix, balls)
    requires LooCoef(Slot(key, Some(e)), xs, b, ix, omega, wave)
    ensures Negligible(Compute(key, Delete(xs, ix), balls, omega, wave)) == Negligible(e)
  {
    var c := Compute(key, Delete(xs, ix), balls, omega, wave);
    LooEntryCoef(Slot(key, Some(c)), xs, b, ix, balls, omega, wave);
    LooSamePair(key, c, e, xs, b, ix, omega, wave);
  }

  /** Two leave-one-out pairs for the same key agree in both parts. */
  lemma LooSamePair(key: Key, e1: Entry, e2: Entry, xs: seq<Point>, b: Balls, ix: nat, omega: real, wave: Wave)
    requires BallsShape(b) && |xs| == |b.inx| && ix < |xs|
    requires LooCoef(Slot(key, Some(e1)), xs, b, ix, omega, wave)
    requires LooCoef(Slot(key, Some(e2)), xs, b, ix, omega, wave)
    ensures Negligible(e1) == Negligible(e2)
  {
    assert e1.coeff == e2.coeff && e1.coeffB == e2.coeffB;
  }

  lemma LooSlots(s: Store, xs: seq<Point>, b: Balls, ix: nat, balls: seq<real>, omega: real, wave: Wave)
    requires BallsShape(b) && |xs| == |b.inx| && ix < |xs|
    requires |balls| == |xs| - 1
    requires LooBallsOf(b, ix, balls)
    requires DistinctKeys(s)
    ensures forall i :: 0 <= i < |s| && s[i].entry.Some? ==> s[i] in CalcCoeffs(s, Delete(xs, ix), balls, omega, wave)
    ensures forall c :: c in CalcCoeffs(s, Delete(xs, ix), balls, omega, wave) && c !in s ==>
              exists i :: 0 <= i < |s| && s[i].entry.None? && s[i].key == c.key
    ensures forall c :: c in CalcCoeffs(s, Delete(xs, ix), balls, omega, wave) && c !in s ==>
              LooCoef(c, xs, b, ix, omega, wave)
  {
    var xs' := Delete(xs, ix);
    var comp := k => Compute(k, xs', balls, omega, wave);
    assert CalcCoeffs(s, xs', balls, omega, wave) == Prune(s, comp);
    PruneKeepsComputed(s, comp);
    PruneOnly(s, comp);
    forall c | c in Prune(s, comp) && c !in s
      ensures exists i :: 0 <= i < |s| && s[i].entry.None? && s[i].key == c.key
      ensures LooCoef(c, xs, b, ix, omega, wave)
    {
      var i :| 0 <= i < |s| && s[i].entry.None? && c == Slot(s[i].key, Some(comp(s[i].key)));
      LooEntryCoef(c, xs, b, ix, balls, omega, wave);
    }
  }

  /** `balls` is the ball vector of `calc_coeffs_loo` for left-out sample `ix`. */
  predicate LooBallsOf(b: Balls, ix: nat, balls: seq<real>)
    requires BallsShape(b) && |balls| < |b.inx|
  {
    forall t :: 0 <= t < |balls| ==> balls[t] == AdjustedBall(b, ix, if t < ix then t else t + 1)
  }

  /** The adjusted volumes of all n samples, `ix` included. */
  function AdjustedBalls(b: Balls, ix: nat): (r: seq<real>)
    requires BallsShape(b)
    ensures |r| == |b.inx|
    ensures forall i :: 0 <= i < |r| ==> r[i] == AdjustedBall(b, ix, i)
  {
    seq(|b.inx|, i requires 0 <= i < |b.inx| => AdjustedBall(b, ix, i))
  }

  /** The adjusted weighted sum over all samples except `ix`, written over
      all n samples. */
  function LooSum(f: (Key, Point) -> real, key: Key, xs: seq<Point>, b: Balls, ix: nat): real
    requires BallsShape(b) && |xs| == |b.inx| && ix < |xs|
  {
    Sum(Times(Column(f, key, xs), AdjustedBalls(b, ix))) - f(key, xs[ix]) * AdjustedBall(b, ix, ix)
  }

  /** Leave-one-out consistency: the sum over the n-1 remaining samples
      equals the full adjusted sum minus the left-out sample's term. */
  lemma LooReindex(key: Key, xs: seq<Point>, b: Balls, ix: nat, balls: seq<real>, f: (Key, Point) -> real)
    requires BallsShape(b) && |xs| == |b.inx| && ix < |xs|
    requires |balls| == |xs| - 1
    requires LooBallsOf(b, ix, balls)
    ensures Sum(Times(Column(f, key, Delete(xs, ix)), balls)) == LooSum(f, key, xs, b, ix)
  {
    ColumnDelete(f, key, xs, ix);
    LooBallsDelete(b, ix, balls);
    TimesDelete(Column(f, key, xs), AdjustedBalls(b, ix), ix);
    LooSumAt(f, key, xs, b, ix);
  }

  /** The left-out term of `LooSum` is the product at `ix`. */
  lemma LooSumAt(f: (Key, Point) -> real, key: Key, xs: seq<Point>, b: Balls, ix: nat)
    requires BallsShape(b) && |xs| == |b.inx| && ix < |xs|
    ensures LooSum(f, key, xs, b, ix) ==
            Sum(Times(Column(f, key, xs), AdjustedBalls(b, ix))) - Column(f, key, xs)[ix] * AdjustedBalls(b, ix)[ix]
  {
    assert Column(f, key, xs)[ix] == f(key, xs[ix]) && AdjustedBalls(b, ix)[ix] == AdjustedBall(b, ix, ix);
  }

  /** Leaving a sample out of the samples leaves its value out of the column. */
  lemma ColumnDelete(f: (Key, Point) -> real, key: Key, xs: seq<Point>, ix: nat)
    requires ix < |xs|
    ensures Column(f, key, Delete(xs, ix)) == Delete(Column(f, key, xs), ix)
  {
    var xs' := Delete(xs, ix);
    forall t | 0 <= t < |xs'|
      ensures Column(f, key, xs')[t] == Delete(Column(f, key, xs), ix)[t]
    {
      assert xs'[t] == xs[if t < ix then t else t + 1];
    }
  }

  lemma SumDeleted(part: seq<real>, full: seq<real>, ix: nat)
    requires ix < |full| && |part| == |full| - 1
    requires forall t :: 0 <= t < |part| ==> part[t] == Delete(full, ix)[t]
    ensures Sum(part) == Sum(full) - full[ix]
  {
    assert part == Delete(full, ix);
    SumDelete(full, ix);
  }

  /** The leave-one-out ball vector is the adjusted vector with `ix` left out. */
  lemma LooBallsDelete(b: Balls, ix: nat, balls: seq<real>)
    requires BallsShape(b) && ix < |b.inx| && |balls| == |b.inx| - 1
    requires LooBallsOf(b, ix, balls)
    ensures balls == Delete(AdjustedBalls(b, ix), ix)
  {
    var full := AdjustedBalls(b, ix);
    forall t | 0 <= t < |balls|
      ensures balls[t] == Delete(full, ix)[t]
    {
      assert Delete(full, ix)[t] == full[if t < ix then t else t + 1];
    }
  }

  /** Leaving one index out of both factors leaves that one product out of
      the weighted sum. */
  lemma TimesDelete(a: seq<real>, w: seq<real>, ix: nat)
    requires |a| == |w| && ix < |a|
    ensures Sum(Times(Delete(a, ix), Delete(w, ix))) == Sum(Times(a, w)) - a[ix] * w[ix]
  {
    var full := Times(a, w);
    var part := Times(Delete(a, ix), Delete(w, ix));
    forall t | 0 <= t < |part|
      ensures part[t] == Delete(full, ix)[t]
    {
      var u := if t < ix then t else t + 1;
      assert Delete(a, ix)[t] == a[u] && Delete(w, ix)[t] == w[u];
    }
    SumDeleted(part, full, ix);
  }

  /** A pair computed by `calc_coeffs_loo`, written over all n samples. */
  lemma LooEntry(key: Key, xs: seq<Point>, b: Balls, ix: nat, balls: seq<real>, omega: real, wave: Wave)
    requires BallsShape(b) && |xs| == |b.inx| && ix < |xs|
    requires |balls| == |xs| - 1
    requires LooBallsOf(b, ix, balls)
    ensures Compute(key, Delete(xs, ix), balls, omega, wave).coeff == LooSum(wave.dual, key, xs, b, ix) * omega
    ensures Compute(key, Delete(xs, ix), balls, omega, wave).coeffB == LooSum(wave.base, key, xs, b, ix) * omega
  {
    LooCoeff(key, xs, b, ix, balls, omega, wave);
    LooCoeffB(key, xs, b, ix, balls, omega, wave);
  }

  lemma LooCoeff(key: Key, xs: seq<Point>, b: Balls, ix: nat, balls: seq<real>, omega: real, wave: Wave)
    requires BallsShape(b) && |xs| == |b.inx| && ix < |xs|
    requires |balls| == |xs| - 1
    requires LooBallsOf(b, ix, balls)
    ensures Compute(key, Delete(xs, ix), balls, omega, wave).coeff == LooSum(wave.dual, key, xs, b, ix) * omega
  {
    var x := Sum(Times(Column(wave.dual, key, Delete(xs, ix)), balls));
    var y := LooSum(wave.dual, key, xs, b, ix);
    ComputeFields(key, Delete(xs, ix), balls, omega, wave);
    LooReindex(key, xs, b, ix, balls, wave.dual);
    MulEqual(x, y, omega);
  }

  lemma LooCoeffB(key: Key, xs: seq<Point>, b: Balls, ix: nat, balls: seq<real>, omega: real, wave: Wave)
    requires BallsShape(b) && |xs| == |b.inx| && ix < |xs|
    requires |balls| == |xs| - 1
    requires LooBallsOf(b, ix, balls)
    ensures Compute(key, Delete(xs, ix), balls, omega, wave).coeffB == LooSum(wave.base, key, xs, b, ix) * omega
  {
    var x := Sum(Times(Column(wave.base, key, Delete(xs, ix)), balls));
    var y := LooSum(wave.base, key, xs, b, ix);
    ComputeFields(key, Delete(xs, ix), balls, omega, wave);
    LooReindex(key, xs, b, ix, balls, wave.base);
    MulEqual(x, y, omega);
  }

  lemma ComputeFields(key: Key, ys: seq<Point>, balls: seq<real>, omega: real, wave: Wave)
    requires |ys| == |balls|
    ensures Compute(key, ys, balls, omega, wave).coeff == Sum(Times(Column(wave.dual, key, ys), balls)) * omega
    ensures Compute(key, ys, balls, omega, wave).coeffB == Sum(Times(Column(wave.base, key, ys), balls)) * omega
  {
  }

  lemma MulEqual(x: real, y: real, w: real)
    requires x == y
    ensures x * w == y * w
  {
  }

  /** The slot holds the leave-one-out pair of its key. */
  predicate LooCoef(c: Slot, xs: seq<Point>, b: Balls, ix: nat, omega: real, wave: Wave)
    requires BallsShape(b) && |xs| == |b.inx| && ix < |xs|
  {
    && c.entry.Some?
    && c.entry.value.coeff == LooSum(wave.dual, c.key, xs, b, ix) * omega
    && c.entry.value.coeffB == LooSum(wave.base, c.key, xs, b, ix) * omega
  }

  lemma LooEntryCoef(c: Slot, xs: seq<Point>, b: Balls, ix: nat, balls: seq<real>, omega: real, wave: Wave)
    requires BallsShape(b) && |xs| == |b.inx| && ix < |xs|
    requires |balls| == |xs| - 1
    requires LooBallsOf(b, ix, balls)
    requires c.entry == Some(Compute(c.key, Delete(xs, ix), balls, omega, wave))
    ensures LooCoef(c, xs, b, ix, omega, wave)
  {
    LooEntry(c.key, xs, b, ix, balls, omega, wave);
  }
}
